=== FILE: README.md ===
# face-client in Dafny

A model of the decision logic of the face-recognition kiosk client: the
`FaceHelper` per-frame pipeline of the face library, the smaller pieces of
that library (`FaceServer`, `FaceDetect`, `FaceConfiguration.Builder`,
`FaceCameraView`), the NV21 frame rotations, and the app-side utilities with
crisp integer, string or state logic (activity registry, click debouncing,
keyboard hysteresis, scrim notifications, grid offsets, log tags, HTTP result
classification and cache guards, the crash handler and crash screen, the
title-bar search, the loading-dialog counter and the serial temperature frame).

The style is functional. Every component is an immutable datatype, and each
of its operations is a pure function from the old state and the call's
inputs to the new state and the callbacks it fires. The NV21 rotations are
the exception: they are imperative methods over arrays, with loop invariants.
Everything the code cannot decide by itself becomes a parameter:
- the face engine's result codes, face lists, scores, features and liveness values;
- wall-clock and uptime readings;
- whether a network is connected;
- the key order of a map.

Threads, `wait`/`notifyAll` and `Handler.postDelayed` become explicit
events on the `FaceHelper` state:
- a liveness task finishing;
- a feature task finishing;
- a blocked feature task being woken or interrupted;
- a posted reset firing.

The project has one Dafny module per source component:

| module | file | models |
|---|---|---|
| `Common` | common.dfy | options, Kotlin `Int` wrap-around, string prefixes and search, decimal rendering |
| `Engine` | engine.dfy | the engine vocabulary: result codes, mask and liveness values, orientations |
| `FaceFrame` | face_frame.dfy | `keepMaxFace`, `judgeFaceSize`, the five-deep stability buffer |
| `Presence` | presence.dfy | `anybody`, the presence/count edge detector |
| `Registry` | registry.dfy | `recognizeInfoMap`: lazy `getRecognizeInfo`, the guarded `change*` setters, `clearLeftFace` |
| `FaceHelper` | face_helper.dfy | `onPreviewFrame`, the liveness and feature handlers, `searchFace`, the worker tasks, `doRecognize`, resets, `destroy` |
| `FaceServer` | face_server.dfy | orientation mapping, 1:N and 1:1 comparison, private feature extraction |
| `FaceDetect` | face_detect.dfy | the detection-only wrapper |
| `FaceConfiguration` | face_configuration.dfy | builder defaults, setters, `build()` |
| `FaceCameraView` | face_camera_view.dfy | recognise area, colour and label, `enableFace`, frame gating, forwarding |
| `Nv21` | nv21.dfy | `rotateYUV420Degree90`, `180`, `270` |
| `MainActivity` | main_activity.dfy | `findMatch`, serial temperature frames, the detection reaction |
| `ActivityManager` | activity_manager.dfy | activity registry and application lifecycle callbacks |
| `Http` | http.dfy | `HttpData`, `HttpListData.isLastPage`, `RequestHandler` |
| `AppActivity` | app_activity.dfy | the loading-dialog counter |
| `TitleBar` | title_bar.dfy | `obtainTitleBar` |
| `CrashActivity` | crash_activity.dfy | density bucket, stack-trace styling, `isTablet` |
| `CrashHandler` | crash_handler.dfy | crash-loop window, restart decision, handler chaining |
| `SingleClick` | single_click.dfy | `@SingleClick` tag and debounce |
| `DoubleClick` | double_click.dfy | `DoubleClickHelper` |
| `KeyboardWatcher` | keyboard_watcher.dfy | soft-keyboard hysteresis |
| `CollapsingToolbar` | collapsing_toolbar.dfy | scrim edge notification |
| `GridSpace` | grid_space.dfy | `GridSpaceDecoration.getItemOffsets` |
| `DebugLogger` | debug_logger.dfy | `createStackElementTag` |

## Model

| member | source | states |
|---|---|---|
| FaceFrame.Ids | library/face/src/main/java/com/tl/face/face/FaceHelper.kt:459-460 | the ids handed to `detectFaceNum` are the faces' ids, one per face, in list order |
| FaceFrame.MaxFromKeepsInv | library/face/src/main/java/com/tl/face/face/FaceHelper.kt:474-479 | the scan of `keepMaxFace` ends on a face of maximal `width*height` that no earlier face ties, because the comparison is strict |
| FaceFrame.KeepMaxFace | library/face/src/main/java/com/tl/face/face/FaceHelper.kt:470-482 | a list of at most one face is left alone; a longer one becomes the singleton of its largest face, the earliest one on ties |
| FaceFrame.LargestFirstIsUnique | library/face/src/main/java/com/tl/face/face/FaceHelper.kt:470-482 | only one position can be "largest, earliest on ties", so the face `keepMaxFace` keeps is determined |
| FaceFrame.BufferStep | library/face/src/main/java/com/tl/face/face/FaceHelper.kt:356-381 | one candidate through `tempDetection`: empty buffer gives [c]; same face and mask appends; same face with another mask restarts at [c]; another face empties the buffer; it fires exactly when a fifth equal entry arrives, and then the buffer is empty |
| FaceFrame.BufferStepBounded | library/face/src/main/java/com/tl/face/face/FaceHelper.kt:356-381 | the buffer always holds at most four copies of one candidate between steps |
| FaceFrame.Repeat | library/face/src/main/java/com/tl/face/face/FaceHelper.kt:356-381 | the reference sequence of `n` copies of a candidate |
| FaceFrame.StepRepeat | library/face/src/main/java/com/tl/face/face/FaceHelper.kt:361-381 | one more copy of the buffered candidate grows the buffer, or fires and empties it at the fifth |
| FaceFrame.RepeatedCandidate | library/face/src/main/java/com/tl/face/face/FaceHelper.kt:356-381 | the same candidate `n` times after `k` buffered copies leaves `(k+n) mod 5` copies and fires `(k+n) div 5` times; from empty, N repeats fire ⌊N/5⌋ times |
| FaceFrame.AlternatingFacesNeverFire | library/face/src/main/java/com/tl/face/face/FaceHelper.kt:368-370 | two faces taking turns never fire the detection, since each change of face empties the buffer |
| FaceFrame.Alternate | library/face/src/main/java/com/tl/face/face/FaceHelper.kt:368-370 | the alternating input used above has the requested length |
| FaceFrame.Eligible | library/face/src/main/java/com/tl/face/face/FaceHelper.kt:346-354 | the candidates that reach the buffer are at most the previews given |
| FaceFrame.BufferPass | library/face/src/main/java/com/tl/face/face/FaceHelper.kt:345-383 | the buffer loop reports only `notInTheArea` and `detectionFace` carrying the first preview's mask |
| FaceFrame.CountOfAppend | library/face/src/main/java/com/tl/face/face/FaceHelper.kt:345-383 | event counts add up over concatenated event lists |
| FaceFrame.BufferPassIsRunOverEligible | library/face/src/main/java/com/tl/face/face/FaceHelper.kt:345-383 | the loop equals the buffer run over the large-enough, in-area previews only; too-small faces are skipped silently and out-of-area faces each report `notInTheArea` without touching the buffer |
| FaceFrame.BufferPassBounded | library/face/src/main/java/com/tl/face/face/FaceHelper.kt:345-383 | after a whole frame the buffer still holds at most four copies of one candidate |
| Presence.Anybody | library/face/src/main/java/com/tl/face/face/FaceHelper.kt:446-464 | `someone` fires iff presence goes false→true, `nobody` iff true→false, `detectFaceNum(n, ids)` iff the count changed and last; afterwards both stored values match the frame |
| Presence.AnybodySettles | library/face/src/main/java/com/tl/face/face/FaceHelper.kt:446-464 | edge triggering: the same frame seen again fires nothing |
| Presence.Presences | library/face/src/main/java/com/tl/face/face/FaceHelper.kt:449-456 | the presence signals of a signal list are no more than the signals |
| Presence.PresencesAppend | library/face/src/main/java/com/tl/face/face/FaceHelper.kt:449-456 | presence signals of a concatenation concatenate |
| Presence.AnybodyPresence | library/face/src/main/java/com/tl/face/face/FaceHelper.kt:449-456 | a frame's presence signal, when there is one, is the new presence flag |
| Presence.RunAlternates | library/face/src/main/java/com/tl/face/face/FaceHelper.kt:449-456 | over any run of frames `someone` and `nobody` strictly alternate, starting opposite the stored flag |
| Presence.RunFlipsPerSignal | library/face/src/main/java/com/tl/face/face/FaceHelper.kt:449-456 | after any run of frames the stored flag has flipped once per presence signal fired |
| Registry.FromEngine | library/face/src/main/java/com/tl/face/face/FaceHelper.kt:641-642 | an engine report stores ALIVE iff ALIVE, NOT_ALIVE iff NOT_ALIVE, and never ANALYZING or FAILED |
| Registry.GetRecognizeInfo | library/face/src/main/java/com/tl/face/face/FaceHelper.kt:395-402 | the lookup returns the stored entry; an absent id gets a fresh entry and no other entry changes |
| Registry.GetRecognizeInfoIdempotent | library/face/src/main/java/com/tl/face/face/FaceHelper.kt:395-402 | a second lookup creates nothing and returns the same entry |
| Registry.GetAllCreatesMissing | library/face/src/main/java/com/tl/face/face/FaceHelper.kt:395-402 | looking up many ids creates exactly the missing ones, each fresh, at most one per id |
| Registry.ApplyChange | library/face/src/main/java/com/tl/face/face/FaceHelper.kt:791-807 | `changeRecognizeStatus`, `changeLiveness` and `changeMsg` write only their own field of a present entry, and do nothing for an absent id |
| Registry.ChangesKeepKeys | library/face/src/main/java/com/tl/face/face/FaceHelper.kt:791-807 | no sequence of setter calls creates or removes an entry |
| Registry.ChangesOnAbsentIds | library/face/src/main/java/com/tl/face/face/FaceHelper.kt:809-822 | setter calls for departed faces, such as a delayed reset, change nothing |
| Registry.ClearLeftFace | library/face/src/main/java/com/tl/face/face/FaceHelper.kt:487-508 | keeps exactly the old keys among the frame's ids, unchanged, and notifies exactly the removed ones |
| Registry.ClearLeftFaceIdempotent | library/face/src/main/java/com/tl/face/face/FaceHelper.kt:487-508 | clearing again with the same ids removes nothing more |
| FaceHelper.Init | library/face/src/main/java/com/tl/face/face/FaceHelper.kt:52-54 | a helper exists iff `detectFaceMaxNum >= 1` (the queue capacity), and it starts empty, unpaused, with no pending resets |
| FaceHelper.Engines | library/face/src/main/java/com/tl/face/face/FaceHelper.kt:175-239 | the VIDEO engine uses the configured orientation; the extraction engine exists iff recognition is on and the liveness engine iff a liveness type is set; neither of them nor `FaceServer` is given ASF_OP_ALL_OUT |
| FaceHelper.OverrunAtTwiceThePool | library/face/src/main/java/com/tl/face/face/FaceHelper.kt:589 | with `n` core threads and a queue of capacity `n`, `remainingCapacity() <= 0` holds iff at least `2n` tasks are in flight |
| FaceHelper.Report | library/face/src/main/java/com/tl/face/face/FaceHelper.kt:577-580 | `onError` delivers exactly one error, of the given kind and code, iff an error callback is configured |
| FaceHelper.Notify | library/face/src/main/java/com/tl/face/face/FaceHelper.kt:503-505 | `notifyAll` wakes exactly the waiters on the given faces' monitors and leaves the rest as they were |
| FaceHelper.MaskErrorReportsMok | library/face/src/main/java/com/tl/face/face/FaceHelper.kt:298-305 | as written, a failing `getMask` after a successful `process` is reported as DETECT_MASK with code MOK |
| FaceHelper.MaskStageAsWritten | library/face/src/main/java/com/tl/face/face/FaceHelper.kt:289-314 | as written: masks only with masks on, a face kept and `process` MOK; an error iff one of the two calls failed and an error callback exists, every error a DETECT_MASK |
| FaceHelper.MaskStage | library/face/src/main/java/com/tl/face/face/FaceHelper.kt:289-314 | masks are asked for only when masks are on and a face was kept, kept only after a successful `process`; an error is reported iff one of the two calls failed, with a failing code |
| FaceHelper.MaskStagesAgree | library/face/src/main/java/com/tl/face/face/FaceHelper.kt:301-305 | both mask stages keep the same masks, and they differ exactly when `process` is MOK, `getMask` fails and the error is delivered |
| FaceHelper.Previews | library/face/src/main/java/com/tl/face/face/FaceHelper.kt:316-343 | one preview per kept face, in order; the i-th mask is attached only when masks are on and there is one mask per face |
| FaceHelper.OnPreviewFrame | library/face/src/main/java/com/tl/face/face/FaceHelper.kt:248-392 | a frame only removes registry entries and leaves the survivors unchanged; posted resets, queued tasks, the pause and shutdown flags and the number of waiters are kept |
| FaceHelper.PausedFrameIsQuiet | library/face/src/main/java/com/tl/face/face/FaceHelper.kt:255-262 | a paused frame clears the two frame lists and changes and reports nothing else |
| FaceHelper.FailedDetectionOnlyReports | library/face/src/main/java/com/tl/face/face/FaceHelper.kt:265-279 | a failed detection reports DETECT_FACES (if anyone listens) and nothing else: no presence event, no buffer, registry or preview change |
| FaceHelper.DetectedFramePresence | library/face/src/main/java/com/tl/face/face/FaceHelper.kt:281-287 | presence and count are judged on the full detected list, before `keepMaxFace`, and reported first |
| FaceHelper.DetectedFrameKeeps | library/face/src/main/java/com/tl/face/face/FaceHelper.kt:284-287 | the kept faces are the detected ones, trimmed to one when `recognizeKeepMaxFace` is on, and the preview callback comes last |
| FaceHelper.DetectedFrameClears | library/face/src/main/java/com/tl/face/face/FaceHelper.kt:389-390 | after a detected frame exactly the entries of kept faces survive, unchanged |
| FaceHelper.Put | library/face/src/main/java/com/tl/face/face/FaceHelper.kt:791-807 | writing a present entry stores it under its id, keeps the key set and every other entry, and changes nothing else |
| FaceHelper.RetryLivenessDetectDelayed | library/face/src/main/java/com/tl/face/face/FaceHelper.kt:809-814 | changes no entry and no waiter now; one reset, the liveness reset of that face, is added after those already posted |
| FaceHelper.RetryRecognizeDelayed | library/face/src/main/java/com/tl/face/face/FaceHelper.kt:816-822 | marks a present face FAILED now (an absent one stays absent) and posts the reset to TO_RETRY |
| FaceHelper.OnLiveness | library/face/src/main/java/com/tl/face/face/FaceHelper.kt:633-679 | a result for an absent face changes nothing; otherwise only that face's entry, the waiters and the pending resets can change, by at most one reset |
| FaceHelper.LivenessReportStored | library/face/src/main/java/com/tl/face/face/FaceHelper.kt:641-664 | a report sets liveness to the reported value and leaves status and counters alone; only ALIVE wakes the face's waiters; a reset is posted iff NOT_ALIVE |
| FaceHelper.LivenessFailuresCount | library/face/src/main/java/com/tl/face/face/FaceHelper.kt:665-677 | within the budget, each missing report adds one to the counter and puts liveness back to UNKNOWN |
| FaceHelper.LivenessFailsPastBudget | library/face/src/main/java/com/tl/face/face/FaceHelper.kt:667-674 | from a clean counter, liveness turns FAILED exactly at the (`livenessErrorRetryCount`+1)-th missing report; the counter restarts and a reset is posted |
| FaceHelper.LivenessFailuresLast | library/face/src/main/java/com/tl/face/face/FaceHelper.kt:665-677 | `n+1` missing reports are `n` of them followed by one more |
| FaceHelper.SearchFace | library/face/src/main/java/com/tl/face/face/FaceHelper.kt:750-789 | no callback or no match at all fails without retry; comparison off succeeds and hands the feature over; a best match at or above the threshold succeeds, below it fails and is retried; only that face's status and message change |
| FaceHelper.OnFeature | library/face/src/main/java/com/tl/face/face/FaceHelper.kt:686-745 | a result for an absent face changes nothing; otherwise only that face's entry, the waiters and the pending resets can change |
| FaceHelper.FeatureOutcomes | library/face/src/main/java/com/tl/face/face/FaceHelper.kt:702-744 | missing feature counts an extraction error (past the budget: counter restarts, FAILED with a delayed TO_RETRY; else TO_RETRY); no liveness or ALIVE stores the mask and searches; FAILED liveness fails without retry; otherwise the call waits |
| FaceHelper.LivenessWorkerResurrects | library/face/src/main/java/com/tl/face/face/FaceHelper.kt:856-857 | as written, an RGB liveness task finishing after its face left re-creates the entry and acts on it |
| FaceHelper.LivenessWorkerAsWritten | library/face/src/main/java/com/tl/face/face/FaceHelper.kt:839-931 | as written the registry gains the task's face iff the liveness is RGB and `process` returned MOK; the reported errors are those of the corrected task |
| FaceHelper.LivenessWorkersAgree | library/face/src/main/java/com/tl/face/face/FaceHelper.kt:856-857 | the stray lookup matters only for an RGB task whose face left and whose `process` succeeded; otherwise both tasks do the same |
| FaceHelper.LivenessWorker | library/face/src/main/java/com/tl/face/face/FaceHelper.kt:839-931 | without the stray lookup the task adds no entry; it passes on the first report iff the task ended with MOK and a non-empty list, else counts a failure and reports DETECT_LIVENESS with the task's code |
| FaceHelper.LivenessWorkerNoResurrection | library/face/src/main/java/com/tl/face/face/FaceHelper.kt:634-638 | a task whose face left changes nothing but may report an error |
| FaceHelper.QualityThreshold | library/face/src/main/java/com/tl/face/face/FaceHelper.kt:965-969 | the mask threshold for a WORN mask, the no-mask threshold otherwise |
| FaceHelper.FeatureWorker | library/face/src/main/java/com/tl/face/face/FaceHelper.kt:947-1043 | a feature is produced iff (quality off, or quality MOK with score at least the threshold) and extraction succeeds; the quality flag is set iff quality is on and failed |
| FaceHelper.RequestLiveness | library/face/src/main/java/com/tl/face/face/FaceHelper.kt:582-605 | a full liveness queue only sets "DetectInfoThread is full."; otherwise one task is submitted |
| FaceHelper.RequestFeature | library/face/src/main/java/com/tl/face/face/FaceHelper.kt:607-628 | a full feature queue only sets "FeatureThread is full."; otherwise one task is submitted |
| FaceHelper.RecognizeOne | library/face/src/main/java/com/tl/face/face/FaceHelper.kt:535-560 | the entry is created if new; liveness is requested (ANALYZING) exactly when a type is set, the face has not succeeded and its liveness is unresolved; a feature is requested (SEARCHING) exactly when it is TO_RETRY |
| FaceHelper.DoRecognize | library/face/src/main/java/com/tl/face/face/FaceHelper.kt:516-563 | no entry is removed, no reset is posted and no waiter added; each preview submits at most one task to each pool |
| FaceHelper.DoRecognizeKeys | library/face/src/main/java/com/tl/face/face/FaceHelper.kt:516-562 | `doRecognize` creates entries exactly for previews that pass the size and area tests and, with masks on, have a known mask |
| FaceHelper.LivenessOverrunStrands | library/face/src/main/java/com/tl/face/face/FaceHelper.kt:547-593 | with the liveness queue full the face is left ANALYZING with nothing submitted, so later passes never ask again |
| FaceHelper.ResetChanges | library/face/src/main/java/com/tl/face/face/FaceHelper.kt:810-821 | each posted reset performs two setter calls, both on its own face |
| FaceHelper.FireReset | library/face/src/main/java/com/tl/face/face/FaceHelper.kt:810-821 | a reset never adds an entry, and a reset for a departed face changes nothing |
| FaceHelper.ResetWrites | library/face/src/main/java/com/tl/face/face/FaceHelper.kt:810-821 | a reset for a present face writes the face id as its message and UNKNOWN liveness (or TO_RETRY status), and nothing else |
| FaceHelper.LivenessResetFires | library/face/src/main/java/com/tl/face/face/FaceHelper.kt:809-814 | when the reset posted by `retryLivenessDetectDelayed` runs, a present face gets its id as message and UNKNOWN liveness, everything else is as before the post; a departed face is untouched |
| FaceHelper.RecognizeResetFires | library/face/src/main/java/com/tl/face/face/FaceHelper.kt:816-822 | when the reset posted by `retryRecognizeDelayed` runs, the face FAILED meanwhile gets its id as message and TO_RETRY status, everything else is as before the call |
| FaceHelper.Step | library/face/src/main/java/com/tl/face/face/FaceHelper.kt:248-822 | no step adds a task, changes the shutdown flag, or changes the pause flag unless it is a pause |
| FaceHelper.StepNeverCreatesEntries | library/face/src/main/java/com/tl/face/face/FaceHelper.kt:633-822 | no departed face comes back: no step of the corrected helper adds a registry entry |
| FaceHelper.InterruptOnlyDropsWaiter | library/face/src/main/java/com/tl/face/face/FaceHelper.kt:731-742 | an interrupted waiter just disappears; nothing else changes |
| FaceHelper.InitInv | library/face/src/main/java/com/tl/face/face/FaceHelper.kt:52-54 | a new helper has its counters within budget and its buffer bounded |
| FaceHelper.ChangesKeepBudgets | library/face/src/main/java/com/tl/face/face/FaceHelper.kt:791-807 | the setters never move a retry counter out of its budget |
| FaceHelper.OnLivenessKeepsInv | library/face/src/main/java/com/tl/face/face/FaceHelper.kt:665-677 | the liveness counter is 0 or within the budget after any liveness result |
| FaceHelper.OnFeatureKeepsInv | library/face/src/main/java/com/tl/face/face/FaceHelper.kt:713-720 | the extraction counter is 0 or within the budget after any feature result |
| FaceHelper.FrameKeepsInv | library/face/src/main/java/com/tl/face/face/FaceHelper.kt:248-393 | a frame keeps the counters within budget and the buffer at most four equal entries |
| FaceHelper.StepKeepsInv | library/face/src/main/java/com/tl/face/face/FaceHelper.kt:248-822 | every step keeps the retry counters within budget and the buffer bounded |
| FaceHelper.Destroy | library/face/src/main/java/com/tl/face/face/FaceHelper.kt:404-437 | leaves the helper destroyed (no entry, reset or waiter, pools shut) with empty frame lists; only running tasks, the oldest in flight, remain; buffer, presence values and pause flag are kept |
| FaceHelper.ShutDown | library/face/src/main/java/com/tl/face/face/FaceHelper.kt:404-428 | posted resets removed, waiting feature tasks ended by the interrupt, queued tasks discarded; a running task survives, at most the pool size in all, the feature pool's threads shared with the waiters |
| FaceHelper.ClearAll | library/face/src/main/java/com/tl/face/face/FaceHelper.kt:431-435 | the registry and both frame lists are emptied and nothing else changes |
| FaceHelper.DestroyedStaysDestroyed | library/face/src/main/java/com/tl/face/face/FaceHelper.kt:404-437 | a destroyed helper stays destroyed after any step, no task is added, a finishing task yields only error reports and other steps report nothing |
| FaceHelper.DrainedIsInert | library/face/src/main/java/com/tl/face/face/FaceHelper.kt:404-437 | once the running tasks have finished, no step other than a frame or a pause changes or reports anything |
| FaceHelper.ResetPostedDuringDestroy | library/face/src/main/java/com/tl/face/face/FaceHelper.kt:404-435 | a feature task finishing between the pools' shutdown and the clearing still posts a recognition reset and reports its error; the reset later runs on the empty registry and does nothing |
| FaceServer.InitOrient | library/face/src/main/java/com/tl/face/face/FaceServer.kt:45-50 | ASF_OP_ALL_OUT becomes ASF_OP_0_ONLY, every other orientation is kept |
| FaceServer.InitOrientIdempotent | library/face/src/main/java/com/tl/face/face/FaceServer.kt:45-50 | mapping twice is mapping once |
| FaceServer.ScanKeepsInv | library/face/src/main/java/com/tl/face/face/FaceServer.kt:78-95 | the `forEachIndexed` loop ends with nothing picked and no positive success, or the best success so far |
| FaceServer.CompareMany | library/face/src/main/java/com/tl/face/face/FaceServer.kt:69-99 | null for an empty list, and null iff no comparison succeeded with a score above 0; otherwise the earliest successful comparison of greatest score, with its score |
| FaceServer.BestIsUnique | library/face/src/main/java/com/tl/face/face/FaceServer.kt:86-93 | at most one position is the earliest best, so the answer is determined |
| FaceServer.FailedNeverSelected | library/face/src/main/java/com/tl/face/face/FaceServer.kt:86-93 | a comparison with a non-MOK code is never selected, whatever its score |
| FaceServer.CompareOneIgnoresCode | library/face/src/main/java/com/tl/face/face/FaceServer.kt:106-117 | the 1:1 comparison returns the score whatever the engine's code |
| FaceServer.ExtractImageFeature | library/face/src/main/java/com/tl/face/face/FaceServer.kt:176-238 | a feature iff detection finds a face, mask processing and `getMask` succeed, mask and face counts agree and extraction succeeds; it is the first face's, with the first mask |
| FaceServer.ExtractUsesFirstFace | library/face/src/main/java/com/tl/face/face/FaceServer.kt:176-238 | faces and masks after the first do not affect the result |
| FaceDetect.SetCallback | library/face/src/main/java/com/tl/face/face/FaceDetect.kt:89-91 | sets only the callback |
| FaceDetect.OnPreviewFrame | library/face/src/main/java/com/tl/face/face/FaceDetect.kt:96-123 | a shut-down executor rejects the call; a failed detection changes and reports nothing; otherwise the stored values follow the frame and the edge-detector's signals go to the callback, if set |
| FaceDetect.Destroy | library/face/src/main/java/com/tl/face/face/FaceDetect.kt:148-157 | shuts the executor down and drops the callback; the stored values are kept |
| FaceDetect.DestroyedIsSilent | library/face/src/main/java/com/tl/face/face/FaceDetect.kt:148-157 | after `destroy` the next frame throws, so no callback is delivered and nothing changes |
| FaceDetect.DestroyedStaysShut | library/face/src/main/java/com/tl/face/face/FaceDetect.kt:89-157 | setting a callback again after `destroy` does not bring detection back |
| FaceDetect.LiveRunNeverThrows | library/face/src/main/java/com/tl/face/face/FaceDetect.kt:96-123 | before `destroy` no frame is rejected |
| FaceDetect.FailedFrameIsInvisible | library/face/src/main/java/com/tl/face/face/FaceDetect.kt:111-120 | a failed frame in between changes nothing about what the next frame does |
| FaceConfiguration.NewBuilder | library/face/src/main/java/com/tl/face/configuration/FaceConfiguration.kt:203-418 | the defaults: recognition on, liveness NONE, one face, keep max face, no area limit, compare on, masks off, size limit 160, both retry counts 3, both intervals 1000 |
| FaceConfiguration.SetterKeepsCallback | library/face/src/main/java/com/tl/face/configuration/FaceConfiguration.kt:187-190 | no setter changes whether a recognition callback was supplied |
| FaceConfiguration.Build | library/face/src/main/java/com/tl/face/configuration/FaceConfiguration.kt:448-454 | recognition is on iff the builder had it on and a callback exists; every other field is copied unchanged, and the builder is left with the forced value |
| FaceConfiguration.BuiltRecognizeNeedsCallback | library/face/src/main/java/com/tl/face/configuration/FaceConfiguration.kt:197-454 | after any setter chain, a built configuration recognises only with a callback |
| FaceConfiguration.DefaultRecognizesIffCallback | library/face/src/main/java/com/tl/face/configuration/FaceConfiguration.kt:31-32 | the default configuration recognises iff a callback is given |
| FaceCameraView.RecognizeAreaRect | library/face/src/main/java/com/tl/face/view/FaceCameraView.kt:269-280 | the viewfinder frame when limited; otherwise (0, 0, width or Int.MAX_VALUE if 0, height or Int.MAX_VALUE if 0) |
| FaceCameraView.UnlimitedAreaAcceptsView | library/face/src/main/java/com/tl/face/view/FaceCameraView.kt:269-280 | unlimited, a view not yet laid out accepts every non-empty rectangle at non-negative coordinates, and a laid-out view accepts exactly the rectangles inside it |
| FaceCameraView.Colour | library/face/src/main/java/com/tl/face/view/FaceCameraView.kt:288-297 | success colour when SUCCEED; else failed colour when FAILED or NOT_ALIVE; else the unknown colour |
| FaceCameraView.Label | library/face/src/main/java/com/tl/face/view/FaceCameraView.kt:299 | the entry's message, or the face id when it has none |
| FaceCameraView.ResetRestoresDefaultLabel | library/face/src/main/java/com/tl/face/view/FaceCameraView.kt:299 | after a delayed reset the drawn label is the face id, as for a face with no message |
| FaceCameraView.OnPreviewFaceInfo | library/face/src/main/java/com/tl/face/view/FaceCameraView.kt:282-325 | with drawing off nothing happens; with drawing on one rectangle per preview, and the lookup creates fresh entries for exactly the previewed faces not yet known, leaving known ones unchanged |
| FaceCameraView.DrawnRectangles | library/face/src/main/java/com/tl/face/view/FaceCameraView.kt:285-307 | the i-th rectangle is drawn for the i-th preview's face, with the colour, label and liveness of its entry |
| FaceCameraView.FrameThenDrawKeepsOnlyKeptFaces | library/face/src/main/java/com/tl/face/view/FaceCameraView.kt:282-287 | after a frame and its drawing, the registry holds only kept faces, and with drawing on exactly the kept faces |
| FaceCameraView.EnableFace | library/face/src/main/java/com/tl/face/view/FaceCameraView.kt:162-175 | no-op when unchanged; enabling with no helper and a failed initialisation leaves it off; disabling only clears the flag |
| FaceCameraView.EnableFaceKeepsViewOk | library/face/src/main/java/com/tl/face/view/FaceCameraView.kt:162-175 | the flag is never on without a helper |
| FaceCameraView.ProcessFrame | library/face/src/main/java/com/tl/face/view/FaceCameraView.kt:369-380 | frames reach the helper only while `enableFace` is on |
| FaceCameraView.Forward | library/face/src/main/java/com/tl/face/view/FaceCameraView.kt:327-355 | an event passed on is one of the forwarded kinds, and only when `enableIrDetectFaces` is false and a callback exists |
| FaceCameraView.ForwardOne | library/face/src/main/java/com/tl/face/view/FaceCameraView.kt:327-355 | a single event is passed on exactly when it is a presence, area, count or detection event, IR detection is off and a callback exists |
| FaceCameraView.ForwardAppend | library/face/src/main/java/com/tl/face/view/FaceCameraView.kt:327-355 | forwarding is done event by event, keeping their order |
| FaceCameraView.ManualRetry | library/face/src/main/java/com/tl/face/view/FaceCameraView.kt:188-202 | the manual retries reach the helper only when it exists |
| Nv21.Rotate90 | app/src/main/java/com/tl/face/utils/NV21Util.kt:5-27 | a buffer of `w*h*3/2` bytes; luma `out[x*h + (h-1-y)] = data[y*w + x]`; for each odd column from the right, the chroma pairs written backwards from the end, V then U |
| Nv21.LumaPass90 | app/src/main/java/com/tl/face/utils/NV21Util.kt:7-13 | the first loop fills the luma plane by its source formula and leaves the rest |
| Nv21.ChromaPass90 | app/src/main/java/com/tl/face/utils/NV21Util.kt:14-25 | the second loop fills the chroma bytes by their source formula and leaves the luma plane |
| Nv21.ChromaColumn90 | app/src/main/java/com/tl/face/utils/NV21Util.kt:15-24 | one outer iteration writes exactly the bytes of one odd column |
| Nv21.ChromaRow90 | app/src/main/java/com/tl/face/utils/NV21Util.kt:17-22 | one inner iteration writes exactly two bytes |
| Nv21.Luma90Pixels | app/src/main/java/com/tl/face/utils/NV21Util.kt:7-13 | the luma formula restated pixel by pixel |
| Nv21.Chroma90Pairs | app/src/main/java/com/tl/face/utils/NV21Util.kt:14-25 | the chroma formula restated pair by pair |
| Nv21.Rotate180 | app/src/main/java/com/tl/face/utils/NV21Util.kt:33-54 | a buffer of `w*h*3/2` bytes: `out[k] = data[wh-1-k]` for the luma plane and the chroma pairs in reverse order, each keeping its byte order; it depends on `w`, `h` only through `w*h` |
| Nv21.Reverse180 | app/src/main/java/com/tl/face/utils/NV21Util.kt:37-52 | the two loops write every output byte from its mirrored source |
| Nv21.ChromaReverse180 | app/src/main/java/com/tl/face/utils/NV21Util.kt:43-52 | the second loop fills the chroma part pair by pair from the end |
| Nv21.Src180Twice | app/src/main/java/com/tl/face/utils/NV21Util.kt:37-52 | the 180° source position map is its own inverse |
| Nv21.Rot180Twice | app/src/main/java/com/tl/face/utils/NV21Util.kt:37-52 | rotating by 180° twice gives back the leading `w*h*3/2` bytes |
| Nv21.EvenFrameHasWholePairs | app/src/main/java/com/tl/face/utils/NV21Util.kt:34 | even `w` and `h` give a chroma part of whole pairs |
| Nv21.Rotate180Involution | app/src/main/java/com/tl/face/utils/NV21Util.kt:33-54 | for even `w`, `h`, applying the rotation twice yields the first `w*h*3/2` input bytes |
| Nv21.Rot180Positions | app/src/main/java/com/tl/face/utils/NV21Util.kt:37-52 | the positions filled restated as the luma and chroma layout |
| Nv21.Rotate270 | app/src/main/java/com/tl/face/utils/NV21Util.kt:58-98 | the 180° rotation of the 90° rotation: luma pixel (x, y) moves to row `w-1-x`, column `y`, and each chroma pair lands at the mirrored pair position with the even-column byte (V) first, as in the input |
| Nv21.Luma270 | app/src/main/java/com/tl/face/utils/NV21Util.kt:97 | composing the two luma maps gives the 270° luma map |
| Nv21.Chroma270 | app/src/main/java/com/tl/face/utils/NV21Util.kt:97 | composing the two chroma maps gives the 270° chroma map |
| Nv21.Pair270 | app/src/main/java/com/tl/face/utils/NV21Util.kt:14-52 | the pair the 90° rotation writes for column `t`, row `y`, is the one the 180° rotation mirrors to the 270° position |
| MainActivity.FindMatch | app/src/main/java/com/tl/face/ui/activity/MainActivity.kt:179-186 | null iff no element is contained in `s`; otherwise the first contained element in list order |
| MainActivity.FindMatchAppend | app/src/main/java/com/tl/face/ui/activity/MainActivity.kt:179-186 | the search over a concatenation tries the first list, then the second |
| MainActivity.EmptyStringAlwaysMatches | app/src/main/java/com/tl/face/ui/activity/MainActivity.kt:181 | an empty string in the list always matches |
| MainActivity.Signed | app/src/main/java/com/tl/face/ui/activity/MainActivity.kt:127 | a Kotlin byte read as an `Int`: in [-128, 128), congruent to the unsigned byte, equal to it below 0x80 |
| MainActivity.RawTemperatureAsWritten | app/src/main/java/com/tl/face/ui/activity/MainActivity.kt:127 | as written: the low byte is sign-extended, so a low byte of 0x80 or more loses 256 |
| MainActivity.SignExtendedLowByteMisreads | app/src/main/java/com/tl/face/ui/activity/MainActivity.kt:127 | the frame A5 55 D8 0E 00 carries 3800 (38.00 °C) but is read as 3544 (35.44 °C) |
| MainActivity.RawTemperature | app/src/main/java/com/tl/face/ui/activity/MainActivity.kt:127 | the corrected reading: the little-endian signed 16-bit value of bytes 2 and 3 |
| MainActivity.TemperatureRoundTrip | app/src/main/java/com/tl/face/ui/activity/MainActivity.kt:124-127 | every signed 16-bit temperature, sent low byte first, is read back exactly |
| MainActivity.OnSerialData | app/src/main/java/com/tl/face/ui/activity/MainActivity.kt:122-146 | with the corrected reading: a frame longer than 4 bytes that starts A5 55 shows its 16-bit reading, with the fever flag iff above 37.2 °C; any other frame clears the text |
| MainActivity.OnSerialDataAsWritten | app/src/main/java/com/tl/face/ui/activity/MainActivity.kt:122-146 | as written: the same frames are readings, shown with the sign-extended low byte |
| MainActivity.ShowReading | app/src/main/java/com/tl/face/ui/activity/MainActivity.kt:127-135 | a reading is shown with its value, and the fever flag iff it is above 3720 hundredths (37.2 °C) |
| MainActivity.ReadingsAgreeBelow0x80 | app/src/main/java/com/tl/face/ui/activity/MainActivity.kt:127 | both readings show the same iff the low byte is below 0x80; otherwise the written one shows 256 hundredths less |
| MainActivity.ShortFramesAreIgnored | app/src/main/java/com/tl/face/ui/activity/MainActivity.kt:124 | frames of at most four bytes never count as a reading |
| MainActivity.DetectionFace | app/src/main/java/com/tl/face/ui/activity/MainActivity.kt:303-342 | detection is paused; the command A5 55 01 FB is sent, with a restart after 5 s, iff `maskInfo == 1`; otherwise the photo is uploaded |
| MainActivity.CommandIsNotAReading | app/src/main/java/com/tl/face/ui/activity/MainActivity.kt:322 | the temperature command, echoed back, is not taken for a reading |
| ActivityManager.OnCreated | app/src/main/java/com/tl/face/manager/ActivityManager.kt:130-140 | `onApplicationCreate` fires iff the set was empty before; the activity is added and becomes top |
| ActivityManager.OnResumed | app/src/main/java/com/tl/face/manager/ActivityManager.kt:146-156 | `onApplicationForeground` fires iff the activity is top and none is resumed; afterwards top = resumed = it |
| ActivityManager.OnStopped | app/src/main/java/com/tl/face/manager/ActivityManager.kt:162-173 | the resumed activity is cleared if it is this one; `onApplicationBackground` fires iff nothing is resumed afterwards |
| ActivityManager.OnDestroyed | app/src/main/java/com/tl/face/manager/ActivityManager.kt:179-191 | the activity is removed and top cleared if it was top; `onApplicationDestroy` fires iff the set is now empty |
| ActivityManager.SingleActivityLifecycle | app/src/main/java/com/tl/face/manager/ActivityManager.kt:130-191 | one activity's whole life fires create, foreground, background, destroy in order and leaves the manager as it started |
| ActivityManager.NoForegroundWhileResumed | app/src/main/java/com/tl/face/manager/ActivityManager.kt:148 | resuming while in the foreground never re-announces the foreground |
| ActivityManager.FirstOfClass | app/src/main/java/com/tl/face/manager/ActivityManager.kt:85-96 | the first key in iteration order of a live activity of exactly the class, or none iff there is none |
| ActivityManager.FinishActivity | app/src/main/java/com/tl/face/manager/ActivityManager.kt:81-97 | a null class does nothing; otherwise at most one live activity of exactly that class is finished and removed, and none only when there is none; the one removed is the first such activity in the registry's key order (`FirstOfClass`) |
| ActivityManager.FinishAllFrom | app/src/main/java/com/tl/face/manager/ActivityManager.kt:108-128 | the scanned keys are kept iff their activity is finishing or whitelisted; unscanned keys are kept |
| ActivityManager.FinishAll | app/src/main/java/com/tl/face/manager/ActivityManager.kt:108-128 | the activities left are exactly the finishing or whitelisted ones |
| ActivityManager.FinishAllWithoutWhitelist | app/src/main/java/com/tl/face/manager/ActivityManager.kt:100-102 | the no-argument form removes every live activity |
| ActivityManager.FinishAllIdempotent | app/src/main/java/com/tl/face/manager/ActivityManager.kt:108-128 | finishing all a second time changes nothing |
| Http.DefaultHttpData | app/src/main/java/com/tl/face/http/model/HttpData.kt:7-30 | the defaults: status 0, which counts as succeeded, and no message or data |
| Http.SucceedAndTokenFailureExclusive | app/src/main/java/com/tl/face/http/model/HttpData.kt:28-35 | succeeded iff status 0, token failure iff status 1001, never both |
| Http.Ceil | app/src/main/java/com/tl/face/http/model/HttpListData.kt:25 | the ceiling: the least integer not below `x` |
| Http.IsLastPage | app/src/main/java/com/tl/face/http/model/HttpListData.kt:24-26 | ⌈total/size⌉ ≤ index for a non-zero size; for size 0, true iff total < 0 (the infinity and NaN cases) |
| Http.LastPageIffCovered | app/src/main/java/com/tl/face/http/model/HttpListData.kt:24-26 | for size > 0, the last page iff the pages up to the index cover the total |
| Http.LastPageMonotone | app/src/main/java/com/tl/face/http/model/HttpListData.kt:24-26 | a last page stays last at every later index |
| Http.EmptyListIsLastPage | app/src/main/java/com/tl/face/http/model/HttpListData.kt:24-26 | with no items every page from 0 on is the last |
| Http.RequestSucceed | app/src/main/java/com/tl/face/http/model/RequestHandler.kt:33-105 | `Response` is returned before the success check; an unsuccessful response throws; a parsed envelope is returned only when it succeeded, with a token failure thrown as such and anything else as a result error |
| Http.ResponseTypeIgnoresEverything | app/src/main/java/com/tl/face/http/model/RequestHandler.kt:34-36 | asking for `Response` returns it whatever the response holds |
| Http.RequestFail | app/src/main/java/com/tl/face/http/model/RequestHandler.kt:107-133 | HTTP exceptions unchanged; timeout → timeout; unknown host → network error when offline, server error otherwise; other I/O → cancel; anything else wrapped |
| Http.RequestFailIdempotent | app/src/main/java/com/tl/face/http/model/RequestHandler.kt:109-113 | mapping a mapped failure again changes nothing |
| Http.ReadCache | app/src/main/java/com/tl/face/http/model/RequestHandler.kt:135-146 | null iff the stored value is absent, "" or "{}"; otherwise the stored value |
| Http.WriteCache | app/src/main/java/com/tl/face/http/model/RequestHandler.kt:148-159 | a null, "" or "{}" value returns false and stores nothing; otherwise it is stored and the commit result returned |
| Http.CacheRoundTrip | app/src/main/java/com/tl/face/http/model/RequestHandler.kt:135-159 | what is written is read back, and a rejected value leaves the cache as it was |
| AppActivity.Initial | app/src/main/java/com/tl/face/app/AppActivity.kt:35-38 | no dialog and a count of 0 |
| AppActivity.ShowDialog | app/src/main/java/com/tl/face/app/AppActivity.kt:45-50 | the count goes up and a delayed show is posted iff the activity is neither finishing nor destroyed |
| AppActivity.DelayedShow | app/src/main/java/com/tl/face/app/AppActivity.kt:50-62 | nothing happens with a count ≤ 0 or a closing activity; otherwise the dialog ends up showing, created at most once |
| AppActivity.HideDialog | app/src/main/java/com/tl/face/app/AppActivity.kt:66-77 | decrements only a positive count; the dialog is dismissed iff the count reaches 0 while it is showing |
| AppActivity.OnDestroy | app/src/main/java/com/tl/face/app/AppActivity.kt:174-180 | the activity is destroyed and the dialog reference dropped; the count is kept, since the `hideDialog` call returns at once on a destroyed activity |
| AppActivity.DestroyedIgnoresCalls | app/src/main/java/com/tl/face/app/AppActivity.kt:45-77 | after `onDestroy` no call changes anything: no show is posted, no count moves, no dialog appears |
| AppActivity.CountNeverNegative | app/src/main/java/com/tl/face/app/AppActivity.kt:70-72 | over any sequence of calls the count stays non-negative |
| AppActivity.ShowThenHideRestores | app/src/main/java/com/tl/face/app/AppActivity.kt:45-77 | a show followed by a hide restores the count |
| AppActivity.DelayedShowIdempotent | app/src/main/java/com/tl/face/app/AppActivity.kt:54-61 | a second delayed show changes nothing |
| AppActivity.NestedHideKeepsDialog | app/src/main/java/com/tl/face/app/AppActivity.kt:73-75 | hiding while other shows are outstanding keeps the dialog |
| TitleBar.ObtainTitleBar | app/src/main/java/com/tl/face/action/TitleBarAction.kt:96-113 | null for a null group; a result is a TitleBar strictly inside the group, never the group itself; null iff the subtree holds no TitleBar |
| TitleBar.Search | app/src/main/java/com/tl/face/action/TitleBarAction.kt:100-112 | a found view is a TitleBar; children that are neither TitleBars nor groups give none |
| TitleBar.FirstTitleBar | app/src/main/java/com/tl/face/action/TitleBarAction.kt:100-112 | the reference answer: the first TitleBar of a list, none iff there is none |
| TitleBar.FirstTitleBarAppend | app/src/main/java/com/tl/face/action/TitleBarAction.kt:100-112 | the first TitleBar of a concatenation comes from the first part if it has one |
| TitleBar.SearchIsFirstInPreorder | app/src/main/java/com/tl/face/action/TitleBarAction.kt:100-112 | the recursive search returns the first TitleBar in depth-first pre-order: each child before its descendants, earlier subtrees before later siblings |
| TitleBar.DescendantsSmaller | app/src/main/java/com/tl/face/action/TitleBarAction.kt:105-106 | every descendant is smaller than the children it came from |
| CrashActivity.DensityBucket | app/src/main/java/com/tl/face/ui/activity/CrashActivity.kt:139-158 | each bucket iff its strict threshold band: > 480, > 320, > 240, > 160, > 120, otherwise ldpi |
| CrashActivity.DensityBucketMonotone | app/src/main/java/com/tl/face/ui/activity/CrashActivity.kt:139-158 | a denser screen never gets a lower bucket |
| CrashActivity.StandardDensities | app/src/main/java/com/tl/face/ui/activity/CrashActivity.kt:139-158 | 120, 160, 240, 320, 480 and 640 dpi land in their own buckets |
| CrashActivity.RedundantPrefixes | app/src/main/java/com/tl/face/ui/activity/CrashActivity.kt:49-52 | "androidx" and "javax" add nothing: a line matches the full list iff it matches it without them |
| CrashActivity.LastIndexOf | app/src/main/java/com/tl/face/ui/activity/CrashActivity.kt:104 | the last occurrence at or before `from`, or none iff there is none |
| CrashActivity.StyleMatch | app/src/main/java/com/tl/face/ui/activity/CrashActivity.kt:97-131 | the span is [start+1, end-1), inside the parentheses; it is skipped iff the line text is empty; blue iff an "at " line exists and does not start with "at " and a system prefix |
| CrashActivity.NoSpaceInCodeToken | app/src/main/java/com/tl/face/ui/activity/CrashActivity.kt:55 | a code position holds no space |
| CrashActivity.CodeTokenAlwaysStyled | app/src/main/java/com/tl/face/ui/activity/CrashActivity.kt:97-109 | every match of the code-position pattern is styled; the empty-line skip never triggers |
| CrashActivity.IsTablet | app/src/main/java/com/tl/face/ui/activity/CrashActivity.kt:282-286 | a tablet iff the size field, the low four bits of `screenLayout`, is at least LARGE (3) |
| CrashActivity.TabletSizes | app/src/main/java/com/tl/face/ui/activity/CrashActivity.kt:282-286 | large and extra-large layouts are tablets, small and normal ones are not, and bits above the size field do not matter |
| CrashHandler.Register | app/src/main/java/com/tl/face/other/CrashHandler.kt:27-34 | construction throws iff the current handler is already this class; otherwise it keeps the current handler as the next one |
| CrashHandler.RegisterTwiceThrows | app/src/main/java/com/tl/face/other/CrashHandler.kt:29-34 | registering over an installed crash handler throws |
| CrashHandler.UncaughtException | app/src/main/java/com/tl/face/other/CrashHandler.kt:37-60 | the current time is stored; debug builds show the crash screen; release builds restart iff not within 5 minutes of the last crash; delegation iff the next handler exists and is not in "com.android.internal.os" |
| CrashHandler.CrashLoopStopsRestarting | app/src/main/java/com/tl/face/other/CrashHandler.kt:40-52 | a second release crash within 5 minutes does not restart, because the first stored its time |
| CrashHandler.FirstCrashRestarts | app/src/main/java/com/tl/face/other/CrashHandler.kt:41-52 | with no stored crash, a release crash restarts once the clock is past 5 minutes |
| CrashHandler.NeverChainsToItself | app/src/main/java/com/tl/face/other/CrashHandler.kt:29-34 | an installed handler never delegates to another of its own class |
| SingleClick.BuildTag | app/src/main/java/com/tl/face/aop/SingleClickAspect.kt:35-48 | the builder loop yields "Class.method(" + the arguments joined by ", " + ")" |
| SingleClick.TagShape | app/src/main/java/com/tl/face/aop/SingleClickAspect.kt:38-47 | no arguments give "Class.method()"; each further argument adds ", " and its text |
| SingleClick.Intercept | app/src/main/java/com/tl/face/aop/SingleClickAspect.kt:49-58 | suppressed iff within the window and the same tag; a suppressed call changes nothing, a proceeding one records its time and tag |
| SingleClick.FirstCallProceeds | app/src/main/java/com/tl/face/aop/SingleClickAspect.kt:16-19 | with the initial 0 and null tag the first call proceeds |
| SingleClick.OtherTagProceeds | app/src/main/java/com/tl/face/aop/SingleClickAspect.kt:50 | a call with a different tag always proceeds |
| SingleClick.RepeatsWithinWindowDropped | app/src/main/java/com/tl/face/aop/SingleClickAspect.kt:50-54 | repeats within the window of the last call let through are all dropped, and a dropped call does not extend the window |
| DoubleClick.IsOnDoubleClick | app/src/main/java/com/tl/face/other/DoubleClickHelper.kt:18-22 | the slots shift (slot 0 gets slot 1, slot 1 gets now), and the result holds iff the previous click is within `time` |
| DoubleClick.OnlyPreviousClickMatters | app/src/main/java/com/tl/face/other/DoubleClickHelper.kt:19-21 | whether a click is a double click depends only on the click just before it |
| DoubleClick.DefaultWindowExample | app/src/main/java/com/tl/face/other/DoubleClickHelper.kt:12-15 | the no-argument form accepts clicks 1500 ms apart and rejects 1501 ms |
| DoubleClick.FirstCallAgainstZero | app/src/main/java/com/tl/face/other/DoubleClickHelper.kt:9 | the first call compares against the initial 0 |
| KeyboardWatcher.TruncDiv | app/src/main/java/com/tl/face/other/KeyboardWatcher.kt:50 | Kotlin's `/` on `Int`, rounding toward zero |
| KeyboardWatcher.StatusBarHeight | app/src/main/java/com/tl/face/other/KeyboardWatcher.kt:35-39 | the dimension when the resource exists, otherwise 0 |
| KeyboardWatcher.Create | app/src/main/java/com/tl/face/other/KeyboardWatcher.kt:22-33 | starts closed with no listener, its layout listener registered |
| KeyboardWatcher.OnGlobalLayout | app/src/main/java/com/tl/face/other/KeyboardWatcher.kt:45-61 | opens iff closed and the difference exceeds a quarter of the root height; closes iff open and it is below; a listener hears exactly the changes; the open height is the difference minus the status bar unless fullscreen |
| KeyboardWatcher.QuarterIsDeadBand | app/src/main/java/com/tl/face/other/KeyboardWatcher.kt:50-60 | a difference of exactly a quarter changes and reports nothing |
| KeyboardWatcher.RepeatedLayoutReportsOnce | app/src/main/java/com/tl/face/other/KeyboardWatcher.kt:50-60 | the same layout seen twice reports at most once |
| KeyboardWatcher.SetListener | app/src/main/java/com/tl/face/other/KeyboardWatcher.kt:64-66 | sets only the listener; the open state and the layout registration are kept |
| KeyboardWatcher.OnActivityDestroyed | app/src/main/java/com/tl/face/other/KeyboardWatcher.kt:84-94 | for the watched activity the layout listener is removed and the listener dropped, so no later layout changes or reports anything; other activities are ignored |
| KeyboardWatcher.DestroyedWatcherStaysSilent | app/src/main/java/com/tl/face/other/KeyboardWatcher.kt:64-94 | a listener set after the watched activity was destroyed hears nothing, since no layout reaches the watcher |
| CollapsingToolbar.SetScrimsShown | app/src/main/java/com/tl/face/widget/XCollapsingToolbarLayout.kt:18-27 | the super call always animates; the listener is notified, with the new value, iff one is set and the value changed; afterwards the stored value is the argument |
| CollapsingToolbar.SetListener | app/src/main/java/com/tl/face/widget/XCollapsingToolbarLayout.kt:34-36 | sets only the listener |
| CollapsingToolbar.RepeatIsSilent | app/src/main/java/com/tl/face/widget/XCollapsingToolbarLayout.kt:21-23 | repeating a value notifies nobody |
| CollapsingToolbar.NotificationsAlternate | app/src/main/java/com/tl/face/widget/XCollapsingToolbarLayout.kt:16-27 | notifications alternate, starting opposite the stored status |
| GridSpace.TruncMod | app/src/main/java/com/tl/face/other/GridSpaceDecoration.kt:22 | Kotlin's `%` on `Int`: equal to Dafny's for non-negative operands, zero exactly when divisible |
| GridSpace.ItemOffsets | app/src/main/java/com/tl/face/other/GridSpaceDecoration.kt:17-32 | right is set iff `(position+1) % spanCount == 0`, top iff `position < spanCount`, bottom and left always; a zero span count throws |
| GridSpace.LastColumn | app/src/main/java/com/tl/face/other/GridSpaceDecoration.kt:22 | the right-edge test holds iff the item is in the last column |
| GridSpace.FirstRow | app/src/main/java/com/tl/face/other/GridSpaceDecoration.kt:27 | the top-edge test holds iff the item is in the first row |
| GridSpace.OffsetsFollowGridPosition | app/src/main/java/com/tl/face/other/GridSpaceDecoration.kt:17-32 | right space exactly on the last column and top space exactly on the first row |
| DebugLogger.FullTag | app/src/main/java/com/tl/face/other/DebugLoggerTree.kt:15 | "(" + file name (or "null") + ":" + line + ")" |
| DebugLogger.CreateStackElementTag | app/src/main/java/com/tl/face/other/DebugLoggerTree.kt:14-21 | a prefix of the full tag; unchanged when at most 23 long or on Android O and later, else exactly 23 characters |
| DebugLogger.LongNameTruncated | app/src/main/java/com/tl/face/other/DebugLoggerTree.kt:20 | a long file name before O keeps "(" and its first 22 characters |

## Left out

- Threads, thread pools, `synchronized` locks and `wait`/`notifyAll`: each becomes a discrete event on the helper's state. A blocked feature task is a waiter that a wake event re-runs; an interrupt only drops it.
- The face engine SDK (detect, mask, liveness, quality, extract, compare, init and unInit): its codes, lists, scores and features are inputs. The numeric values of MOK and the liveness constants are not assumed.
- Registry.FromEngine: the liveness field holds the engine's raw `Int` and the request states ANALYZING and FAILED in one field; the model keeps them apart, which assumes no engine liveness value equals `RequestLivenessStatus.ANALYZING` or `FAILED`.
- `RecognizeInfo`, `FacePreviewInfo`, `FaceRectTransformerUtil` and `FaceConstant` are not part of this model. A new entry is taken to be TO_RETRY with liveness UNKNOWN, zero counters, no message and an UNKNOWN mask. `increaseAndGet*` is taken to add one and return the new value. `recognizeAreaValid` is an input.
- Age, gender and 3D-angle detection are commented out in the source.
- Floating point is modelled with `real`. This covers similarity and quality scores and thresholds, and `HttpListData`'s `Float` ceiling; rounding for values beyond 2^24 is not modelled. The temperature is kept in hundredths (an integer): `ShowReading` compares `t / 100.0` with 37.2 as reals, which for every integer `t` agrees with the `Double` comparison, both being `t > 3720`. The decimal text shown is not modelled.
- `Handler.postDelayed` delays and clocks: posted resets form a list, any of which may fire next (`ResetFires(i)`), and the clock readings are parameters. The source fires them in the order of their due times; the model allows every order, an over-approximation.
- DoubleClick.IsOnDoubleClick: the two `uptimeMillis` reads of one call are taken to return the same value.
- `doRecognize` is modelled as its own operation and not wired into the frame step, because its only call is commented out.
- FaceConfiguration.SetterKeepsCallback: states only that setters keep the callback, not that each setter writes exactly its own field; that per-field locality is carried by `Apply`'s body and not stated as a contract.
- Nv21.Rotate90 and Nv21.Rotate180: `w` and `h` are natural numbers and `w*h*3/2` is unbounded; the Kotlin `Int` overflow of `w*h*3/2` and negative sizes are not modelled.
- Nv21.Rotate90: requires `data` to hold the luma plane and every chroma row its loops read; on a shorter array the source throws `ArrayIndexOutOfBoundsException`, which is not modelled.
- Nv21.Rotate180: requires `data` to hold the whole `w*h*3/2` frame and the chroma part to have an even number of bytes; on a shorter array, or an odd chroma part (whose last pair write falls one past the output), the source throws `ArrayIndexOutOfBoundsException`, which is not modelled.
- Nv21.Rotate270: requires even `w` (or `h < 2`) and a chroma part of whole pairs, so odd widths with `h >= 2` are excluded as frames NV21 does not describe (its chroma pairs need an even width). The source runs cleanly on some of them (3x3, 5x5: odd `h <= w` with whole chroma pairs) and throws `ArrayIndexOutOfBoundsException` on others (odd `w` with even `h`, such as 3x2, or with `h > w`), in the loops whose buffer it discards; neither outcome is modelled. That discarded buffer is not modelled either.
- MainActivity.OnSerialData: shows the corrected reading; the reading as written is `OnSerialDataAsWritten`, and `ReadingsAgreeBelow0x80` states where the two differ.
- FaceHelper.OnPreviewFrame: uses the corrected mask stage, so a failing `getMask` is reported with its own code rather than MOK; `MaskStagesAgree` states that this is the only difference.
- FaceHelper.Step: a finished liveness task runs the corrected task without the stray `getRecognizeInfo`; `LivenessWorkersAgree` states when this matches the source and `LivenessWorkerResurrects` what the source does otherwise.
- FaceHelper.Destroy: which tasks are running when the pools are shut down is taken to be the oldest ones in flight, as many as the pool has free threads; the order in which they then finish is arbitrary. The engines' `unInit` is not modelled: a task's engine results are inputs either way.
- FaceHelper.DoRecognize: not wired into the frame step, and so a submission to a shut-down pool (which would throw `RejectedExecutionException`) is not modelled.
- FaceConfiguration.Apply: carries no contract of its own; what is stated about the setters is `SetterKeepsCallback`.
- UI and Android plumbing: layouts, dialogs other than the loading-dialog counter, Snackbar, sound, the LED and serial port I/O, JPEG conversion and the photo upload in `MainActivity`, `RestartActivity`.
- CrashActivity.StyleMatch: the regular expression engine is not modelled; a match is given by its position, and `IsCodeToken` describes the pattern's matches.
- KeyboardWatcher.OnGlobalLayout: the `Int` subtraction for the height difference is unbounded here.
- CrashHandler.UncaughtException: the `Long` subtraction is unbounded. SharedPreferences I/O, the process kill and `System.exit` are left out.
- SingleClick logging through Timber is left out.
- The `GridLayoutManager` cast and its span count are an input.
- Network and serialisation: EasyHttp, Gson, MMKV and the exception classes' messages. Only the classification logic of `RequestHandler` is kept.
- `FaceActive` (activation and device-info files), the AOP aspects other than `@SingleClick`, `ToastLogInterceptor`, `ToastStyle`, `AppConfig`, `AppApplication`, `PickerLayoutManager` and `GlideConfig` are not part of this model.

## Findings

| source | as written | input that shows it | evidently intended | confidence | as-written member | corrected member |
|---|---|---|---|---|---|---|
| library/face/src/main/java/com/tl/face/face/FaceHelper.kt:857 | the RGB liveness task calls `getRecognizeInfo(faceId)`, which creates an entry for a face that already left | a face leaves (its entry is removed by `clearLeftFace`) while its liveness task runs; `process` returns MOK and the task reports NOT_ALIVE | a departed face's late task changes nothing, as the handler's own presence check intends | not executed | FaceHelper.LivenessWorkerResurrects | FaceHelper.LivenessWorkerNoResurrection |
| library/face/src/main/java/com/tl/face/face/FaceHelper.kt:301-305 | a failing `getMask` is reported with `detectMaskResult`, the code of the preceding `process` call, which is MOK there | masks on, one face, `process` returns MOK, `getMask` fails | the DETECT_MASK error carries the failing `getMask` code | not executed | FaceHelper.MaskErrorReportsMok | FaceHelper.MaskStage |
| app/src/main/java/com/tl/face/ui/activity/MainActivity.kt:127 | `it[2] + 256 * it[3]` sign-extends the low byte, so a low byte of 0x80 or more reads 256 hundredths too low | frame A5 55 D8 0E 00 (38.00 °C) reads as 35.44 °C, so no fever alarm is raised | the little-endian 16-bit value of bytes 2 and 3 | not executed | MainActivity.SignExtendedLowByteMisreads | MainActivity.TemperatureRoundTrip |

=== FILE: activity_manager.dfy ===
/** The application's activity registry (`ActivityManager`): the live
    activities keyed by identity tag, the top and resumed activity, and the
    application-level lifecycle notifications derived from them. */
module ActivityManager {
  import opened Common

  /** `getObjectTag(activity)`: class name plus identity hash; modelled as an
      identity that distinct activities do not share. */
  type Tag = int

  datatype Activity = Activity(tag: Tag, cls: string, finishing: bool)

  datatype Manager = Manager(activities: map<Tag, Activity>, top: Option<Tag>, resumed: Option<Tag>)

  const Initial: Manager := Manager(map[], None, None)

  /** The application-level callbacks, each delivered to every registered listener. */
  datatype AppEvent = AppCreate(tag: Tag) | AppForeground(tag: Tag) | AppBackground(tag: Tag) | AppDestroy(tag: Tag)

  /** `isForeground()`. */
  predicate IsForeground(m: Manager) {
    m.resumed.Some?
  }

  /** `onActivityCreated`: the first activity of an empty registry announces the
      application; the new activity becomes top. */
  function OnCreated(m: Manager, a: Activity): (r: (Manager, seq<AppEvent>))
    ensures AppCreate(a.tag) in r.1 <==> |m.activities| == 0
    ensures |r.1| <= 1
    ensures r.0.activities == m.activities[a.tag := a] && r.0.top == Some(a.tag) && r.0.resumed == m.resumed
  {
    (m.(activities := m.activities[a.tag := a], top := Some(a.tag)),
     if |m.activities| == 0 then [AppCreate(a.tag)] else [])
  }

  /** `onActivityResumed`: the application comes to the foreground when the top
      activity resumes while nothing is resumed; the activity becomes both top
      and resumed. */
  function OnResumed(m: Manager, a: Activity): (r: (Manager, seq<AppEvent>))
    ensures AppForeground(a.tag) in r.1 <==> m.top == Some(a.tag) && m.resumed.None?
    ensures |r.1| <= 1
    ensures r.0 == m.(top := Some(a.tag), resumed := Some(a.tag))
    ensures IsForeground(r.0)
  {
    (m.(top := Some(a.tag), resumed := Some(a.tag)),
     if m.top == Some(a.tag) && m.resumed.None? then [AppForeground(a.tag)] else [])
  }

  /** `onActivityStopped`: a stopped resumed activity is no longer resumed, and
      whenever nothing is resumed afterwards the background callback fires. */
  function OnStopped(m: Manager, a: Activity): (r: (Manager, seq<AppEvent>))
    ensures r.0.resumed == (if m.resumed == Some(a.tag) then None else m.resumed)
    ensures AppBackground(a.tag) in r.1 <==> !IsForeground(r.0)
    ensures |r.1| <= 1
    ensures r.0.activities == m.activities && r.0.top == m.top
  {
    var resumed := if m.resumed == Some(a.tag) then None else m.resumed;
    (m.(resumed := resumed), if resumed.None? then [AppBackground(a.tag)] else [])
  }

  /** `onActivityDestroyed`: the activity leaves the registry and stops being top;
      the application is destroyed iff no activity is left. */
  function OnDestroyed(m: Manager, a: Activity): (r: (Manager, seq<AppEvent>))
    ensures r.0.activities == m.activities - {a.tag}
    ensures r.0.top == (if m.top == Some(a.tag) then None else m.top) && r.0.resumed == m.resumed
    ensures AppDestroy(a.tag) in r.1 <==> |r.0.activities| == 0
    ensures |r.1| <= 1
  {
    var acts := m.activities - {a.tag};
    (m.(activities := acts, top := if m.top == Some(a.tag) then None else m.top),
     if |acts| == 0 then [AppDestroy(a.tag)] else [])
  }

  /** The whole life of a single activity in an otherwise empty application
      produces the four application events in order and leaves nothing behind. */
  lemma SingleActivityLifecycle(a: Activity)
    ensures var (m1, e1) := OnCreated(Initial, a);
      var (m2, e2) := OnResumed(m1, a);
      var (m3, e3) := OnStopped(m2, a);
      var (m4, e4) := OnDestroyed(m3, a);
      && e1 + e2 + e3 + e4 == [AppCreate(a.tag), AppForeground(a.tag), AppBackground(a.tag), AppDestroy(a.tag)]
      && m4 == Initial
  {
    var (m1, e1) := OnCreated(Initial, a);
    assert m1.activities == map[a.tag := a];
    var (m4, e4) := OnDestroyed(OnStopped(OnResumed(m1, a).0, a).0, a);
    assert m4.activities == map[];
  }

  /** Resuming a second activity while the first is still resumed (the usual
      order when one screen opens another) does not re-announce the foreground. */
  lemma NoForegroundWhileResumed(m: Manager, a: Activity)
    requires IsForeground(m)
    ensures OnResumed(m, a).1 == []
  {
  }

  /** The registry holds a live activity of class `cls` under key `k`. */
  predicate Matches(acts: map<Tag, Activity>, k: Tag, cls: string) {
    k in acts && !acts[k].finishing && acts[k].cls == cls
  }

  /** The key scan of `finishActivity`: the first key, in iteration order, of a
      live activity of exactly the class `cls`. */
  function FirstOfClass(acts: map<Tag, Activity>, cls: string, keys: seq<Tag>): (r: Option<Tag>)
    ensures r.None? <==> forall j | 0 <= j < |keys| :: !Matches(acts, keys[j], cls)
    ensures r.Some? ==> exists i | 0 <= i < |keys| ::
      && keys[i] == r.value && Matches(acts, keys[i], cls)
      && forall j | 0 <= j < i :: !Matches(acts, keys[j], cls)
    decreases |keys|
  {
    if |keys| == 0 then None
    else if Matches(acts, keys[0], cls) then Some(keys[0])
    else
      assert forall j | 1 <= j < |keys| :: keys[j] == keys[1..][j - 1];
      FirstOfClass(acts, cls, keys[1..])
  }

  /** `finishActivity(clazz)`: finishes and removes at most one live activity of
      exactly that class; a null class does nothing. `keys` is the registry's
      key order. */
  function FinishActivity(m: Manager, cls: Option<string>, keys: seq<Tag>): (r: (Manager, Option<Tag>))
    requires forall k :: k in keys <==> k in m.activities
    ensures cls.None? ==> r == (m, None)
    ensures cls.Some? ==> r.1 == FirstOfClass(m.activities, cls.value, keys)
    ensures r.0.top == m.top && r.0.resumed == m.resumed
    ensures r.1.None? ==> r.0 == m
    ensures r.1.None? && cls.Some? ==> forall k | k in m.activities :: !Matches(m.activities, k, cls.value)
    ensures r.1.Some? ==>
      && cls.Some? && Matches(m.activities, r.1.value, cls.value)
      && r.0.activities == m.activities - {r.1.value}
  {
    if cls.None? then (m, None)
    else
      var found := FirstOfClass(m.activities, cls.value, keys);
      if found.None? then
        assert forall k | k in m.activities :: !Matches(m.activities, k, cls.value) by {
          forall k | k in m.activities ensures !Matches(m.activities, k, cls.value) {
            assert k in keys;
            var j :| 0 <= j < |keys| && keys[j] == k;
          }
        }
        (m, None)
      else
        (m.(activities := m.activities - {found.value}), found)
  }

  /** Activity `a` is spared by `finishAllActivities(white...)`: already
      finishing, or of a whitelisted class (a null entry matches nothing). */
  predicate Spared(a: Activity, white: seq<Option<string>>) {
    a.finishing || Some(a.cls) in white
  }

  /** The key loop of `finishAllActivities`. */
  function FinishAllFrom(acts: map<Tag, Activity>, white: seq<Option<string>>, keys: seq<Tag>): (r: map<Tag, Activity>)
    ensures r.Keys <= acts.Keys
    ensures forall k | k in r :: r[k] == acts[k]
    ensures forall k | k in acts && k !in keys :: k in r
    ensures forall k | k in acts && k in keys :: k in r <==> Spared(acts[k], white)
    decreases |keys|
  {
    if |keys| == 0 then acts
    else
      var k := keys[0];
      var next := if k in acts && !Spared(acts[k], white) then acts - {k} else acts;
      var r := FinishAllFrom(next, white, keys[1..]);
      assert forall j | j in keys :: j == k || j in keys[1..];
      r
  }

  /** `finishAllActivities(classArray)`: exactly the live activities of classes
      outside the whitelist are finished and removed. */
  function FinishAll(m: Manager, white: seq<Option<string>>, keys: seq<Tag>): (r: Manager)
    requires forall k :: k in keys <==> k in m.activities
    ensures r.activities == map k | k in m.activities && Spared(m.activities[k], white) :: m.activities[k]
    ensures r.top == m.top && r.resumed == m.resumed
  {
    var acts := FinishAllFrom(m.activities, white, keys);
    forall k | k in m.activities ensures k in acts <==> Spared(m.activities[k], white) {
      assert k in keys;
    }
    assert acts.Keys == set k | k in m.activities && Spared(m.activities[k], white);
    m.(activities := acts)
  }

  /** `finishAllActivities()` passes a single null class, which spares no one:
      only activities already finishing remain. */
  lemma FinishAllWithoutWhitelist(m: Manager, keys: seq<Tag>)
    requires forall k :: k in keys <==> k in m.activities
    ensures forall k | k in FinishAll(m, [None], keys).activities :: m.activities[k].finishing
    ensures forall k | k in m.activities && m.activities[k].finishing :: k in FinishAll(m, [None], keys).activities
  {
  }

  /** Finishing everything a second time with the same whitelist changes nothing. */
  lemma FinishAllIdempotent(m: Manager, white: seq<Option<string>>, keys: seq<Tag>, keys2: seq<Tag>)
    requires forall k :: k in keys <==> k in m.activities
    requires forall k :: k in keys2 <==> k in FinishAll(m, white, keys).activities
    ensures FinishAll(FinishAll(m, white, keys), white, keys2) == FinishAll(m, white, keys)
  {
  }
}

=== FILE: app_activity.dfy ===
/** The base activity's waiting-dialog counter (`AppActivity`): nested
    `showDialog` / `hideDialog` calls are counted, the dialog appears only
    after a 300 ms delay if a request is still outstanding, and it is dismissed
    when the last request is withdrawn. */
module AppActivity {

  import opened Common

  /** The activity's dialog fields. `dialog` is `None` while the field is null,
      otherwise whether the dialog is showing; `finishing` / `destroyed` are the
      framework's `isFinishing` / `isDestroyed`. */
  datatype DialogState = DialogState(count: int, dialog: Option<bool>, finishing: bool, destroyed: bool)

  /** The field initialisers: no dialog, count 0. */
  function Initial(finishing: bool, destroyed: bool): (s: DialogState)
    ensures s.count == 0 && s.dialog.None?
  {
    DialogState(0, None, finishing, destroyed)
  }

  /** `isShowDialog()`. */
  predicate IsShowDialog(s: DialogState) {
    s.dialog == Some(true)
  }

  /** The activity is going away: every dialog request is ignored. */
  predicate Closing(s: DialogState) {
    s.finishing || s.destroyed
  }

  /** `showDialog()`: counts the request and reports whether the delayed show
      was posted (it is not when the activity is closing). */
  function ShowDialog(s: DialogState): (r: (DialogState, bool))
    ensures r.1 <==> !Closing(s)
    ensures r.1 ==> r.0 == s.(count := s.count + 1)
    ensures !r.1 ==> r.0 == s
  {
    if Closing(s) then (s, false) else (s.(count := s.count + 1), true)
  }

  /** The runnable posted by `showDialog`, run 300 ms later: when a request is
      still outstanding it creates the dialog if there is none, and shows it. */
  function DelayedShow(s: DialogState): (r: DialogState)
    ensures r.count == s.count && r.finishing == s.finishing && r.destroyed == s.destroyed
    ensures s.count <= 0 || Closing(s) ==> r == s
    ensures s.count > 0 && !Closing(s) ==> IsShowDialog(r)
    ensures s.dialog.Some? ==> r.dialog.Some?
  {
    if s.count <= 0 || Closing(s) then s
    else s.(dialog := Some(true))
  }

  /** `hideDialog()`: withdraws one request (never below zero) and dismisses
      the dialog when none is left. */
  function HideDialog(s: DialogState): (r: DialogState)
    ensures Closing(s) ==> r == s
    ensures !Closing(s) ==> r.count == (if s.count > 0 then s.count - 1 else s.count)
    ensures r.finishing == s.finishing && r.destroyed == s.destroyed
    ensures r.dialog != s.dialog <==> !Closing(s) && r.count == 0 && IsShowDialog(s)
    ensures r.dialog != s.dialog ==> r.dialog == Some(false)
  {
    if Closing(s) then s
    else
      var c := if s.count > 0 then s.count - 1 else s.count;
      var t := s.(count := c);
      if c != 0 || t.dialog.None? || !t.dialog.value then t
      else t.(dialog := Some(false))
  }

  /** `onDestroy()`. The framework marks the activity destroyed before calling
      it, so the `hideDialog()` it makes for a showing dialog returns at once:
      the count is kept and the dialog reference is dropped without a dismiss. */
  function OnDestroy(s: DialogState): (r: DialogState)
    ensures r.destroyed && r.dialog.None?
    ensures r.count == s.count && r.finishing == s.finishing
  {
    var t := s.(destroyed := true);
    var u := if IsShowDialog(t) then HideDialog(t) else t;
    u.(dialog := None)
  }

  /** Once destroyed, no call changes the count or shows a dialog again. */
  lemma {:induction false} DestroyedIgnoresCalls(s: DialogState, cs: seq<Call>)
    requires s.destroyed && s.dialog.None?
    ensures Run(s, cs) == s
    decreases |cs|
  {
    if |cs| > 0 {
      assert Step(s, cs[0]) == s;
      DestroyedIgnoresCalls(s, cs[1..]);
    }
  }

  /** The calls the activity receives. */
  datatype Call = Show | Hide | Fire | Destroy

  function Step(s: DialogState, c: Call): DialogState {
    match c
    case Show => ShowDialog(s).0
    case Hide => HideDialog(s)
    case Fire => DelayedShow(s)
    case Destroy => OnDestroy(s)
  }

  function Run(s: DialogState, cs: seq<Call>): DialogState
    decreases |cs|
  {
    if |cs| == 0 then s else Run(Step(s, cs[0]), cs[1..])
  }

  /** The counter never goes negative, whatever the order of calls. */
  lemma {:induction false} CountNeverNegative(s: DialogState, cs: seq<Call>)
    requires s.count >= 0
    ensures Run(s, cs).count >= 0
    decreases |cs|
  {
    if |cs| > 0 {
      CountNeverNegative(Step(s, cs[0]), cs[1..]);
    }
  }

  /** A show followed by a hide restores the count, and the dialog is
      dismissed exactly when that was the only request. */
  lemma ShowThenHideRestores(s: DialogState)
    requires s.count >= 0 && !Closing(s)
    ensures HideDialog(ShowDialog(s).0).count == s.count
    ensures HideDialog(ShowDialog(s).0).dialog ==
      (if s.count == 0 && IsShowDialog(s) then Some(false) else s.dialog)
  {
  }

  /** Running the delayed show a second time changes nothing. */
  lemma DelayedShowIdempotent(s: DialogState)
    ensures DelayedShow(DelayedShow(s)) == DelayedShow(s)
  {
  }

  /** A hide while other requests are outstanding never dismisses the dialog. */
  lemma NestedHideKeepsDialog(s: DialogState)
    requires s.count > 1
    ensures HideDialog(s).dialog == s.dialog
  {
  }
}

=== FILE: collapsing_toolbar.dfy ===
/** `XCollapsingToolbarLayout`: a collapsing toolbar that tells its listener
    when the scrims appear or disappear, once per change. */
module CollapsingToolbar {

  import opened Common

  /** The stored scrims status and whether a listener is set. */
  datatype Toolbar = Toolbar(scrimsShown: bool, hasListener: bool)

  /** The field initialisers: scrims not shown, no listener. */
  const Initial: Toolbar := Toolbar(false, false)

  /** What one `setScrimsShown` call does: the animate flag passed to the
      superclass, and the notification delivered, if any. */
  datatype Effect = Effect(superAnimate: bool, notified: Option<bool>)

  /** `setScrimsShown(shown, animate)`. */
  function SetScrimsShown(t: Toolbar, shown: bool, animate: bool): (r: (Toolbar, Effect))
    ensures r.0.scrimsShown == shown && r.0.hasListener == t.hasListener
    ensures r.1.superAnimate
    ensures r.1.notified.Some? <==> t.hasListener && shown != t.scrimsShown
    ensures r.1.notified.Some? ==> r.1.notified.value == shown
  {
    if t.scrimsShown == shown then (t, Effect(true, None))
    else (t.(scrimsShown := shown), Effect(true, if t.hasListener then Some(shown) else None))
  }

  /** `isScrimsShown()` reports the last value set, false before any. */
  function IsScrimsShown(t: Toolbar): bool {
    t.scrimsShown
  }

  /** `setOnScrimsListener`. */
  function SetListener(t: Toolbar, present: bool): (r: Toolbar)
    ensures r.hasListener == present && IsScrimsShown(r) == IsScrimsShown(t)
  {
    t.(hasListener := present)
  }

  /** Setting the same value again notifies nobody and changes nothing. */
  lemma RepeatIsSilent(t: Toolbar, shown: bool, a1: bool, a2: bool)
    ensures var t1 := SetScrimsShown(t, shown, a1).0;
      SetScrimsShown(t1, shown, a2) == (t1, Effect(true, None))
  {
  }

  /** The notifications over a sequence of calls, in order. */
  function Notifications(t: Toolbar, calls: seq<bool>): (r: seq<bool>)
    decreases |calls|
  {
    if |calls| == 0 then []
    else
      var (t1, e) := SetScrimsShown(t, calls[0], true);
      (if e.notified.Some? then [e.notified.value] else []) + Notifications(t1, calls[1..])
  }

  /** With a listener attached, notifications alternate: each one reports the
      opposite of the previous one, starting from the opposite of the stored status. */
  lemma {:induction false} NotificationsAlternate(t: Toolbar, calls: seq<bool>)
    requires t.hasListener
    ensures var ns := Notifications(t, calls);
      (|ns| > 0 ==> ns[0] != t.scrimsShown) &&
      forall k :: 0 < k < |ns| ==> ns[k] != ns[k - 1]
    decreases |calls|
  {
    if |calls| > 0 {
      var (t1, e) := SetScrimsShown(t, calls[0], true);
      NotificationsAlternate(t1, calls[1..]);
      var rest := Notifications(t1, calls[1..]);
      var ns := Notifications(t, calls);
      if e.notified.Some? {
        assert ns == [calls[0]] + rest;
        assert t1.scrimsShown == calls[0];
        forall k | 0 < k < |ns|
          ensures ns[k] != ns[k - 1]
        {
          assert ns[k] == rest[k - 1];
          if k > 1 {
            assert ns[k - 1] == rest[k - 2];
          }
        }
      } else {
        assert ns == rest;
        assert t1 == t;
      }
    }
  }
}

=== FILE: common.dfy ===
/** Small shared vocabulary: optional values, Kotlin `Int` wrap-around, and
    prefix / substring tests on sequences. */
module Common {

  /** Kotlin's nullable values. */
  datatype Option<+T> = None | Some(value: T)

  const INT_MIN: int := -0x8000_0000
  const INT_MAX: int := 0x7fff_ffff

  predicate IsInt32(x: int) {
    INT_MIN <= x <= INT_MAX
  }

  /** Two's-complement 32-bit wrap-around, as Kotlin `Int` arithmetic performs it. */
  function WrapInt32(x: int): (r: int)
    ensures IsInt32(r)
    ensures (r - x) % 0x1_0000_0000 == 0
    ensures IsInt32(x) ==> r == x
  {
    (x - INT_MIN) % 0x1_0000_0000 + INT_MIN
  }

  /** `s.startsWith(p)`. */
  predicate StartsWith<T(==)>(s: seq<T>, p: seq<T>) {
    |p| <= |s| && s[..|p|] == p
  }

  /** `sub` occurs in `s` starting at index `i`. */
  predicate OccursAt<T(==)>(s: seq<T>, sub: seq<T>, i: nat) {
    i + |sub| <= |s| && s[i..i + |sub|] == sub
  }

  /** `s.contains(sub)`; the empty sequence is contained in every sequence. */
  predicate Contains<T(==)>(s: seq<T>, sub: seq<T>) {
    exists i: nat | i <= |s| :: OccursAt(s, sub, i)
  }

  /** Decimal digits of a natural number, most significant first. */
  function NatToString(n: nat): (r: string)
    ensures |r| >= 1
    ensures forall k :: 0 <= k < |r| ==> '0' <= r[k] <= '9'
    decreases n
  {
    var d := ['0' + (n % 10) as char];
    if n < 10 then d else NatToString(n / 10) + d
  }

  /** The number a string of decimal digits denotes, most significant first. */
  function DigitsValue(s: string): nat
    requires forall k :: 0 <= k < |s| ==> '0' <= s[k] <= '9'
    decreases |s|
  {
    if |s| == 0 then 0 else 10 * DigitsValue(s[..|s| - 1]) + (s[|s| - 1] - '0') as nat
  }

  /** The decimal rendering reads back as the number rendered. */
  lemma {:induction false} NatToStringReadsBack(n: nat)
    ensures DigitsValue(NatToString(n)) == n
    decreases n
  {
    var d := ['0' + (n % 10) as char];
    if n >= 10 {
      var r := NatToString(n);
      NatToStringReadsBack(n / 10);
      assert r == NatToString(n / 10) + d;
      assert r[..|r| - 1] == NatToString(n / 10);
    }
  }

  /** Kotlin `Int.toString()`: decimal digits, with a leading '-' when negative. */
  function IntToString(n: int): (r: string)
    ensures |r| >= 1
    ensures n < 0 <==> r[0] == '-'
  {
    if n < 0 then "-" + NatToString(-n) else NatToString(n)
  }

  /** Multiplying both sides of `a <= b` by `c`. */
  lemma MulLe(a: nat, b: nat, c: nat)
    requires a <= b
    ensures a * c <= b * c
  {
    assert b * c == a * c + (b - a) * c;
  }

  /** A row `a` below `n` and a column `b` below `m` index inside an `n * m` block. */
  lemma Below(a: nat, b: nat, n: nat, m: nat)
    requires a < n && b < m
    ensures a * m + b < n * m
  {
    MulLe(a + 1, n, m);
    assert (a + 1) * m == a * m + m;
  }

  /** Division by `n` undoes `q * n + r` for a remainder `r < n`. */
  lemma DivMod(q: nat, r: nat, n: nat)
    requires r < n
    ensures (q * n + r) / n == q && (q * n + r) % n == r
  {
    var k := q * n + r;
    var q2, r2 := k / n, k % n;
    assert k == q2 * n + r2;
    if q2 < q {
      Below(q2, r2, q, n);
    } else if q < q2 {
      Below(q, r, q2, n);
    }
  }
}

=== FILE: crash_activity.dfy ===
/** The crash screen (`CrashActivity`): the density bucket it reports, the
    styling of `(File.kt:123)` code positions in the stack trace (blue for
    application frames, grey for system frames), and the tablet test. */
module CrashActivity {

  import opened Common

  /** The screen density buckets, from lowest to highest. */
  datatype Bucket = Ldpi | Mdpi | Hdpi | Xhdpi | Xxhdpi | Xxxhdpi

  function Rank(b: Bucket): nat {
    match b
    case Ldpi => 0
    case Mdpi => 1
    case Hdpi => 2
    case Xhdpi => 3
    case Xxhdpi => 4
    case Xxxhdpi => 5
  }

  /** The density bucket named for a `densityDpi`, with strict thresholds. */
  function DensityBucket(dpi: int): (b: Bucket)
    ensures b == Xxxhdpi <==> dpi > 480
    ensures b == Xxhdpi <==> 320 < dpi <= 480
    ensures b == Xhdpi <==> 240 < dpi <= 320
    ensures b == Hdpi <==> 160 < dpi <= 240
    ensures b == Mdpi <==> 120 < dpi <= 160
    ensures b == Ldpi <==> dpi <= 120
  {
    if dpi > 480 then Xxxhdpi
    else if dpi > 320 then Xxhdpi
    else if dpi > 240 then Xhdpi
    else if dpi > 160 then Hdpi
    else if dpi > 120 then Mdpi
    else Ldpi
  }

  /** A denser screen never gets a lower bucket. */
  lemma DensityBucketMonotone(d1: int, d2: int)
    requires d1 <= d2
    ensures Rank(DensityBucket(d1)) <= Rank(DensityBucket(d2))
  {
  }

  /** The standard densities land in their own buckets. */
  lemma StandardDensities()
    ensures DensityBucket(120) == Ldpi && DensityBucket(160) == Mdpi && DensityBucket(240) == Hdpi
    ensures DensityBucket(320) == Xhdpi && DensityBucket(480) == Xxhdpi && DensityBucket(640) == Xxxhdpi
  {
  }

  /** Package prefixes whose frames are shown grey. */
  const SystemPrefixes: seq<string> :=
    ["android", "com.android", "androidx", "com.google.android", "java", "javax", "dalvik", "kotlin"]

  /** A stack-trace line (from its "at " to the code position) belongs to the
      system when it starts with "at " and one of the prefixes. */
  predicate IsSystemLine(lineData: string, prefixes: seq<string>) {
    exists k :: 0 <= k < |prefixes| && StartsWith(lineData, "at " + prefixes[k])
  }

  /** "androidx" and "javax" add nothing to the list: every line they match is
      already matched by "android" or "java". */
  lemma RedundantPrefixes(lineData: string)
    ensures IsSystemLine(lineData, SystemPrefixes) <==>
      IsSystemLine(lineData, ["android", "com.android", "com.google.android", "java", "dalvik", "kotlin"])
  {
    var full := SystemPrefixes;
    var short: seq<string> := ["android", "com.android", "com.google.android", "java", "dalvik", "kotlin"];
    if IsSystemLine(lineData, full) {
      var k :| 0 <= k < |full| && StartsWith(lineData, "at " + full[k]);
      var p := "at " + full[k];
      if k == 2 {
        assert lineData[..|"at android"|] == p[..|"at android"|];
        assert StartsWith(lineData, "at " + short[0]);
      } else if k == 5 {
        assert lineData[..|"at java"|] == p[..|"at java"|];
        assert StartsWith(lineData, "at " + short[3]);
      } else {
        var j := if k < 2 then k else if k < 5 then k - 1 else k - 2;
        assert full[k] == short[j];
      }
    }
    if IsSystemLine(lineData, short) {
      var j :| 0 <= j < |short| && StartsWith(lineData, "at " + short[j]);
      var k := if j < 2 then j else if j < 4 then j + 1 else j + 2;
      assert full[k] == short[j];
    }
  }

  /** `s.lastIndexOf(sub, from)`: the last occurrence of `sub` starting at or
      before `from`. */
  function LastIndexOf(s: string, sub: string, from: int): (r: Option<nat>)
    ensures r.Some? ==> r.value <= from && OccursAt(s, sub, r.value)
    ensures r.Some? ==> forall j :: r.value < j <= from ==> !OccursAt(s, sub, j)
    ensures r.None? ==> forall j :: 0 <= j <= from ==> !OccursAt(s, sub, j)
    decreases from + 1
  {
    if from < 0 then None
    else if OccursAt(s, sub, from) then Some(from)
    else LastIndexOf(s, sub, from - 1)
  }

  datatype Colour = Grey | Blue

  /** The two spans (colour and underline) set over one code position. */
  datatype Span = Span(start: int, end: int, colour: Colour)

  /** The styling of one regular-expression match `s[ms..me]` of a code
      position "(File.kt:123)": the span covers the text between the
      parentheses; it is blue when the line the match sits on, from its "at ",
      is not a system line, grey when it is or when no "at " precedes it; and a
      match preceded by an empty line text is skipped. */
  function StyleMatch(s: string, ms: int, me: int): (r: Option<Span>)
    requires 0 <= ms && ms + 2 <= me <= |s| && s[ms] == '(' && s[me - 1] == ')'
    ensures r.Some? ==> r.value.start == ms + 1 && r.value.end == me - 1
    ensures r.Some? ==> s[r.value.start - 1] == '(' && s[r.value.end] == ')' && r.value.start <= r.value.end
    ensures r.None? <==> LastIndexOf(s, "at ", ms + 1) == Some(ms + 1)
    ensures r.Some? ==> (r.value.colour == Blue <==>
      exists i :: 0 <= i <= ms && LastIndexOf(s, "at ", ms + 1) == Some(i) && !IsSystemLine(s[i..ms + 1], SystemPrefixes))
  {
    var start := ms + 1;
    var end := me - 1;
    var line := LastIndexOf(s, "at ", start);
    if line.None? then Some(Span(start, end, Grey))
    else
      var lineData := s[line.value..start];
      if |lineData| == 0 then None
      else if IsSystemLine(lineData, SystemPrefixes) then Some(Span(start, end, Grey))
      else Some(Span(start, end, Blue))
  }

  predicate IsWordChar(c: char) {
    ('a' <= c <= 'z') || ('A' <= c <= 'Z') || ('0' <= c <= '9') || c == '_'
  }

  /** A match of the code-position pattern: "(", word characters, ".", word
      characters, ":", digits, ")". */
  predicate IsCodeToken(t: string) {
    exists i, j | 1 < i && i + 1 < j < |t| - 2 :: CodeTokenSplit(t, i, j)
  }

  /** `t` matches the pattern with its "." at `i` and its ":" at `j`. */
  predicate CodeTokenSplit(t: string, i: int, j: int) {
    && 1 < i && i + 1 < j < |t| - 2 && t[0] == '(' && t[i] == '.' && t[j] == ':' && t[|t| - 1] == ')'
    && (forall k :: 0 < k < i ==> IsWordChar(t[k]))
    && (forall k :: i < k < j ==> IsWordChar(t[k]))
    && (forall k :: j < k < |t| - 1 ==> '0' <= t[k] <= '9')
  }

  /** A code position holds no space. */
  lemma NoSpaceInCodeToken(t: string, k: int)
    requires IsCodeToken(t) && 0 <= k < |t|
    ensures t[k] != ' '
  {
    var i, j :| CodeTokenSplit(t, i, j);
    assert CodeTokenSplit(t, i, j);
    assert 1 < i && i + 1 < j < |t| - 2;
    if 0 < k < i {
      assert IsWordChar(t[k]);
    } else if i < k < j {
      assert IsWordChar(t[k]);
    } else if j < k < |t| - 1 {
      assert '0' <= t[k] <= '9';
    }
  }

  /** The line text before a real match is never empty (the match holds no
      space, so "at " cannot start just inside it), so every match is styled. */
  lemma CodeTokenAlwaysStyled(s: string, ms: int, me: int)
    requires 0 <= ms && ms + 2 <= me <= |s| && IsCodeToken(s[ms..me])
    ensures s[ms] == '(' && s[me - 1] == ')'
    ensures StyleMatch(s, ms, me).Some?
  {
    var t := s[ms..me];
    assert s[ms] == t[0] && s[me - 1] == t[|t| - 1];
    assert |t| > 4;
    NoSpaceInCodeToken(t, 3);
    assert s[ms + 3] == t[3];
    assert s[ms + 1..ms + 4][2] == s[ms + 3];
  }

  /** `isTablet()`: `screenLayout and SCREENLAYOUT_SIZE_MASK` (0x0f) is at least
      SCREENLAYOUT_SIZE_LARGE (3); the mask is taken on the 32-bit pattern. */
  function IsTablet(screenLayout: int): (r: bool)
    requires IsInt32(screenLayout)
    ensures r <==> screenLayout % 16 >= 3
  {
    var u := if screenLayout < 0 then screenLayout + 0x1_0000_0000 else screenLayout;
    SizeBits(screenLayout, u);
    LowBits(u, 4) >= 3
  }

  /** The size bits of the layout's 32-bit pattern are its remainder by 16. */
  lemma SizeBits(screenLayout: int, u: nat)
    requires u == screenLayout || u == screenLayout + 0x1_0000_0000
    ensures LowBits(u, 4) == screenLayout % 16
  {
    LowBitsIsMod(u, 4);
    assert Pow2(4) == 16 by {
      assert Pow2(2) == 4;
    }
    assert u == screenLayout + 16 * ((u - screenLayout) / 16);
  }

  function Pow2(k: nat): (r: nat)
    ensures r >= 1
  {
    if k == 0 then 1 else 2 * Pow2(k - 1)
  }

  /** `u and (2^k - 1)`, bit by bit: the lowest `k` bits of `u`. */
  function LowBits(u: nat, k: nat): nat
    decreases k
  {
    if k == 0 then 0 else u % 2 + 2 * LowBits(u / 2, k - 1)
  }

  /** Keeping the lowest `k` bits is taking the remainder by `2^k`. */
  lemma {:induction false} LowBitsIsMod(u: nat, k: nat)
    ensures LowBits(u, k) == u % Pow2(k)
    decreases k
  {
    if k > 0 {
      var a, b, n := u / 2, u % 2, Pow2(k - 1);
      LowBitsIsMod(a, k - 1);
      ModDouble(a, b, n);
      assert u == 2 * a + b;
      assert LowBits(u, k) == b + 2 * (a % n);
      assert Pow2(k) == 2 * n;
    }
  }

  /** The remainder by `2n` of `2a + b`, for a bit `b`, from the remainder of `a` by `n`. */
  lemma ModDouble(a: nat, b: nat, n: nat)
    requires b < 2 && n >= 1
    ensures (2 * a + b) % (2 * n) == 2 * (a % n) + b
  {
    var q, c := a / n, a % n;
    assert a == q * n + c;
    assert 2 * a + b == q * (2 * n) + (2 * c + b);
    DivMod(q, 2 * c + b, 2 * n);
  }

  /** Large (3) and extra-large (4) screens are tablets, small (1) and normal (2)
      screens are not, and the bits above the size field do not matter. */
  lemma TabletSizes(screenLayout: int, high: int)
    requires IsInt32(screenLayout) && IsInt32(screenLayout + 16 * high)
    ensures IsTablet(3) && IsTablet(4) && !IsTablet(1) && !IsTablet(2)
    ensures IsTablet(screenLayout + 16 * high) == IsTablet(screenLayout)
  {
    assert (screenLayout + 16 * high) % 16 == screenLayout % 16;
  }
}

=== FILE: crash_handler.dfy ===
/** The application's uncaught-exception handler (`CrashHandler`): it records
    the crash time, decides whether to show the crash screen or restart, and
    passes the crash on to the handler it replaced unless that is the
    platform's own. */
module CrashHandler {

  import opened Common

  /** The fully qualified class name of this handler. */
  const HandlerClass: string := "com.tl.face.other.CrashHandler"

  /** The platform's own handlers live in this package and are not chained. */
  const InternalPackage: string := "com.android.internal.os"

  /** Two crashes closer than five minutes count as a crash loop. */
  const DeadlyWindow: int := 1000 * 60 * 5

  /** An exception handler, known only by its class name. */
  datatype Handler = Handler(className: string)

  /** An installed crash handler and the handler it replaced. */
  datatype Installed = Installed(next: Option<Handler>)

  /** Construction captures the current default handler and throws (`None`)
      when that handler is already of this class. */
  function Register(current: Option<Handler>): (r: Option<Installed>)
    ensures r.None? <==> current == Some(Handler(HandlerClass))
    ensures r.Some? ==> r.value.next == current
  {
    if current.Some? && current.value.className == HandlerClass then None
    else Some(Installed(current))
  }

  /** Registering a second time, over the first crash handler, throws. */
  lemma RegisterTwiceThrows()
    ensures Register(Some(Handler(HandlerClass))).None?
  {
  }

  /** What `uncaughtException` does: the time it stores, which screen it
      starts, and whether it delegates; the process is then killed. */
  datatype Outcome = Outcome(storedTime: int, crashScreen: bool, restart: bool, delegated: bool)

  predicate Deadly(lastCrashTime: int, now: int) {
    now - lastCrashTime < DeadlyWindow
  }

  /** `uncaughtException`: `lastCrashTime` is the stored time (0 when none was
      stored) and `now` the current wall-clock time. */
  function UncaughtException(h: Installed, lastCrashTime: int, now: int, debug: bool): (r: Outcome)
    ensures r.storedTime == now
    ensures r.crashScreen <==> debug
    ensures r.restart <==> !debug && now - lastCrashTime >= 300000
    ensures !(r.crashScreen && r.restart)
    ensures r.delegated <==> h.next.Some? && !StartsWith(h.next.value.className, InternalPackage)
  {
    var deadly := Deadly(lastCrashTime, now);
    Outcome(now, debug, !debug && !deadly,
      h.next.Some? && !StartsWith(h.next.value.className, InternalPackage))
  }

  /** Two release-build crashes within five minutes: the second one does not
      restart the application, because the first one stored its time. */
  lemma CrashLoopStopsRestarting(h: Installed, stored: int, t1: int, t2: int)
    requires 0 <= t2 - t1 < DeadlyWindow
    ensures UncaughtException(h, UncaughtException(h, stored, t1, false).storedTime, t2, false).restart == false
  {
  }

  /** A release-build crash with no crash stored before (time 0) restarts the
      application once the clock is past five minutes. */
  lemma FirstCrashRestarts(h: Installed, now: int)
    requires now >= DeadlyWindow
    ensures UncaughtException(h, 0, now, false).restart
  {
  }

  /** A handler never delegates to another instance of its own class. */
  lemma NeverChainsToItself(current: Option<Handler>)
    requires Register(current).Some?
    ensures Register(current).value.next != Some(Handler(HandlerClass))
  {
  }
}

=== FILE: debug_logger.dfy ===
/** `DebugLoggerTree`: the log tag made from a stack frame, "(File.kt:42)",
    which makes log lines clickable in the IDE. Before Android O log tags were
    limited to 23 characters. */
module DebugLogger {

  import opened Common

  const MaxTagLength: int := 23

  /** `Build.VERSION_CODES.O`. */
  const SdkO: int := 26

  /** The tag before truncation; a null file name prints as "null". */
  function FullTag(fileName: Option<string>, lineNumber: int): (t: string)
    ensures StartsWith(t, "(") && t[|t| - 1] == ')'
    ensures fileName.Some? ==> StartsWith(t, "(" + fileName.value + ":")
    ensures fileName.None? ==> StartsWith(t, "(null:")
  {
    var name := if fileName.Some? then fileName.value else "null";
    var t := "(" + name + ":" + IntToString(lineNumber) + ")";
    assert t[..1] == "(";
    assert t[..|name| + 2] == "(" + name + ":";
    t
  }

  /** `createStackElementTag`. */
  function CreateStackElementTag(fileName: Option<string>, lineNumber: int, sdk: int): (r: string)
    ensures var full := FullTag(fileName, lineNumber);
      && StartsWith(full, r)
      && (|full| <= MaxTagLength || sdk >= SdkO ==> r == full)
      && (|full| > MaxTagLength && sdk < SdkO ==> |r| == MaxTagLength)
    ensures sdk < SdkO ==> |r| <= MaxTagLength
  {
    var tag := FullTag(fileName, lineNumber);
    if |tag| <= MaxTagLength || sdk >= SdkO then tag else tag[..MaxTagLength]
  }

  /** A long file name keeps its first 23 characters of tag on older systems:
      "(" and the first 22 characters of the name. */
  lemma LongNameTruncated(fileName: string, lineNumber: int, sdk: int)
    requires |fileName| >= 22 && sdk < SdkO
    ensures CreateStackElementTag(Some(fileName), lineNumber, sdk) == "(" + fileName[..22]
  {
    var full := FullTag(Some(fileName), lineNumber);
    assert full[..|fileName| + 2] == "(" + fileName + ":";
    assert full[..23] == ("(" + fileName + ":")[..23];
  }
}

=== FILE: double_click.dfy ===
/** `DoubleClickHelper`: two remembered click times; a click is a double
    click when the previous click happened within the window. The two reads of
    the uptime clock in one call are taken to return the same `now`. */
module DoubleClick {

  /** The window of the no-argument overload, in milliseconds. */
  const DefaultWindow: int := 1500

  /** The two slots of `TIME_ARRAY`: the click before the last, and the last. */
  datatype Clicks = Clicks(slot0: int, slot1: int)

  /** Both slots start at 0. */
  const Initial: Clicks := Clicks(0, 0)

  /** `isOnDoubleClick(time)` at uptime `now`: shifts the slots and compares. */
  function IsOnDoubleClick(c: Clicks, now: int, time: int): (r: (Clicks, bool))
    ensures r.0.slot0 == c.slot1 && r.0.slot1 == now
    ensures r.1 <==> now - c.slot1 <= time
  {
    var shifted := Clicks(c.slot1, now);
    (shifted, shifted.slot0 >= now - time)
  }

  /** `isOnDoubleClick()`. */
  function IsOnDoubleClickDefault(c: Clicks, now: int): (Clicks, bool) {
    IsOnDoubleClick(c, now, DefaultWindow)
  }

  /** Whether a click counts as a double click depends only on the click
      immediately before it, not on anything earlier. */
  lemma OnlyPreviousClickMatters(c: Clicks, t1: int, t2: int, time: int)
    ensures IsOnDoubleClick(IsOnDoubleClick(c, t1, time).0, t2, time).1 <==> t2 - t1 <= time
  {
  }

  /** Two clicks 1.5 s apart or closer are a double click with the default
      window; clicks further apart are not. */
  lemma DefaultWindowExample(c: Clicks, t: int)
    ensures IsOnDoubleClickDefault(IsOnDoubleClickDefault(c, t).0, t + 1500).1
    ensures !IsOnDoubleClickDefault(IsOnDoubleClickDefault(c, t).0, t + 1501).1
  {
  }

  /** The first call compares against the initial 0: it reports a double click
      whenever the uptime is still within the window. */
  lemma FirstCallAgainstZero(now: int, time: int)
    ensures IsOnDoubleClick(Initial, now, time).1 <==> now <= time
  {
  }
}

=== FILE: engine.dfy ===
/** The vocabulary of the face engine the library drives. The engine itself is
    opaque: its result codes, face lists, masks, liveness reports, quality
    scores and features reach the model as inputs. */
module Engine {

  /** An engine call's result code. Only "is it `ErrorInfo.MOK`" matters to the
      library, so the numeric value of MOK is never assumed. */
  datatype EngineCode = Mok | Fail(code: int)

  /** `MaskInfo`: the engine's mask verdict for one face. */
  datatype Mask = MaskUnknown | MaskNotWorn | MaskWorn

  /** The liveness value the engine reports for one face (`LivenessInfo.liveness`):
      the library distinguishes ALIVE, NOT_ALIVE and UNKNOWN; every other value is
      carried as its code. */
  datatype EngineLiveness = EUnknown | EAlive | ENotAlive | EOther(code: int)

  /** Feature bytes (`FaceFeature.featureData`). */
  type Feature = seq<bv8>

  /** The engine's `DetectFaceOrientPriority`. */
  datatype Orient = Op0Only | Op90Only | Op180Only | Op270Only | OpAllOut

  /** One comparison: its result code and the score the engine left in `FaceSimilar`. */
  datatype Similarity = Similarity(code: EngineCode, score: real)

  /** `ExtractType`: what a feature is extracted for. */
  datatype ExtractType = Register | Recognize
}

=== FILE: face_camera_view.dfy ===
/** `FaceCameraView`: the view that feeds camera frames to `FaceHelper`, draws
    each face's rectangle in a colour chosen from its recognition state, and
    forwards the helper's notifications to the recognition callback. */
module FaceCameraView {
  import opened Common
  import opened Engine
  import opened Registry
  import opened FaceFrame
  import FaceHelper
  import C = FaceConfiguration

  /** An Android `Rect`. */
  datatype Rect = Rect(left: int, top: int, right: int, bottom: int)

  /** `Rect.contains(r)`: this rectangle is non-empty and encloses `r`. */
  predicate Contains(outer: Rect, r: Rect) {
    outer.left < outer.right && outer.top < outer.bottom
    && outer.left <= r.left && outer.top <= r.top && r.right <= outer.right && r.bottom <= outer.bottom
  }

  /** `getRecognizeAreaRect()`: the viewfinder frame when the area is limited,
      otherwise the whole view, a zero side standing for `Int.MAX_VALUE`. */
  function RecognizeAreaRect(limited: bool, frame: Rect, width: int, height: int): (r: Rect)
    ensures limited ==> r == frame
    ensures !limited ==> r.left == 0 && r.top == 0
    ensures !limited ==> r.right == (if width == 0 then INT_MAX else width)
    ensures !limited ==> r.bottom == (if height == 0 then INT_MAX else height)
  {
    if limited then frame
    else Rect(0, 0, if width == 0 then INT_MAX else width, if height == 0 then INT_MAX else height)
  }

  /** With the area unlimited, a view not yet laid out accepts every rectangle
      with non-negative corner and Kotlin-`Int` far corner; a laid-out view
      accepts exactly the rectangles inside it. */
  lemma UnlimitedAreaAcceptsView(r: Rect, width: int, height: int, frame: Rect)
    requires width >= 0 && height >= 0
    ensures width == 0 && height == 0 && 0 <= r.left && 0 <= r.top && IsInt32(r.right) && IsInt32(r.bottom)
      ==> Contains(RecognizeAreaRect(false, frame, width, height), r)
    ensures width > 0 && height > 0 ==>
      (Contains(RecognizeAreaRect(false, frame, width, height), r) <==>
       0 <= r.left && 0 <= r.top && r.right <= width && r.bottom <= height)
  {
  }

  /** The colour of a face's rectangle: success once SUCCEED, failure when FAILED
      or NOT_ALIVE, the unknown colour otherwise. */
  function Colour(d: C.DrawFaceRect, e: Entry): (r: int)
    ensures e.status == Succeed ==> r == d.successColor
    ensures e.status != Succeed && (e.status == Failed || e.liveness == NotAlive) ==> r == d.failedColor
    ensures e.status != Succeed && e.status != Failed && e.liveness != NotAlive ==> r == d.unknownColor
  {
    if e.status == Succeed then d.successColor
    else if e.status == Failed || e.liveness == NotAlive then d.failedColor
    else d.unknownColor
  }

  /** The label drawn with a face: its message, or its id when it has none. */
  function Label(e: Entry, id: int): (r: Msg)
    ensures e.msg.Some? ==> r == e.msg.value
    ensures e.msg.None? ==> r == FaceIdMsg(id)
  {
    if e.msg.Some? then e.msg.value else FaceIdMsg(id)
  }

  /** A delayed reset writes the face id as the message, which is exactly what a
      new entry is labelled with: after a reset the label is back to its default. */
  lemma ResetRestoresDefaultLabel(s: FaceHelper.State, rs: FaceHelper.Reset)
    requires rs.faceId in s.registry
    ensures var r := FaceHelper.FireReset(s, rs);
      Label(r.registry[rs.faceId], rs.faceId) == Label(NewEntry, rs.faceId)
  {
    var id := rs.faceId;
    var cs := FaceHelper.ResetChanges(rs);
    var reg1 := ApplyChange(s.registry, cs[0]);
    var reg2 := ApplyChange(reg1, cs[1]);
    assert cs[1..][0] == cs[1] && cs[1..][1..] == [];
    assert ApplyChanges(reg2, cs[1..][1..]) == reg2;
    assert ApplyChanges(reg1, cs[1..]) == reg2;
    assert ApplyChanges(s.registry, cs) == reg2;
  }

  /** One rectangle to draw. */
  datatype DrawInfo = DrawInfo(faceId: int, colour: int, text: Msg, liveness: Liveness)

  /** The face ids of the previews in `ps`. */
  ghost function PreviewIds(ps: seq<Preview>): set<int> {
    set i | 0 <= i < |ps| :: ps[i].face.faceId
  }

  lemma PreviewIdsSplit(ps: seq<Preview>)
    requires |ps| > 0
    ensures PreviewIds(ps) == {ps[0].face.faceId} + PreviewIds(ps[1..])
  {
    forall i | 0 <= i < |ps| ensures ps[i].face.faceId in {ps[0].face.faceId} + PreviewIds(ps[1..]) {
      if i > 0 {
        assert ps[1..][i - 1] == ps[i];
      }
    }
    forall x | x in PreviewIds(ps[1..]) ensures x in PreviewIds(ps) {
      var i :| 0 <= i < |ps[1..]| && ps[1..][i].face.faceId == x;
      assert ps[i + 1] == ps[1..][i];
    }
  }

  /** `onPreviewFaceInfo(previews)`: when drawing is on, each preview's entry is
      fetched through `getRecognizeInfo`, which creates it if missing, and drawn. */
  function OnPreviewFaceInfo(reg: Registry, cfg: C.Config, ps: seq<Preview>): (r: (Registry, seq<DrawInfo>))
    ensures !cfg.drawFaceRect.isDraw ==> r == (reg, [])
    ensures cfg.drawFaceRect.isDraw ==> |r.1| == |ps|
    ensures cfg.drawFaceRect.isDraw ==> r.0.Keys == reg.Keys + PreviewIds(ps)
    ensures forall k :: k in reg ==> k in r.0 && r.0[k] == reg[k]
    ensures forall k :: k in r.0 && k !in reg ==> r.0[k] == NewEntry
    decreases |ps|
  {
    if !cfg.drawFaceRect.isDraw || |ps| == 0 then (reg, [])
    else
      var id := ps[0].face.faceId;
      var (reg1, e) := GetRecognizeInfo(reg, id);
      var (reg2, rest) := OnPreviewFaceInfo(reg1, cfg, ps[1..]);
      var info := DrawInfo(id, Colour(cfg.drawFaceRect, e), Label(e, id), e.liveness);
      PreviewIdsSplit(ps);
      (reg2, [info] + rest)
  }

  /** The rectangle drawn for the i-th preview belongs to that preview's face and
      shows the colour, label and liveness of the face's entry as the callback
      leaves it; since the callback only creates entries, that is the entry the
      lookup returned. */
  lemma {:induction false} DrawnRectangles(reg: Registry, cfg: C.Config, ps: seq<Preview>)
    requires cfg.drawFaceRect.isDraw
    ensures var r := OnPreviewFaceInfo(reg, cfg, ps);
      forall i :: 0 <= i < |ps| ==>
        var id := ps[i].face.faceId;
        id in r.0 && r.1[i] == DrawInfo(id, Colour(cfg.drawFaceRect, r.0[id]), Label(r.0[id], id), r.0[id].liveness)
    decreases |ps|
  {
    if |ps| > 0 {
      var id := ps[0].face.faceId;
      var reg1 := GetRecognizeInfo(reg, id).0;
      DrawnRectangles(reg1, cfg, ps[1..]);
      var r := OnPreviewFaceInfo(reg, cfg, ps);
      var rest := OnPreviewFaceInfo(reg1, cfg, ps[1..]);
      assert r.0 == rest.0 && r.1[1..] == rest.1;
      forall i | 1 <= i < |ps| ensures ps[i] == ps[1..][i - 1] && r.1[i] == rest.1[i - 1] {
      }
    }
  }

  /** A frame followed by its preview callback: the registry never holds a face
      that is not among the frame's kept faces, whatever it held before; with
      drawing on, the lookups add the kept faces not yet known, so it holds
      exactly the kept faces. */
  lemma FrameThenDrawKeepsOnlyKeptFaces(s: FaceHelper.State, cfg: C.Config, fr: FaceHelper.Frame)
    requires !s.paused && fr.detect.Mok?
    ensures var next := FaceHelper.OnPreviewFrame(s, cfg, fr).0;
      OnPreviewFaceInfo(next.registry, cfg, next.previews).0.Keys <= set f | f in next.faces :: f.faceId
    ensures var next := FaceHelper.OnPreviewFrame(s, cfg, fr).0;
      cfg.drawFaceRect.isDraw ==>
        OnPreviewFaceInfo(next.registry, cfg, next.previews).0.Keys == set f | f in next.faces :: f.faceId
  {
    var next := FaceHelper.OnPreviewFrame(s, cfg, fr).0;
    FaceHelper.DetectedFrameClears(s, cfg, fr);
    FaceHelper.DetectedFrameKeeps(s, cfg, fr);
    DrawStaysWithin(next.registry, cfg, next.previews, next.faces);
    if cfg.drawFaceRect.isDraw {
      PreviewsOfFaces(next.previews, next.faces);
    }
  }

  /** Previews made one per face carry exactly those faces' ids. */
  lemma PreviewsOfFaces(ps: seq<Preview>, faces: seq<Face>)
    requires |ps| == |faces| && forall i :: 0 <= i < |ps| ==> ps[i].face == faces[i]
    ensures PreviewIds(ps) == set f | f in faces :: f.faceId
  {
    forall f | f in faces ensures f.faceId in PreviewIds(ps) {
      var i :| 0 <= i < |faces| && faces[i] == f;
      assert ps[i].face == f;
    }
  }

  /** Drawing previews of the given faces over a registry of those faces adds
      no other face. */
  lemma DrawStaysWithin(reg: Registry, cfg: C.Config, ps: seq<Preview>, faces: seq<Face>)
    requires reg.Keys <= set f | f in faces :: f.faceId
    requires |ps| == |faces| && forall i :: 0 <= i < |ps| ==> ps[i].face == faces[i]
    ensures OnPreviewFaceInfo(reg, cfg, ps).0.Keys <= set f | f in faces :: f.faceId
  {
    forall i | 0 <= i < |ps| ensures ps[i].face.faceId in set f | f in faces :: f.faceId {
      assert faces[i] in faces;
    }
  }

  /** The view's own state: the `enableFace` flag and whether the helper exists. */
  datatype View = View(enableFace: bool, helperInitialized: bool)

  /** `enableFace(x)`: nothing happens when `x` is the current value. Turning it
      on first creates the helper if there is none; without an activated SDK that
      fails and the flag stays off. */
  function EnableFace(v: View, x: bool, activated: bool): (r: View)
    ensures x == v.enableFace ==> r == v
    ensures x && !v.enableFace && !v.helperInitialized && !activated ==> r == v
    ensures x && !v.enableFace && (v.helperInitialized || activated) ==> r == View(true, true)
    ensures !x && v.enableFace ==> r == v.(enableFace := false)
  {
    if v.enableFace == x then v
    else if x && !v.helperInitialized then (if activated then View(true, true) else v)
    else v.(enableFace := x)
  }

  /** Frames are processed only with a helper present. */
  ghost predicate ViewOk(v: View) {
    v.enableFace ==> v.helperInitialized
  }

  lemma EnableFaceKeepsViewOk(v: View, x: bool, activated: bool)
    requires ViewOk(v)
    ensures ViewOk(EnableFace(v, x, activated))
  {
  }

  /** The frame processor: frames reach the helper only while `enableFace` is on. */
  function ProcessFrame(v: View, s: FaceHelper.State, cfg: C.Config, fr: FaceHelper.Frame): (r: (FaceHelper.State, seq<Event>))
    ensures !v.enableFace ==> r == (s, [])
    ensures v.enableFace ==> r == FaceHelper.OnPreviewFrame(s, cfg, fr)
  {
    if !v.enableFace then (s, []) else FaceHelper.OnPreviewFrame(s, cfg, fr)
  }

  /** The notifications the view passes on to the recognition callback. */
  predicate Forwardable(e: Event) {
    e.PresenceSignal? || e.NotInTheArea? || e.DetectionFace?
  }

  /** `someone`, `nobody`, `notInTheArea`, `detectFaceNum` and `detectionFace`:
      passed on, in order, only when IR face detection is off and a recognition
      callback is set. */
  function Forward(es: seq<Event>, irDetectFaces: bool, hasRecognizeCallback: bool): (r: seq<Event>)
    ensures irDetectFaces || !hasRecognizeCallback ==> r == []
    ensures forall e :: e in r ==> e in es && Forwardable(e)
    ensures !irDetectFaces && hasRecognizeCallback ==> forall e :: e in es && Forwardable(e) ==> e in r
    decreases |es|
  {
    if irDetectFaces || !hasRecognizeCallback || |es| == 0 then []
    else (if Forwardable(es[0]) then [es[0]] else []) + Forward(es[1..], irDetectFaces, hasRecognizeCallback)
  }

  /** One notification is passed on once, unchanged, exactly when it is one of
      the forwarded kinds and forwarding is on. */
  lemma ForwardOne(e: Event, irDetectFaces: bool, hasRecognizeCallback: bool)
    ensures Forward([e], irDetectFaces, hasRecognizeCallback) ==
      if !irDetectFaces && hasRecognizeCallback && Forwardable(e) then [e] else []
  {
    assert [e][1..] == [];
  }

  /** Forwarding is done call by call: the notifications of two runs are passed
      on as those of the first followed by those of the second, so order and
      repetitions are kept. */
  lemma {:induction false} ForwardAppend(a: seq<Event>, b: seq<Event>, irDetectFaces: bool, hasRecognizeCallback: bool)
    ensures Forward(a + b, irDetectFaces, hasRecognizeCallback) ==
      Forward(a, irDetectFaces, hasRecognizeCallback) + Forward(b, irDetectFaces, hasRecognizeCallback)
    decreases |a|
  {
    if irDetectFaces || !hasRecognizeCallback {
    } else if |a| == 0 {
      assert a + b == b;
    } else {
      assert (a + b)[0] == a[0];
      assert (a + b)[1..] == a[1..] + b;
      ForwardAppend(a[1..], b, irDetectFaces, hasRecognizeCallback);
    }
  }

  /** `retryRecognizeDelayed` / `retryLivenessDetectDelayed` on the view: passed to
      the helper when it exists, ignored otherwise. */
  function ManualRetry(v: View, s: FaceHelper.State, id: int, liveness: bool): (r: FaceHelper.State)
    ensures !v.helperInitialized ==> r == s
    ensures v.helperInitialized && liveness ==> r == FaceHelper.RetryLivenessDetectDelayed(s, id)
    ensures v.helperInitialized && !liveness ==> r == FaceHelper.RetryRecognizeDelayed(s, id)
  {
    if !v.helperInitialized then s
    else if liveness then FaceHelper.RetryLivenessDetectDelayed(s, id)
    else FaceHelper.RetryRecognizeDelayed(s, id)
  }
}

=== FILE: face_configuration.dfy ===
/** The face library's configuration: a builder with defaults and chainable
    setters, and `build()`, which copies every field into an immutable
    configuration and switches recognition off when no recognition callback
    was supplied. */
module FaceConfiguration {

  import opened Common
  import opened Engine

  datatype LivenessType = LivenessNone | LivenessRgb | LivenessIr

  datatype CameraFacing = Back | Front

  /** Attribute detection switches (`DetectInfo`). */
  datatype DetectInfo = DetectInfo(age: bool, gender: bool, angle: bool)

  /** Face-rectangle drawing options (`DrawFaceRect`): colours are ARGB ints. */
  datatype DrawFaceRect = DrawFaceRect(isDraw: bool, successColor: int, failedColor: int, unknownColor: int)

  datatype PreviewSize = PreviewSize(width: int, height: int)

  /** Every field of the configuration; the builder holds the same fields.
      Floats are modelled as reals; the two callbacks only by whether they are null. */
  datatype Settings = Settings(
    hasRecognizeCallback: bool,
    detectFaceOrient: Orient,
    enableRecognize: bool,
    livenessType: LivenessType,
    rgbLivenessThreshold: real,
    fqLivenessThreshold: real,
    irLivenessThreshold: real,
    enableImageQuality: bool,
    detectFaceMaxNum: int,
    recognizeKeepMaxFace: bool,
    enableRecognizeAreaLimited: bool,
    recognizeAreaLimitedRatio: real,
    detectInfo: DetectInfo,
    rgbCameraFacing: CameraFacing,
    irCameraFacing: CameraFacing,
    previewSize: Option<PreviewSize>,
    drawFaceRect: DrawFaceRect,
    isRgbMirror: bool,
    isIrMirror: bool,
    extractFeatureErrorRetryCount: int,
    recognizeFailedRetryInterval: int,
    livenessErrorRetryCount: int,
    livenessFailedRetryInterval: int,
    enableCompareFace: bool,
    enableMask: bool,
    faceSizeLimit: int,
    imageQualityNoMaskRecognizeThreshold: real,
    imageQualityMaskRecognizeThreshold: real,
    hasErrorCallback: bool)

  /** `FaceConfiguration.Builder`: its mutable fields. */
  datatype Builder = Builder(fields: Settings)

  /** The built, immutable `FaceConfiguration`. */
  type Config = Settings

  /** `Builder(context, recognizeCallback)` with its field initialisers.
      `DetectInfo()` and `DrawFaceRect()` are constructed by classes outside
      this model, so their default values are parameters. */
  function NewBuilder(hasRecognizeCallback: bool, defaultDetectInfo: DetectInfo, defaultDrawFaceRect: DrawFaceRect): (b: Builder)
    ensures b.fields.hasRecognizeCallback == hasRecognizeCallback
    ensures b.fields.enableRecognize && b.fields.livenessType == LivenessNone
    ensures b.fields.detectFaceMaxNum == 1 && b.fields.recognizeKeepMaxFace
    ensures !b.fields.enableRecognizeAreaLimited && b.fields.enableCompareFace && !b.fields.enableMask
    ensures b.fields.faceSizeLimit == 160
    ensures b.fields.extractFeatureErrorRetryCount == 3 && b.fields.livenessErrorRetryCount == 3
    ensures b.fields.recognizeFailedRetryInterval == 1000 && b.fields.livenessFailedRetryInterval == 1000
  {
    Builder(Settings(
      hasRecognizeCallback := hasRecognizeCallback,
      detectFaceOrient := Op0Only,
      enableRecognize := true,
      livenessType := LivenessNone,
      rgbLivenessThreshold := 0.6,
      fqLivenessThreshold := 0.6,
      irLivenessThreshold := 0.7,
      enableImageQuality := false,
      detectFaceMaxNum := 1,
      recognizeKeepMaxFace := true,
      enableRecognizeAreaLimited := false,
      recognizeAreaLimitedRatio := 0.625,
      detectInfo := defaultDetectInfo,
      rgbCameraFacing := Back,
      irCameraFacing := Front,
      previewSize := None,
      drawFaceRect := defaultDrawFaceRect,
      isRgbMirror := false,
      isIrMirror := false,
      extractFeatureErrorRetryCount := 3,
      recognizeFailedRetryInterval := 1000,
      livenessErrorRetryCount := 3,
      livenessFailedRetryInterval := 1000,
      enableCompareFace := true,
      enableMask := false,
      faceSizeLimit := 160,
      imageQualityNoMaskRecognizeThreshold := 0.49,
      imageQualityMaskRecognizeThreshold := 0.29,
      hasErrorCallback := false))
  }

  /** The builder's setters, one constructor per setter, carrying the argument. */
  datatype Setter =
    | SetDetectFaceOrient(orient: Orient)
    | EnableRecognize(b: bool)
    | SetLivenessType(lt: LivenessType)
    | SetRgbLivenessThreshold(r: real)
    | SetFqLivenessThreshold(r: real)
    | SetIrLivenessThreshold(r: real)
    | EnableImageQuality(b: bool)
    | SetDetectFaceMaxNum(n: int)
    | RecognizeKeepMaxFace(b: bool)
    | EnableRecognizeAreaLimited(b: bool)
    | SetRecognizeAreaLimitedRatio(r: real)
    | SetDetectInfo(info: DetectInfo)
    | SetRgbCameraFacing(facing: CameraFacing)
    | SetIrCameraFacing(facing: CameraFacing)
    | SetPreviewSize(size: Option<PreviewSize>)
    | SetDrawFaceRect(rect: DrawFaceRect)
    | IsRgbMirror(b: bool)
    | IsIrMirror(b: bool)
    | SetExtractFeatureErrorRetryCount(n: int)
    | SetRecognizeFailedRetryInterval(n: int)
    | SetLivenessErrorRetryCount(n: int)
    | SetLivenessFailedRetryInterval(n: int)
    | EnableCompareFace(b: bool)
    | EnableMask(b: bool)
    | SetFaceSizeLimit(n: int)
    | SetImageQualityNoMaskRecognizeThreshold(r: real)
    | SetImageQualityMaskRecognizeThreshold(r: real)
    | SetOnErrorCallback(present: bool)

  /** Each setter's body: `apply { this.field = value }`, with no range check. */
  function Apply(b: Builder, s: Setter): Builder {
    var f := b.fields;
    Builder(match s
      case SetDetectFaceOrient(o) => f.(detectFaceOrient := o)
      case EnableRecognize(x) => f.(enableRecognize := x)
      case SetLivenessType(t) => f.(livenessType := t)
      case SetRgbLivenessThreshold(r) => f.(rgbLivenessThreshold := r)
      case SetFqLivenessThreshold(r) => f.(fqLivenessThreshold := r)
      case SetIrLivenessThreshold(r) => f.(irLivenessThreshold := r)
      case EnableImageQuality(x) => f.(enableImageQuality := x)
      case SetDetectFaceMaxNum(n) => f.(detectFaceMaxNum := n)
      case RecognizeKeepMaxFace(x) => f.(recognizeKeepMaxFace := x)
      case EnableRecognizeAreaLimited(x) => f.(enableRecognizeAreaLimited := x)
      case SetRecognizeAreaLimitedRatio(r) => f.(recognizeAreaLimitedRatio := r)
      case SetDetectInfo(i) => f.(detectInfo := i)
      case SetRgbCameraFacing(c) => f.(rgbCameraFacing := c)
      case SetIrCameraFacing(c) => f.(irCameraFacing := c)
      case SetPreviewSize(p) => f.(previewSize := p)
      case SetDrawFaceRect(d) => f.(drawFaceRect := d)
      case IsRgbMirror(x) => f.(isRgbMirror := x)
      case IsIrMirror(x) => f.(isIrMirror := x)
      case SetExtractFeatureErrorRetryCount(n) => f.(extractFeatureErrorRetryCount := n)
      case SetRecognizeFailedRetryInterval(n) => f.(recognizeFailedRetryInterval := n)
      case SetLivenessErrorRetryCount(n) => f.(livenessErrorRetryCount := n)
      case SetLivenessFailedRetryInterval(n) => f.(livenessFailedRetryInterval := n)
      case EnableCompareFace(x) => f.(enableCompareFace := x)
      case EnableMask(x) => f.(enableMask := x)
      case SetFaceSizeLimit(n) => f.(faceSizeLimit := n)
      case SetImageQualityNoMaskRecognizeThreshold(r) => f.(imageQualityNoMaskRecognizeThreshold := r)
      case SetImageQualityMaskRecognizeThreshold(r) => f.(imageQualityMaskRecognizeThreshold := r)
      case SetOnErrorCallback(p) => f.(hasErrorCallback := p))
  }

  /** A setter chain, applied left to right (`builder.a(..).b(..)...`). */
  function ApplyAll(b: Builder, ss: seq<Setter>): Builder
    decreases |ss|
  {
    if |ss| == 0 then b else ApplyAll(Apply(b, ss[0]), ss[1..])
  }

  /** No setter changes whether a recognition callback was supplied: the
      callback is a constructor value of the builder, not one of its setters.
      The setters are taken in groups, in their declaration order. */
  lemma SetterKeepsCallback(b: Builder, s: Setter)
    ensures Apply(b, s).fields.hasRecognizeCallback == b.fields.hasRecognizeCallback
  {
    if s.SetDetectFaceOrient? || s.EnableRecognize? || s.SetLivenessType? || s.SetRgbLivenessThreshold? || s.SetFqLivenessThreshold? || s.SetIrLivenessThreshold? || s.EnableImageQuality? || s.SetDetectFaceMaxNum? || s.RecognizeKeepMaxFace? {
      KeepsCallback1(b, s);
    } else if s.EnableRecognizeAreaLimited? || s.SetRecognizeAreaLimitedRatio? || s.SetDetectInfo? || s.SetRgbCameraFacing? || s.SetIrCameraFacing? || s.SetPreviewSize? {
      KeepsCallback2(b, s);
    } else if s.SetDrawFaceRect? || s.IsRgbMirror? || s.IsIrMirror? || s.SetExtractFeatureErrorRetryCount? {
      KeepsCallback3(b, s);
    } else if s.SetRecognizeFailedRetryInterval? || s.SetLivenessErrorRetryCount? || s.SetLivenessFailedRetryInterval? {
      KeepsCallback4(b, s);
    } else if s.EnableCompareFace? || s.EnableMask? || s.SetFaceSizeLimit? {
      KeepsCallback5(b, s);
    } else {
      KeepsCallback6(b, s);
    }
  }

  lemma KeepsCallback1(b: Builder, s: Setter)
    requires s.SetDetectFaceOrient? || s.EnableRecognize? || s.SetLivenessType? || s.SetRgbLivenessThreshold? || s.SetFqLivenessThreshold? || s.SetIrLivenessThreshold? || s.EnableImageQuality? || s.SetDetectFaceMaxNum? || s.RecognizeKeepMaxFace?
    ensures Apply(b, s).fields.hasRecognizeCallback == b.fields.hasRecognizeCallback
  {
    match s
    case SetDetectFaceOrient(_) =>
    case EnableRecognize(_) =>
    case SetLivenessType(_) =>
    case SetRgbLivenessThreshold(_) =>
    case SetFqLivenessThreshold(_) =>
    case SetIrLivenessThreshold(_) =>
    case EnableImageQuality(_) =>
    case SetDetectFaceMaxNum(_) =>
    case RecognizeKeepMaxFace(_) =>
  }

  lemma KeepsCallback2(b: Builder, s: Setter)
    requires s.EnableRecognizeAreaLimited? || s.SetRecognizeAreaLimitedRatio? || s.SetDetectInfo? || s.SetRgbCameraFacing? || s.SetIrCameraFacing? || s.SetPreviewSize?
    ensures Apply(b, s).fields.hasRecognizeCallback == b.fields.hasRecognizeCallback
  {
    match s
    case EnableRecognizeAreaLimited(_) =>
    case SetRecognizeAreaLimitedRatio(_) =>
    case SetDetectInfo(_) =>
    case SetRgbCameraFacing(_) =>
    case SetIrCameraFacing(_) =>
    case SetPreviewSize(_) =>
  }

  lemma KeepsCallback3(b: Builder, s: Setter)
    requires s.SetDrawFaceRect? || s.IsRgbMirror? || s.IsIrMirror? || s.SetExtractFeatureErrorRetryCount?
    ensures Apply(b, s).fields.hasRecognizeCallback == b.fields.hasRecognizeCallback
  {
    match s
    case SetDrawFaceRect(_) =>
    case IsRgbMirror(_) =>
    case IsIrMirror(_) =>
    case SetExtractFeatureErrorRetryCount(_) =>
  }

  lemma KeepsCallback4(b: Builder, s: Setter)
    requires s.SetRecognizeFailedRetryInterval? || s.SetLivenessErrorRetryCount? || s.SetLivenessFailedRetryInterval?
    ensures Apply(b, s).fields.hasRecognizeCallback == b.fields.hasRecognizeCallback
  {
    match s
    case SetRecognizeFailedRetryInterval(_) =>
    case SetLivenessErrorRetryCount(_) =>
    case SetLivenessFailedRetryInterval(_) =>
  }

  lemma KeepsCallback5(b: Builder, s: Setter)
    requires s.EnableCompareFace? || s.EnableMask? || s.SetFaceSizeLimit?
    ensures Apply(b, s).fields.hasRecognizeCallback == b.fields.hasRecognizeCallback
  {
    match s
    case EnableCompareFace(_) =>
    case EnableMask(_) =>
    case SetFaceSizeLimit(_) =>
  }

  lemma KeepsCallback6(b: Builder, s: Setter)
    requires s.SetImageQualityNoMaskRecognizeThreshold? || s.SetImageQualityMaskRecognizeThreshold? || s.SetOnErrorCallback?
    ensures Apply(b, s).fields.hasRecognizeCallback == b.fields.hasRecognizeCallback
  {
    match s
    case SetImageQualityNoMaskRecognizeThreshold(_) =>
    case SetImageQualityMaskRecognizeThreshold(_) =>
    case SetOnErrorCallback(_) =>
  }

  /** `build()`: forces `enableRecognize` off on the builder when the recognition
      callback is null, then copies every builder field into the configuration. */
  function Build(b: Builder): (r: (Builder, Config))
    ensures r.1.enableRecognize <==> b.fields.hasRecognizeCallback && b.fields.enableRecognize
    ensures r.1 == b.fields.(enableRecognize := r.1.enableRecognize)
    ensures r.0.fields == r.1
  {
    var fields := if !b.fields.hasRecognizeCallback then b.fields.(enableRecognize := false) else b.fields;
    (Builder(fields), fields)
  }

  /** A configuration built from any setter chain on a fresh builder recognises
      only when a callback is present and recognition was left (or set) on. */
  lemma {:induction false} BuiltRecognizeNeedsCallback(b: Builder, ss: seq<Setter>)
    ensures ApplyAll(b, ss).fields.hasRecognizeCallback == b.fields.hasRecognizeCallback
    ensures Build(ApplyAll(b, ss)).1.enableRecognize ==> b.fields.hasRecognizeCallback
    decreases |ss|
  {
    if |ss| > 0 {
      SetterKeepsCallback(b, ss[0]);
      BuiltRecognizeNeedsCallback(Apply(b, ss[0]), ss[1..]);
    }
  }

  /** The default configuration (`FaceConfiguration.default`) recognises iff a callback is given. */
  lemma DefaultRecognizesIffCallback(cb: bool, di: DetectInfo, dr: DrawFaceRect)
    ensures Build(NewBuilder(cb, di, dr)).1.enableRecognize <==> cb
  {
  }
}

=== FILE: face_detect.dfy ===
/** `FaceDetect`: a detection-only engine wrapper that reports presence and face
    count to an optional `FaceDetectCallback`. */
module FaceDetect {
  import opened Engine
  import opened Presence

  /** The remembered presence values, whether a callback is set, and whether the
      detection executor has been shut down. */
  datatype Detector = Detector(tracker: Tracker, hasCallback: bool, shutdown: bool)

  const Fresh: Detector := Detector(Initial, false, false)

  /** `setFaceDetectCallback`. */
  function SetCallback(d: Detector, present: bool): (r: Detector)
    ensures r.tracker == d.tracker && r.hasCallback == present && r.shutdown == d.shutdown
  {
    d.(hasCallback := present)
  }

  /** What `onPreviewFrame` does: the task ran, leaving a detector and the
      callbacks it delivered, or `execute` threw `RejectedExecutionException`
      because the executor was shut down (its default rejection policy). */
  datatype Outcome = Ran(detector: Detector, signals: seq<Signal>) | Rejected

  /** One `onPreviewFrame` call: `code` and `ids` are the engine's detection
      result. A shut-down executor rejects the task. A failed detection is only
      logged. Otherwise the presence values are updated as `anybody` does; the
      callbacks go through `?.`, so without a callback nothing is delivered
      although the values still change. */
  function OnPreviewFrame(d: Detector, code: EngineCode, ids: seq<int>): (r: Outcome)
    ensures r.Rejected? <==> d.shutdown
    ensures !d.shutdown && code.Fail? ==> r == Ran(d, [])
    ensures !d.shutdown && code.Mok? ==> r.detector == d.(tracker := Tracker(|ids| > 0, |ids|))
    ensures r.Ran? && !d.hasCallback ==> r.signals == []
    ensures !d.shutdown && code.Mok? && d.hasCallback ==> r.signals == Anybody(d.tracker, ids).1
  {
    if d.shutdown then Rejected
    else if code.Fail? then Ran(d, [])
    else
      var (t, sigs) := Anybody(d.tracker, ids);
      Ran(d.(tracker := t), if d.hasCallback then sigs else [])
  }

  /** `destroy`: the executor is shut down (it is created first if it never
      was) and the callback is dropped. */
  function Destroy(d: Detector): (r: Detector)
    ensures r.shutdown && !r.hasCallback && r.tracker == d.tracker
  {
    d.(hasCallback := false, shutdown := true)
  }

  /** A detection result for one frame. */
  datatype Frame = Frame(code: EngineCode, ids: seq<int>)

  /** Frames handed over one after another: the detector and callbacks after
      them, and whether a call threw, which ends the run. */
  function RunFrames(d: Detector, frames: seq<Frame>): (r: (Detector, seq<Signal>, bool))
    decreases |frames|
  {
    if |frames| == 0 then (d, [], false)
    else
      match OnPreviewFrame(d, frames[0].code, frames[0].ids)
      case Rejected => (d, [], true)
      case Ran(d1, s1) =>
        var (d2, s2, thrown) := RunFrames(d1, frames[1..]);
        (d2, s1 + s2, thrown)
  }

  /** After `destroy` the first frame throws, so no frame delivers a callback
      and the detector stays as `destroy` left it. */
  lemma DestroyedIsSilent(d: Detector, frames: seq<Frame>)
    ensures RunFrames(Destroy(d), frames) == (Destroy(d), [], |frames| > 0)
  {
  }

  /** Setting a callback again after `destroy` does not bring detection back. */
  lemma DestroyedStaysShut(d: Detector, present: bool, code: EngineCode, ids: seq<int>)
    ensures OnPreviewFrame(SetCallback(Destroy(d), present), code, ids) == Rejected
  {
  }

  /** Before `destroy` no frame throws: a run of frames on a live detector
      ends normally, with the detector still live. */
  lemma {:induction false} LiveRunNeverThrows(d: Detector, frames: seq<Frame>)
    requires !d.shutdown
    ensures !RunFrames(d, frames).2 && !RunFrames(d, frames).0.shutdown
    decreases |frames|
  {
    if |frames| > 0 {
      var d1 := OnPreviewFrame(d, frames[0].code, frames[0].ids).detector;
      LiveRunNeverThrows(d1, frames[1..]);
    }
  }

  /** Failed detections in between change nothing: a frame that fails leaves a
      live detector exactly as it was, so the next successful frame is compared
      with the last successful one. */
  lemma FailedFrameIsInvisible(d: Detector, c: int, ids: seq<int>)
    ensures OnPreviewFrame(d, Fail(c), ids) == if d.shutdown then Rejected else Ran(d, [])
  {
  }
}

=== FILE: face_frame.dfy ===
/** The per-frame pieces of `FaceHelper.onPreviewFrame`: the faces a frame
    reports, `keepMaxFace`, `judgeFaceSize`, and the five-deep stability buffer
    (`tempDetection`) that decides when `detectionFace` fires. */
module FaceFrame {
  import opened Common
  import opened Engine
  import Presence

  /** One detected face: its tracking id, the raw rectangle's width and height,
      and whether its transformed rectangle lies inside the recognise area
      (that containment test is done by the view and arrives as a flag). */
  datatype Face = Face(faceId: int, width: int, height: int, areaValid: bool)

  /** One `FacePreviewInfo`: the face plus the mask verdict attached to it. */
  datatype Preview = Preview(face: Face, mask: Mask)

  /** The kinds of `FaceErrorType` the pipeline reports. */
  datatype ErrorKind = DetectFaces | DetectMask | DetectLiveness | ImageQuality | ExtractFeature

  /** What the pipeline tells the outside world: the `OnPreviewCallback` methods,
      the error callback, and the recognition callback's two hooks. */
  datatype Event =
    | PresenceSignal(signal: Presence.Signal)
    | NotInTheArea
    | DetectionFace(mask: Mask)
    | PreviewFaceInfo(previews: seq<Preview>)
    | Error(kind: ErrorKind, code: EngineCode)
    | GotFeature(faceId: int, feature: Feature)
    | Recognized(faceId: int, index: nat, similar: real)

  function Ids(fs: seq<Face>): (r: seq<int>)
    ensures |r| == |fs| && forall i :: 0 <= i < |fs| ==> r[i] == fs[i].faceId
  {
    if |fs| == 0 then [] else [fs[0].faceId] + Ids(fs[1..])
  }

  /** `rect.width() * rect.height()` in Kotlin `Int` arithmetic. */
  function Area(f: Face): int {
    WrapInt32(f.width * f.height)
  }

  /** `fs[i]` is the face `keepMaxFace` keeps: its area is maximal and every
      earlier face's area is strictly smaller (the loop replaces only on `>`). */
  ghost predicate IsLargestFirst(fs: seq<Face>, i: int) {
    && 0 <= i < |fs|
    && (forall j :: 0 <= j < |fs| ==> Area(fs[j]) <= Area(fs[i]))
    && (forall j :: 0 <= j < i ==> Area(fs[j]) < Area(fs[i]))
  }

  ghost predicate MaxInv(fs: seq<Face>, k: nat, m: nat) {
    && k <= |fs| && m < |fs|
    && (if k == 0 then m == 0 else m < k)
    && (forall j :: 0 <= j < k ==> Area(fs[j]) <= Area(fs[m]))
    && (forall j :: 0 <= j < m ==> Area(fs[j]) < Area(fs[m]))
  }

  /** The loop of `keepMaxFace` from position `k`, `m` being the current maximum. */
  function MaxFrom(fs: seq<Face>, k: nat, m: nat): (r: nat)
    requires k <= |fs| && m < |fs|
    decreases |fs| - k
  {
    if k == |fs| then m
    else if Area(fs[k]) > Area(fs[m]) then MaxFrom(fs, k + 1, k)
    else MaxFrom(fs, k + 1, m)
  }

  lemma {:induction false} MaxFromKeepsInv(fs: seq<Face>, k: nat, m: nat)
    requires MaxInv(fs, k, m)
    ensures IsLargestFirst(fs, MaxFrom(fs, k, m))
    decreases |fs| - k
  {
    if k < |fs| {
      if Area(fs[k]) > Area(fs[m]) {
        MaxFromKeepsInv(fs, k + 1, k);
      } else {
        MaxFromKeepsInv(fs, k + 1, m);
      }
    }
  }

  /** `keepMaxFace(list)`: lists of at most one face are left alone; otherwise the
      list becomes the single largest face, the earliest one on ties. */
  function KeepMaxFace(fs: seq<Face>): (r: seq<Face>)
    ensures |fs| <= 1 ==> r == fs
    ensures |fs| > 1 ==> exists i :: IsLargestFirst(fs, i) && r == [fs[i]]
  {
    if |fs| <= 1 then fs
    else
      MaxFromKeepsInv(fs, 0, 0);
      [fs[MaxFrom(fs, 0, 0)]]
  }

  /** Only one face can be "largest, earliest on ties". */
  lemma LargestFirstIsUnique(fs: seq<Face>, i: int, j: int)
    requires IsLargestFirst(fs, i) && IsLargestFirst(fs, j)
    ensures i == j
  {
    var ai, aj := Area(fs[i]), Area(fs[j]);
    assert i < j ==> ai < aj;
    assert j < i ==> aj < ai;
  }

  /** `judgeFaceSize`: both raw sides must reach the configured limit. */
  predicate JudgeFaceSize(f: Face, limit: int) {
    f.width >= limit && f.height >= limit
  }

  /** What the stability buffer remembers of a preview. */
  datatype Candidate = Candidate(faceId: int, mask: Mask)

  /** One candidate through `tempDetection`: the buffer restarts on a changed mask,
      is emptied (the candidate dropped) on a different face, and fires
      `detectionFace` and empties when it reaches five entries. */
  function BufferStep(buf: seq<Candidate>, c: Candidate): (r: (seq<Candidate>, bool))
    ensures r.1 <==> |buf| >= 4 && buf[|buf| - 1] == c
    ensures r.1 ==> r.0 == []
    ensures |buf| > 0 && buf[|buf| - 1].faceId != c.faceId ==> r.0 == []
    ensures |buf| == 0 || (buf[|buf| - 1].faceId == c.faceId && buf[|buf| - 1].mask != c.mask) ==> r.0 == [c]
    ensures |buf| > 0 && buf[|buf| - 1] == c && !r.1 ==> r.0 == buf + [c]
  {
    var next :=
      if |buf| == 0 then [c]
      else
        var last := buf[|buf| - 1];
        if last.faceId == c.faceId then (if last.mask != c.mask then [c] else buf + [c])
        else [];
    if |next| >= 5 then ([], true) else (next, false)
  }

  /** Every entry of the buffer is the same candidate. */
  ghost predicate Uniform(buf: seq<Candidate>) {
    forall i :: 0 <= i < |buf| ==> buf[i] == buf[0]
  }

  /** The buffer never holds more than four entries, all equal. */
  lemma BufferStepBounded(buf: seq<Candidate>, c: Candidate)
    requires |buf| <= 4 && Uniform(buf)
    ensures |BufferStep(buf, c).0| <= 4 && Uniform(BufferStep(buf, c).0)
  {
  }

  function BufferRun(buf: seq<Candidate>, cs: seq<Candidate>): (r: (seq<Candidate>, nat))
    decreases |cs|
  {
    if |cs| == 0 then (buf, 0)
    else
      var (b1, fired) := BufferStep(buf, cs[0]);
      var (b2, n) := BufferRun(b1, cs[1..]);
      (b2, n + if fired then 1 else 0)
  }

  function Repeat(c: Candidate, n: nat): (r: seq<Candidate>)
    ensures |r| == n && forall i :: 0 <= i < n ==> r[i] == c
  {
    if n == 0 then [] else [c] + Repeat(c, n - 1)
  }

  /** One more copy of the buffered candidate: the buffer grows, or fires at five. */
  lemma StepRepeat(c: Candidate, k: nat)
    requires k < 5
    ensures BufferStep(Repeat(c, k), c) == if k == 4 then ([], true) else (Repeat(c, k + 1), false)
  {
    if k > 0 {
      assert Repeat(c, k) + [c] == Repeat(c, k + 1);
    } else {
      assert Repeat(c, 1) == [c];
    }
  }

  /** The same candidate `n` times, starting from `k < 5` copies already buffered,
      fires `(k + n) / 5` times and leaves `(k + n) % 5` copies; from an empty
      buffer that is one `detectionFace` per five frames. */
  lemma {:induction false} RepeatedCandidate(c: Candidate, k: nat, n: nat)
    requires k < 5
    ensures BufferRun(Repeat(c, k), Repeat(c, n)) == (Repeat(c, (k + n) % 5), (k + n) / 5)
    decreases n
  {
    if n > 0 {
      var cs := Repeat(c, n);
      assert cs[0] == c && cs[1..] == Repeat(c, n - 1);
      StepRepeat(c, k);
      var k1 := if k == 4 then 0 else k + 1;
      RepeatedCandidate(c, k1, n - 1);
      assert (k1 + (n - 1)) % 5 == (k + n) % 5;
      assert (k1 + (n - 1)) / 5 + (if k == 4 then 1 else 0) == (k + n) / 5;
    }
  }

  /** Two different faces taking turns never fire: each change of face empties the buffer. */
  lemma {:induction false} AlternatingFacesNeverFire(a: Candidate, b: Candidate, n: nat)
    requires a.faceId != b.faceId
    ensures BufferRun([a], Alternate(b, a, n)).1 == 0
    decreases n
  {
    if n > 0 {
      var cs := Alternate(b, a, n);
      assert cs[0] == b && cs[1..] == Alternate(a, b, n - 1);
      assert BufferStep([a], b) == ([], false);
      assert BufferStep([], a) == ([a], false);
      if n == 1 {
        assert BufferRun([], cs[1..]) == ([], 0);
      } else {
        var rest := Alternate(a, b, n - 1);
        assert rest[0] == a && rest[1..] == Alternate(b, a, n - 2);
        AlternatingFacesNeverFire(a, b, n - 2);
      }
    }
  }

  /** `x, y, x, y, ...` of length `n`. */
  function Alternate(x: Candidate, y: Candidate, n: nat): (r: seq<Candidate>)
    ensures |r| == n
    decreases n
  {
    if n == 0 then [] else [x] + Alternate(y, x, n - 1)
  }

  /** The previews that reach the buffer: large enough and inside the area. */
  function Eligible(ps: seq<Preview>, limit: int): (r: seq<Candidate>)
    ensures |r| <= |ps|
  {
    if |ps| == 0 then []
    else if JudgeFaceSize(ps[0].face, limit) && ps[0].face.areaValid
    then [Candidate(ps[0].face.faceId, ps[0].mask)] + Eligible(ps[1..], limit)
    else Eligible(ps[1..], limit)
  }

  /** How many previews pass the size test but lie outside the area. */
  function OutsideCount(ps: seq<Preview>, limit: int): nat {
    if |ps| == 0 then 0
    else
      var here := if JudgeFaceSize(ps[0].face, limit) && !ps[0].face.areaValid then 1 else 0;
      here + OutsideCount(ps[1..], limit)
  }

  /** The buffer loop of `onPreviewFrame` over this frame's previews. Small faces
      are skipped silently, faces outside the area report `notInTheArea()`, and a
      full buffer reports `detectionFace` with the mask of the frame's first preview. */
  function BufferPass(buf: seq<Candidate>, ps: seq<Preview>, limit: int, firstMask: Mask): (r: (seq<Candidate>, seq<Event>))
    ensures forall e :: e in r.1 ==> e == NotInTheArea || e == DetectionFace(firstMask)
    decreases |ps|
  {
    if |ps| == 0 then (buf, [])
    else
      var p := ps[0];
      if !JudgeFaceSize(p.face, limit) then BufferPass(buf, ps[1..], limit, firstMask)
      else if !p.face.areaValid then
        var (b, es) := BufferPass(buf, ps[1..], limit, firstMask);
        (b, [NotInTheArea] + es)
      else
        var (b1, fired) := BufferStep(buf, Candidate(p.face.faceId, p.mask));
        var (b2, es) := BufferPass(b1, ps[1..], limit, firstMask);
        (b2, (if fired then [DetectionFace(firstMask)] else []) + es)
  }

  function CountOf(es: seq<Event>, e: Event): nat {
    if |es| == 0 then 0 else (if es[0] == e then 1 else 0) + CountOf(es[1..], e)
  }

  lemma {:induction false} CountOfAppend(a: seq<Event>, b: seq<Event>, e: Event)
    ensures CountOf(a + b, e) == CountOf(a, e) + CountOf(b, e)
    decreases |a|
  {
    if |a| == 0 {
      assert a + b == b;
    } else {
      assert (a + b)[1..] == a[1..] + b;
      CountOfAppend(a[1..], b, e);
    }
  }

  /** The buffer loop is the buffer run over the eligible candidates only: gated
      previews never touch the buffer. It reports one `notInTheArea()` per
      large-enough face outside the area and one `detectionFace` per fill. */
  lemma {:induction false} BufferPassIsRunOverEligible(buf: seq<Candidate>, ps: seq<Preview>, limit: int, m: Mask)
    ensures BufferPass(buf, ps, limit, m).0 == BufferRun(buf, Eligible(ps, limit)).0
    ensures CountOf(BufferPass(buf, ps, limit, m).1, DetectionFace(m)) == BufferRun(buf, Eligible(ps, limit)).1
    ensures CountOf(BufferPass(buf, ps, limit, m).1, NotInTheArea) == OutsideCount(ps, limit)
    decreases |ps|
  {
    if |ps| > 0 {
      var p := ps[0];
      var el := Eligible(ps, limit);
      if !JudgeFaceSize(p.face, limit) {
        BufferPassIsRunOverEligible(buf, ps[1..], limit, m);
      } else if !p.face.areaValid {
        BufferPassIsRunOverEligible(buf, ps[1..], limit, m);
        var es := BufferPass(buf, ps[1..], limit, m).1;
        CountOfAppend([NotInTheArea], es, DetectionFace(m));
        CountOfAppend([NotInTheArea], es, NotInTheArea);
      } else {
        var c := Candidate(p.face.faceId, p.mask);
        var (b1, fired) := BufferStep(buf, c);
        BufferPassIsRunOverEligible(b1, ps[1..], limit, m);
        assert el[0] == c && el[1..] == Eligible(ps[1..], limit);
        var head: seq<Event> := if fired then [DetectionFace(m)] else [];
        var es := BufferPass(b1, ps[1..], limit, m).1;
        CountOfAppend(head, es, DetectionFace(m));
        CountOfAppend(head, es, NotInTheArea);
      }
    }
  }

  /** The buffer loop keeps the buffer at most four copies of one candidate. */
  lemma {:induction false} BufferPassBounded(buf: seq<Candidate>, ps: seq<Preview>, limit: int, m: Mask)
    requires |buf| <= 4 && Uniform(buf)
    ensures |BufferPass(buf, ps, limit, m).0| <= 4 && Uniform(BufferPass(buf, ps, limit, m).0)
    decreases |ps|
  {
    if |ps| > 0 {
      var p := ps[0];
      if !JudgeFaceSize(p.face, limit) || !p.face.areaValid {
        BufferPassBounded(buf, ps[1..], limit, m);
      } else {
        var c := Candidate(p.face.faceId, p.mask);
        BufferStepBounded(buf, c);
        BufferPassBounded(BufferStep(buf, c).0, ps[1..], limit, m);
      }
    }
  }
}

=== FILE: face_helper.dfy ===
/** `FaceHelper`: the per-frame face pipeline. Each camera frame is detected,
    reported (presence, count, area, stability), trimmed to the largest face, and
    used to drop the registry entries of faces that left. Liveness and feature
    work runs on two thread pools whose results come back to guarded handlers.

    The threads, locks, `wait`/`notifyAll` and `postDelayed` are modelled as
    discrete steps: a completed liveness task, a completed feature task, a
    delayed reset firing, a woken or interrupted waiting feature task. Engine
    results arrive as the inputs of those steps. */
module FaceHelper {
  import opened Common
  import opened Engine
  import opened Registry
  import opened FaceFrame
  import Presence
  import FaceServer
  import C = FaceConfiguration

  /** A reset posted with `mHandler.postDelayed`: `retryLivenessDetectDelayed`
      or `retryRecognizeDelayed`. */
  datatype Reset = LivenessReset(faceId: int) | RecognizeReset(faceId: int)

  /** The arguments of one `onFaceFeatureInfoGet` call; a call that waits is
      repeated with the same arguments. */
  datatype FeatureCall = FeatureCall(faceId: int, feature: Option<Feature>, code: EngineCode, mask: Mask, imageQuality: bool)

  /** A feature task blocked in `lock.wait()`; `woken` once that face's monitor
      has been notified. */
  datatype Waiter = Waiter(call: FeatureCall, woken: bool)

  /** A submitted task, queued or running, with the face id and preview mask it was given. */
  datatype Job = Job(faceId: int, mask: Mask)

  /** The helper's fields that outlive a call. `faces` and `previews` are
      `faceInfoList` and `facePreviewInfo` as the last frame left them;
      `shutdown` is set once `destroy` has shut both pools down. */
  datatype State = State(
    registry: Registry,
    buffer: seq<Candidate>,
    tracker: Presence.Tracker,
    paused: bool,
    faces: seq<Face>,
    previews: seq<Preview>,
    pending: seq<Reset>,
    livenessJobs: seq<Job>,
    featureJobs: seq<Job>,
    waiters: seq<Waiter>,
    shutdown: bool)

  /** A new helper. Both task queues are `LinkedBlockingQueue(detectFaceMaxNum)`,
      whose constructor rejects a capacity below 1, so no helper exists then. */
  function Init(cfg: C.Config): (r: Option<State>)
    ensures r.Some? <==> cfg.detectFaceMaxNum >= 1
    ensures r.Some? ==> r.value.registry == map[] && r.value.buffer == [] && r.value.tracker == Presence.Initial
    ensures r.Some? ==> !r.value.paused && r.value.pending == [] && r.value.waiters == [] && !r.value.shutdown
  {
    if cfg.detectFaceMaxNum < 1 then None
    else Some(State(map[], [], Presence.Initial, false, [], [], [], [], [], [], false))
  }

  /** The orientation each engine is initialised with: the VIDEO-mode detection
      engine takes the configured one, the IMAGE-mode extraction and liveness
      engines (and `FaceServer`) replace ASF_OP_ALL_OUT by ASF_OP_0_ONLY. The
      extraction engine exists only with recognition on, the liveness engine only
      with a liveness type. */
  datatype EnginePlan = EnginePlan(detect: Orient, extract: Option<Orient>, liveness: Option<Orient>, server: Orient)

  function Engines(cfg: C.Config): (r: EnginePlan)
    ensures r.detect == cfg.detectFaceOrient
    ensures r.extract.Some? <==> cfg.enableRecognize
    ensures r.liveness.Some? <==> !cfg.livenessType.LivenessNone?
    ensures r.extract.Some? ==> r.extract.value != OpAllOut
    ensures r.liveness.Some? ==> r.liveness.value != OpAllOut
    ensures r.server != OpAllOut
  {
    var image := FaceServer.InitOrient(cfg.detectFaceOrient);
    EnginePlan(
      cfg.detectFaceOrient,
      if cfg.enableRecognize then Some(image) else None,
      if cfg.livenessType.LivenessNone? then None else Some(image),
      image)
  }

  /** `remainingCapacity()` of a pool's queue. The pool has `n` core threads and
      never lets them die, so with `inFlight` tasks queued or running the queue
      holds `max(0, inFlight - n)` of them. */
  function RemainingCapacity(n: int, inFlight: nat): int {
    n - (if inFlight > n then inFlight - n else 0)
  }

  /** The overrun test `remainingCapacity() <= 0`: reached once `2n` tasks are in flight. */
  lemma OverrunAtTwiceThePool(n: int, inFlight: nat)
    requires n >= 1
    ensures RemainingCapacity(n, inFlight) <= 0 <==> inFlight >= 2 * n
  {
  }

  /** `onError`: delivered only when an error callback was configured. */
  function Report(cfg: C.Config, kind: ErrorKind, code: EngineCode): (r: seq<Event>)
    ensures |r| <= 1
    ensures r != [] <==> cfg.hasErrorCallback
    ensures forall e :: e in r ==> e == Error(kind, code)
  {
    if cfg.hasErrorCallback then [Error(kind, code)] else []
  }

  /** `notifyAll` on the monitors of `ids`: every waiter on one of them is woken. */
  function Notify(ws: seq<Waiter>, ids: set<int>): (r: seq<Waiter>)
    ensures |r| == |ws|
    ensures forall i :: 0 <= i < |ws| ==>
      r[i].call == ws[i].call && r[i].woken == (ws[i].woken || ws[i].call.faceId in ids)
  {
    if |ws| == 0 then []
    else [ws[0].(woken := ws[0].woken || ws[0].call.faceId in ids)] + Notify(ws[1..], ids)
  }

  function Signals(sigs: seq<Presence.Signal>): (r: seq<Event>)
    ensures |r| == |sigs| && forall i :: 0 <= i < |sigs| ==> r[i] == PresenceSignal(sigs[i])
  {
    if |sigs| == 0 then [] else [PresenceSignal(sigs[0])] + Signals(sigs[1..])
  }

  /** What the detection engine returns for one frame: the detection code and
      faces, and the codes and list of the mask calls (used only when masks are on). */
  datatype Frame = Frame(detect: EngineCode, faces: seq<Face>, maskProcess: EngineCode, maskGet: EngineCode, masks: seq<Mask>)

  /** The mask stage of `onPreviewFrame`, as written: a failing `getMask` is
      reported with the code of the preceding `process` call, which is MOK there. */
  function MaskStageAsWritten(cfg: C.Config, kept: seq<Face>, fr: Frame): (r: (seq<Mask>, seq<Event>))
    ensures forall e :: e in r.1 ==> e.Error? && e.kind == DetectMask
    ensures r.0 != [] ==> |kept| > 0 && cfg.enableMask && fr.maskProcess.Mok? && r.0 == fr.masks
    ensures r.1 != [] <==> |kept| > 0 && cfg.enableMask && cfg.hasErrorCallback && (fr.maskProcess.Fail? || fr.maskGet.Fail?)
  {
    if |kept| == 0 || !cfg.enableMask then ([], [])
    else if fr.maskProcess.Fail? then ([], Report(cfg, DetectMask, fr.maskProcess))
    else (fr.masks, if fr.maskGet.Fail? then Report(cfg, DetectMask, fr.maskProcess) else [])
  }

  /** A failing `getMask` is reported as a DETECT_MASK error whose code is MOK. */
  lemma MaskErrorReportsMok(cfg: C.Config, kept: seq<Face>, fr: Frame)
    requires |kept| > 0 && cfg.enableMask && cfg.hasErrorCallback
    requires fr.maskProcess.Mok? && fr.maskGet.Fail?
    ensures MaskStageAsWritten(cfg, kept, fr).1 == [Error(DetectMask, Mok)]
  {
  }

  /** The mask stage with the failing call's own code reported: masks are asked
      for only when masks are on and there is a face; they are kept only after a
      successful `process`. */
  function MaskStage(cfg: C.Config, kept: seq<Face>, fr: Frame): (r: (seq<Mask>, seq<Event>))
    ensures forall e :: e in r.1 ==> e.Error? && e.kind == DetectMask && e.code.Fail?
    ensures r.0 != [] ==> |kept| > 0 && cfg.enableMask && fr.maskProcess.Mok? && r.0 == fr.masks
    ensures r.1 != [] <==> |kept| > 0 && cfg.enableMask && cfg.hasErrorCallback && (fr.maskProcess.Fail? || fr.maskGet.Fail?)
  {
    if |kept| == 0 || !cfg.enableMask then ([], [])
    else if fr.maskProcess.Fail? then ([], Report(cfg, DetectMask, fr.maskProcess))
    else (fr.masks, if fr.maskGet.Fail? then Report(cfg, DetectMask, fr.maskGet) else [])
  }

  /** The two mask stages keep the same masks and report in the same cases; they
      differ only in the code of the error for a failing `getMask`, which the
      program as written reports as MOK. */
  lemma MaskStagesAgree(cfg: C.Config, kept: seq<Face>, fr: Frame)
    ensures MaskStageAsWritten(cfg, kept, fr).0 == MaskStage(cfg, kept, fr).0
    ensures MaskStageAsWritten(cfg, kept, fr) == MaskStage(cfg, kept, fr) <==>
      !(|kept| > 0 && cfg.enableMask && cfg.hasErrorCallback && fr.maskProcess.Mok? && fr.maskGet.Fail?)
  {
  }

  /** The previews of the kept faces: the i-th mask is attached only when masks
      are on and there is exactly one mask per face. */
  function Previews(kept: seq<Face>, masks: seq<Mask>, enableMask: bool): (r: seq<Preview>)
    ensures |r| == |kept|
    ensures forall i :: 0 <= i < |kept| ==>
      && r[i].face == kept[i]
      && r[i].mask == if enableMask && |masks| > 0 && |masks| == |kept| then masks[i] else MaskUnknown
  {
    seq(|kept|, i requires 0 <= i < |kept| =>
      Preview(kept[i], if enableMask && |masks| > 0 && |masks| == |kept| then masks[i] else MaskUnknown))
  }

  /** `onPreviewFrame`. A paused helper only clears the frame lists. A failed
      detection reports DETECT_FACES and stops. Otherwise: presence and count are
      reported for the whole detected list, the list is trimmed by `keepMaxFace`,
      masks are attached, the stability buffer runs, the entries of faces no longer
      in the (trimmed) list are removed and their monitors notified, and the
      previews are handed to `onPreviewFaceInfo`. (`doRecognize` is not called.) */
  function OnPreviewFrame(s: State, cfg: C.Config, fr: Frame): (r: (State, seq<Event>))
    ensures r.0.registry.Keys <= s.registry.Keys
    ensures forall k :: k in r.0.registry ==> r.0.registry[k] == s.registry[k]
    ensures r.0.pending == s.pending && r.0.livenessJobs == s.livenessJobs && r.0.featureJobs == s.featureJobs
    ensures r.0.paused == s.paused && r.0.shutdown == s.shutdown && |r.0.waiters| == |s.waiters|
  {
    var cleared := s.(faces := [], previews := []);
    if s.paused then (cleared, [])
    else if fr.detect.Fail? then (cleared, Report(cfg, DetectFaces, fr.detect))
    else
      var (tracker, sigs) := Presence.Anybody(s.tracker, Ids(fr.faces));
      var kept := if cfg.recognizeKeepMaxFace then KeepMaxFace(fr.faces) else fr.faces;
      var (masks, maskErrors) := MaskStage(cfg, kept, fr);
      var previews := Previews(kept, masks, cfg.enableMask);
      var firstMask := if |previews| > 0 then previews[0].mask else MaskUnknown;
      var (buf, bufferEvents) := BufferPass(s.buffer, previews, cfg.faceSizeLimit, firstMask);
      var (reg, removed) := ClearLeftFace(s.registry, Ids(kept));
      var next := s.(registry := reg, buffer := buf, tracker := tracker, faces := kept,
                     previews := previews, waiters := Notify(s.waiters, removed));
      (next, Signals(sigs) + maskErrors + bufferEvents + [PreviewFaceInfo(previews)])
  }

  /** A paused frame changes nothing but the two frame lists and reports nothing. */
  lemma PausedFrameIsQuiet(s: State, cfg: C.Config, fr: Frame)
    requires s.paused
    ensures OnPreviewFrame(s, cfg, fr) == (s.(faces := [], previews := []), [])
  {
  }

  /** A failed detection reports DETECT_FACES (if anyone listens) and nothing else:
      no presence event, no buffer or registry change, no preview callback. */
  lemma FailedDetectionOnlyReports(s: State, cfg: C.Config, fr: Frame)
    requires !s.paused && fr.detect.Fail?
    ensures OnPreviewFrame(s, cfg, fr).0 == s.(faces := [], previews := [])
    ensures OnPreviewFrame(s, cfg, fr).1 == Report(cfg, DetectFaces, fr.detect)
    ensures forall e :: e in OnPreviewFrame(s, cfg, fr).1 ==> !e.PresenceSignal? && !e.PreviewFaceInfo?
  {
  }

  /** On a detected frame, presence and count are judged on the full detected
      list, before `keepMaxFace` trims it, and are reported first. */
  lemma DetectedFramePresence(s: State, cfg: C.Config, fr: Frame)
    requires !s.paused && fr.detect.Mok?
    ensures OnPreviewFrame(s, cfg, fr).0.tracker == Presence.Tracker(|fr.faces| > 0, |fr.faces|)
    ensures var sigs := Presence.Anybody(s.tracker, Ids(fr.faces)).1;
      OnPreviewFrame(s, cfg, fr).1[..|sigs|] == Signals(sigs)
  {
  }

  /** On a detected frame, the kept faces are the detected ones, trimmed to one
      when `recognizeKeepMaxFace` is on, and the preview callback comes last. */
  lemma DetectedFrameKeeps(s: State, cfg: C.Config, fr: Frame)
    requires !s.paused && fr.detect.Mok?
    ensures var next := OnPreviewFrame(s, cfg, fr).0;
      && (cfg.recognizeKeepMaxFace && |fr.faces| > 1 ==> |next.faces| == 1)
      && (!cfg.recognizeKeepMaxFace ==> next.faces == fr.faces)
      && (forall f :: f in next.faces ==> f in fr.faces)
      && |next.previews| == |next.faces|
      && (forall i :: 0 <= i < |next.previews| ==> next.previews[i].face == next.faces[i])
    ensures var r := OnPreviewFrame(s, cfg, fr);
      r.1[|r.1| - 1] == PreviewFaceInfo(r.0.previews)
  {
  }

  /** On a detected frame, exactly the entries of kept faces survive, unchanged. */
  lemma DetectedFrameClears(s: State, cfg: C.Config, fr: Frame)
    requires !s.paused && fr.detect.Mok?
    ensures var next := OnPreviewFrame(s, cfg, fr).0;
      && next.registry.Keys == s.registry.Keys * (set f | f in next.faces :: f.faceId)
      && (forall k :: k in next.registry ==> next.registry[k] == s.registry[k])
  {
    var next := OnPreviewFrame(s, cfg, fr).0;
    var kept := next.faces;
    assert kept == (if cfg.recognizeKeepMaxFace then KeepMaxFace(fr.faces) else fr.faces);
    assert next.registry == ClearLeftFace(s.registry, Ids(kept)).0;
    assert (set i | i in Ids(kept)) == (set f | f in kept :: f.faceId) by {
      forall i | i in Ids(kept) ensures exists f :: f in kept && f.faceId == i {
        var k :| 0 <= k < |kept| && Ids(kept)[k] == i;
        assert kept[k] in kept;
      }
    }
  }

  /** Sets one entry that is known to be present. */
  function Put(s: State, id: int, e: Entry): (r: State)
    requires id in s.registry
    ensures r.registry.Keys == s.registry.Keys
    ensures r.registry[id] == e
    ensures forall k :: k in s.registry && k != id ==> r.registry[k] == s.registry[k]
    ensures r == s.(registry := r.registry)
  {
    s.(registry := s.registry[id := e])
  }

  /** `retryLivenessDetectDelayed(faceId)`: posts the liveness reset. */
  function RetryLivenessDetectDelayed(s: State, id: int): (r: State)
    ensures r.registry == s.registry && r.waiters == s.waiters
    ensures |r.pending| == |s.pending| + 1 && r.pending[..|s.pending|] == s.pending
    ensures r.pending[|s.pending|] == LivenessReset(id)
  {
    s.(pending := s.pending + [LivenessReset(id)])
  }

  /** `retryRecognizeDelayed(faceId)`: marks a present face FAILED now and posts
      the reset that puts it back to TO_RETRY. */
  function RetryRecognizeDelayed(s: State, id: int): (r: State)
    ensures r.registry.Keys == s.registry.Keys
    ensures r.pending == s.pending + [RecognizeReset(id)]
    ensures id in s.registry ==> r.registry == s.registry[id := s.registry[id].(status := Failed)]
    ensures id !in s.registry ==> r.registry == s.registry
    ensures r == s.(registry := r.registry, pending := r.pending)
  {
    s.(registry := ApplyChange(s.registry, SetStatus(id, Failed)), pending := s.pending + [RecognizeReset(id)])
  }

  /** `onFaceLivenessInfoGet(result, faceId, errorCode)`. A face that left is
      ignored. A report is stored as the liveness: ALIVE wakes the face's waiting
      feature task, NOT_ALIVE schedules a reset to UNKNOWN, any other value only
      sets the message. A missing report counts a liveness error: past the budget
      the counter restarts, liveness becomes FAILED, waiters are woken and a reset
      is scheduled; within it liveness goes back to UNKNOWN. */
  function OnLiveness(s: State, cfg: C.Config, id: int, result: Option<EngineLiveness>, code: EngineCode): (r: State)
    ensures r.registry.Keys == s.registry.Keys
    ensures id !in s.registry ==> r == s
    ensures r == s.(registry := r.registry, waiters := r.waiters, pending := r.pending)
    ensures forall k :: k in s.registry && k != id ==> r.registry[k] == s.registry[k]
    ensures id in s.registry ==> |r.pending| <= |s.pending| + 1
  {
    if id !in s.registry then s
    else
      var e := s.registry[id];
      match result
      case Some(l) =>
        var e1 := e.(liveness := FromEngine(l));
        if l.EAlive? then Put(s, id, e1).(waiters := Notify(s.waiters, {id}))
        else if l.ENotAlive? then RetryLivenessDetectDelayed(Put(s, id, e1.(msg := Some(NotAliveMsg))), id)
        else Put(s, id, e1.(msg := Some(LivenessFailedMsg(l))))
      case None =>
        var count := e.livenessRetries + 1;
        var e1 := e.(msg := Some(ProcessFailedMsg(code, id)), livenessRetries := count);
        if count > cfg.livenessErrorRetryCount then
          var failed := Put(s, id, e1.(livenessRetries := 0, liveness := LivenessFailed));
          RetryLivenessDetectDelayed(failed.(waiters := Notify(s.waiters, {id})), id)
        else Put(s, id, e1.(liveness := Unknown))
  }

  /** A liveness report sets the liveness to the reported value and leaves the
      status and both counters alone; only ALIVE wakes the face's waiters. */
  lemma LivenessReportStored(s: State, cfg: C.Config, id: int, l: EngineLiveness, code: EngineCode)
    requires id in s.registry
    ensures var r := OnLiveness(s, cfg, id, Some(l), code);
      && r.registry[id].liveness == FromEngine(l)
      && r.registry[id].status == s.registry[id].status
      && r.registry[id].livenessRetries == s.registry[id].livenessRetries
      && r.registry[id].extractRetries == s.registry[id].extractRetries
      && (l.EAlive? ==> forall i :: 0 <= i < |r.waiters| && r.waiters[i].call.faceId == id ==> r.waiters[i].woken)
      && (!l.EAlive? ==> r.waiters == s.waiters)
      && (l.ENotAlive? <==> r.pending == s.pending + [LivenessReset(id)])
  {
  }

  /** `n` liveness results in a row that carry no report. */
  function LivenessFailures(s: State, cfg: C.Config, id: int, code: EngineCode, n: nat): State
    decreases n
  {
    if n == 0 then s else LivenessFailures(OnLiveness(s, cfg, id, None, code), cfg, id, code, n - 1)
  }

  /** Within the budget, each missing report counts one more error and puts
      liveness back to UNKNOWN. */
  lemma {:induction false} LivenessFailuresCount(s: State, cfg: C.Config, id: int, code: EngineCode, n: nat)
    requires id in s.registry && n >= 1
    requires s.registry[id].livenessRetries + n <= cfg.livenessErrorRetryCount
    ensures id in LivenessFailures(s, cfg, id, code, n).registry
    ensures var e := LivenessFailures(s, cfg, id, code, n).registry[id];
      e.liveness == Unknown && e.livenessRetries == s.registry[id].livenessRetries + n
    decreases n
  {
    var s1 := OnLiveness(s, cfg, id, None, code);
    if n > 1 {
      LivenessFailuresCount(s1, cfg, id, code, n - 1);
    }
  }

  /** Starting from a clean counter, liveness turns FAILED exactly at the
      (`livenessErrorRetryCount` + 1)-th missing report, and the counter restarts. */
  lemma LivenessFailsPastBudget(s: State, cfg: C.Config, id: int, code: EngineCode)
    requires id in s.registry && s.registry[id].livenessRetries == 0
    requires cfg.livenessErrorRetryCount >= 0
    ensures var r := LivenessFailures(s, cfg, id, code, cfg.livenessErrorRetryCount + 1);
      id in r.registry && r.registry[id].liveness == LivenessFailed && r.registry[id].livenessRetries == 0
  {
    var b := cfg.livenessErrorRetryCount;
    if b == 0 {
      assert LivenessFailures(s, cfg, id, code, 1) == LivenessFailures(OnLiveness(s, cfg, id, None, code), cfg, id, code, 0);
    } else {
      LivenessFailuresCount(s, cfg, id, code, b);
      LivenessFailuresLast(s, cfg, id, code, b);
    }
  }

  /** Splitting off the last of `n + 1` missing reports. */
  lemma {:induction false} LivenessFailuresLast(s: State, cfg: C.Config, id: int, code: EngineCode, n: nat)
    ensures LivenessFailures(s, cfg, id, code, n + 1)
         == OnLiveness(LivenessFailures(s, cfg, id, code, n), cfg, id, None, code)
    decreases n
  {
    if n > 0 {
      LivenessFailuresLast(OnLiveness(s, cfg, id, None, code), cfg, id, code, n - 1);
    }
  }

  /** What `searchFace` needs from the outside: the engine's comparison with each
      stored feature of `faceFeatureList()`, the callback's `similarThreshold()`,
      and the message its `onRecognized` returns. */
  datatype SearchInput = SearchInput(replies: seq<Similarity>, threshold: real, recognizedMsg: Option<string>)

  /** `searchFace`, for a face known to be present. Without a recognition
      callback, or when no stored feature matches at all, the face fails for good
      (no retry). With comparison off, the feature is handed to the callback and
      the face succeeds. Otherwise the best match succeeds at or above the
      threshold, and below it the face fails and is retried after the interval. */
  function SearchFace(s: State, cfg: C.Config, id: int, f: Feature, input: SearchInput): (r: (State, seq<Event>))
    requires id in s.registry
    ensures r.0.registry.Keys == s.registry.Keys
    ensures forall k :: k in s.registry && k != id ==> r.0.registry[k] == s.registry[k]
    ensures r.0 == s.(registry := r.0.registry, pending := r.0.pending)
    ensures var st := r.0.registry[id].status;
      && (!cfg.hasRecognizeCallback ==> st == Failed && r.0.pending == s.pending && r.1 == [])
      && (cfg.hasRecognizeCallback && !cfg.enableCompareFace ==> st == Succeed && r.1 == [GotFeature(id, f)])
      && (cfg.hasRecognizeCallback && cfg.enableCompareFace ==>
            var m := FaceServer.CompareMany(input.replies);
            && (m.None? ==> st == Failed && r.0.pending == s.pending && r.1 == [])
            && (m.Some? && m.value.similar >= input.threshold ==>
                  st == Succeed && r.1 == [Recognized(id, m.value.index, m.value.similar)])
            && (m.Some? && m.value.similar < input.threshold ==>
                  st == Failed && r.0.pending == s.pending + [RecognizeReset(id)] && r.1 == []))
    ensures r.0.registry[id].status == Succeed || r.0.registry[id].status == Failed
    ensures r.0.registry[id] == s.registry[id].(status := r.0.registry[id].status, msg := r.0.registry[id].msg)
  {
    var e := s.registry[id];
    if !cfg.hasRecognizeCallback then
      (Put(s, id, e.(status := Failed, msg := Some(VisitorMsg(id)))), [])
    else if !cfg.enableCompareFace then
      (Put(s, id, e.(status := Succeed, msg := Some(VisitorMsg(id)))), [GotFeature(id, f)])
    else
      match FaceServer.CompareMany(input.replies)
      case None => (Put(s, id, e.(status := Failed, msg := Some(VisitorMsg(id)))), [])
      case Some(m) =>
        if m.similar >= input.threshold then
          var msg := if input.recognizedMsg.Some? then Some(CustomMsg(input.recognizedMsg.value)) else None;
          (Put(s, id, e.(status := Succeed, msg := msg)), [Recognized(id, m.index, m.similar)])
        else
          (Put(RetryRecognizeDelayed(s, id), id, e.(status := Failed, msg := Some(NotPassMsg))), [])
  }

  /** `onFaceFeatureInfoGet`. A face that left is ignored. A missing feature sets
      an error message and counts an extraction error: past the budget the counter
      restarts and the face fails with a delayed retry, within it the face goes back
      to TO_RETRY. A feature is searched when no liveness is required or the face is
      ALIVE (the mask is recorded first); a face whose liveness FAILED fails without
      retry; otherwise the call blocks on the face's monitor until notified, except
      after `destroy`: its pool interrupted the thread, so `wait` throws at once and
      the call ends. */
  function OnFeature(s: State, cfg: C.Config, call: FeatureCall, input: SearchInput): (r: (State, seq<Event>))
    ensures r.0.registry.Keys == s.registry.Keys
    ensures call.faceId !in s.registry ==> r == (s, [])
    ensures forall k :: k in s.registry && k != call.faceId ==> r.0.registry[k] == s.registry[k]
    ensures r.0 == s.(registry := r.0.registry, pending := r.0.pending, waiters := r.0.waiters)
  {
    var id := call.faceId;
    if id !in s.registry then (s, [])
    else
      var e := s.registry[id];
      match call.feature
      case None =>
        var m :=
          if call.imageQuality then (if call.code.Mok? then ImageQualityTooLowMsg(id) else ImageDetectFailedMsg(call.code, id))
          else ExtractFailedMsg(call.code, id);
        var count := e.extractRetries + 1;
        var e1 := e.(msg := Some(m), extractRetries := count);
        if count > cfg.extractFeatureErrorRetryCount then
          (RetryRecognizeDelayed(Put(s, id, e1.(extractRetries := 0, status := Failed)), id), [])
        else (Put(s, id, e1.(status := ToRetry)), [])
      case Some(f) =>
        if cfg.livenessType.LivenessNone? || e.liveness.Alive? then
          SearchFace(Put(s, id, e.(mask := call.mask)), cfg, id, f, input)
        else if e.liveness.LivenessFailed? then
          (Put(s, id, e.(status := Failed)), [])
        else if s.shutdown then (s, [])
        else (s.(waiters := s.waiters + [Waiter(call, false)]), [])
  }

  /** The branches of `onFaceFeatureInfoGet` for a present face, by outcome. */
  lemma FeatureOutcomes(s: State, cfg: C.Config, call: FeatureCall, input: SearchInput)
    requires call.faceId in s.registry
    ensures var id := call.faceId;
      var e := s.registry[id];
      var r := OnFeature(s, cfg, call, input);
      && (call.feature.None? ==>
            && r.1 == [] && r.0.waiters == s.waiters
            && var over := e.extractRetries + 1 > cfg.extractFeatureErrorRetryCount;
            && r.0.registry[id].status == (if over then Failed else ToRetry)
            && r.0.registry[id].extractRetries == (if over then 0 else e.extractRetries + 1)
            && r.0.pending == (if over then s.pending + [RecognizeReset(id)] else s.pending))
      && (call.feature.Some? && (cfg.livenessType.LivenessNone? || e.liveness.Alive?) ==>
            && r.0.registry[id].mask == call.mask && r.0.waiters == s.waiters
            && (r.0.registry[id].status == Succeed || r.0.registry[id].status == Failed))
      && (call.feature.Some? && !cfg.livenessType.LivenessNone? && e.liveness.LivenessFailed? ==>
            r.0.registry[id] == e.(status := Failed) && r.0.pending == s.pending && r.0.waiters == s.waiters)
      && (call.feature.Some? && !cfg.livenessType.LivenessNone? && !e.liveness.Alive? && !e.liveness.LivenessFailed? ==>
            r == (if s.shutdown then (s, []) else (s.(waiters := s.waiters + [Waiter(call, false)]), [])))
  {
  }

  /** The engine's answers to one liveness task: the `process`/`processIr` code,
      the `getLiveness`/`getIrLiveness` code and the list it filled. */
  datatype LivenessReply = LivenessReply(process: EngineCode, get: EngineCode, list: seq<EngineLiveness>)

  /** The code a liveness task ends with: the getter's when processing succeeded. */
  function LivenessCode(reply: LivenessReply): EngineCode {
    if reply.process.Mok? then reply.get else reply.process
  }

  /** `FaceDetectInfoRunnable.run` for `job`, with the registry lookup at the end
      of its RGB processing left out: the first report is passed on when the task
      ended with MOK and a non-empty list; otherwise no report is passed on and
      DETECT_LIVENESS is reported with the task's code. */
  function LivenessWorker(s: State, cfg: C.Config, job: Job, reply: LivenessReply): (r: (State, seq<Event>))
    ensures r.0.registry.Keys == s.registry.Keys
    ensures var code := LivenessCode(reply);
      if code.Mok? && |reply.list| > 0 then r == (OnLiveness(s, cfg, job.faceId, Some(reply.list[0]), code), [])
      else r == (OnLiveness(s, cfg, job.faceId, None, code), Report(cfg, DetectLiveness, code))
  {
    var code := LivenessCode(reply);
    if code.Mok? && |reply.list| > 0 then (OnLiveness(s, cfg, job.faceId, Some(reply.list[0]), code), [])
    else (OnLiveness(s, cfg, job.faceId, None, code), Report(cfg, DetectLiveness, code))
  }

  /** `FaceDetectInfoRunnable.run` as written: after a successful RGB `process`
      it calls `getRecognizeInfo(faceId)`, which creates an entry for a face that
      has already left, before the handler checks whether the face is still there. */
  function LivenessWorkerAsWritten(s: State, cfg: C.Config, job: Job, reply: LivenessReply): (r: (State, seq<Event>))
    ensures r.0.registry.Keys ==
      s.registry.Keys + (if cfg.livenessType.LivenessRgb? && reply.process.Mok? then {job.faceId} else {})
    ensures r.1 == LivenessWorker(s, cfg, job, reply).1
  {
    var s1 :=
      if cfg.livenessType.LivenessRgb? && reply.process.Mok?
      then s.(registry := GetRecognizeInfo(s.registry, job.faceId).0)
      else s;
    LivenessWorker(s1, cfg, job, reply)
  }

  /** As written, a liveness task that finishes after its face left brings the
      face's entry back and acts on it. */
  lemma LivenessWorkerResurrects(s: State, cfg: C.Config, job: Job)
    requires job.faceId !in s.registry && cfg.livenessType.LivenessRgb?
    ensures var r := LivenessWorkerAsWritten(s, cfg, job, LivenessReply(Mok, Mok, [ENotAlive]));
      && job.faceId in r.0.registry
      && r.0.registry[job.faceId].liveness == NotAlive
      && r.0.pending == s.pending + [LivenessReset(job.faceId)]
  {
  }

  /** While the task's face is still there (or the liveness is IR, or RGB
      processing failed) the lookup finds the entry, and both versions agree. */
  lemma LivenessWorkersAgree(s: State, cfg: C.Config, job: Job, reply: LivenessReply)
    requires job.faceId in s.registry || !cfg.livenessType.LivenessRgb? || reply.process.Fail?
    ensures LivenessWorkerAsWritten(s, cfg, job, reply) == LivenessWorker(s, cfg, job, reply)
  {
  }

  /** Without the lookup, a task whose face left changes nothing but may report an error. */
  lemma LivenessWorkerNoResurrection(s: State, cfg: C.Config, job: Job, reply: LivenessReply)
    requires job.faceId !in s.registry
    ensures LivenessWorker(s, cfg, job, reply).0 == s
  {
  }

  /** The engine's answers to one feature task: the image-quality code and score,
      and the extraction code and feature. */
  datatype FeatureReply = FeatureReply(quality: EngineCode, score: real, extract: EngineCode, feature: Feature)

  /** The quality threshold: the mask one for a WORN mask, the no-mask one otherwise. */
  function QualityThreshold(cfg: C.Config, mask: Mask): (r: real)
    ensures mask == MaskWorn ==> r == cfg.imageQualityMaskRecognizeThreshold
    ensures mask != MaskWorn ==> r == cfg.imageQualityNoMaskRecognizeThreshold
  {
    if mask == MaskWorn then cfg.imageQualityMaskRecognizeThreshold else cfg.imageQualityNoMaskRecognizeThreshold
  }

  /** `ExtractFeatureRunnable.run` for `job`: the call it makes to
      `onFaceFeatureInfoGet` and the errors it reports afterwards. With image
      quality on, a failed quality call or a score below the threshold yields no
      feature (flagged as a quality failure) and no extraction; otherwise the
      extraction decides. */
  function FeatureWorker(cfg: C.Config, job: Job, reply: FeatureReply): (r: (FeatureCall, seq<Event>))
    ensures r.0.faceId == job.faceId && r.0.mask == job.mask
    ensures r.0.feature.Some? <==>
      (cfg.enableImageQuality ==> reply.quality.Mok? && reply.score >= QualityThreshold(cfg, job.mask)) && reply.extract.Mok?
    ensures r.0.feature.Some? ==> r.0.feature.value == reply.feature && r.1 == []
    ensures r.0.imageQuality <==> cfg.enableImageQuality && !(reply.quality.Mok? && reply.score >= QualityThreshold(cfg, job.mask))
    ensures forall e :: e in r.1 ==> e.Error?
  {
    var extracted :=
      if reply.extract.Mok? then (FeatureCall(job.faceId, Some(reply.feature), Mok, job.mask, false), [])
      else (FeatureCall(job.faceId, None, reply.extract, job.mask, false), Report(cfg, ExtractFeature, reply.extract));
    if cfg.enableImageQuality then
      if reply.quality.Mok? then
        if reply.score >= QualityThreshold(cfg, job.mask) then extracted
        else (FeatureCall(job.faceId, None, Mok, job.mask, true), Report(cfg, ImageQuality, Mok))
      else (FeatureCall(job.faceId, None, reply.quality, job.mask, true), Report(cfg, ImageQuality, reply.quality))
    else extracted
  }

  /** `requestFaceDetectInfo`: with the liveness queue full only the message is
      set; otherwise a liveness task is submitted. */
  function RequestLiveness(s: State, cfg: C.Config, id: int, mask: Mask): (r: State)
    requires id in s.registry
    ensures RemainingCapacity(cfg.detectFaceMaxNum, |s.livenessJobs|) <= 0 ==>
      r == Put(s, id, s.registry[id].(msg := Some(DetectInfoFullMsg)))
    ensures RemainingCapacity(cfg.detectFaceMaxNum, |s.livenessJobs|) > 0 ==>
      r == s.(livenessJobs := s.livenessJobs + [Job(id, mask)])
    ensures r.registry.Keys == s.registry.Keys && r.registry[id].liveness == s.registry[id].liveness
    ensures r.registry[id].status == s.registry[id].status
    ensures r.pending == s.pending && r.waiters == s.waiters && r.featureJobs == s.featureJobs
    ensures |r.livenessJobs| <= |s.livenessJobs| + 1
  {
    if RemainingCapacity(cfg.detectFaceMaxNum, |s.livenessJobs|) <= 0 then
      Put(s, id, s.registry[id].(msg := Some(DetectInfoFullMsg)))
    else s.(livenessJobs := s.livenessJobs + [Job(id, mask)])
  }

  /** `requestFaceFeature`: as above for the feature queue; waiting feature tasks
      still occupy their threads. */
  function RequestFeature(s: State, cfg: C.Config, id: int, mask: Mask): (r: State)
    requires id in s.registry
    ensures RemainingCapacity(cfg.detectFaceMaxNum, |s.featureJobs| + |s.waiters|) <= 0 ==>
      r == Put(s, id, s.registry[id].(msg := Some(FeatureFullMsg)))
    ensures RemainingCapacity(cfg.detectFaceMaxNum, |s.featureJobs| + |s.waiters|) > 0 ==>
      r == s.(featureJobs := s.featureJobs + [Job(id, mask)])
    ensures r.registry.Keys == s.registry.Keys && r.registry[id].liveness == s.registry[id].liveness
    ensures r.registry[id].status == s.registry[id].status
    ensures r.pending == s.pending && r.waiters == s.waiters && r.livenessJobs == s.livenessJobs
    ensures |r.featureJobs| <= |s.featureJobs| + 1
  {
    if RemainingCapacity(cfg.detectFaceMaxNum, |s.featureJobs| + |s.waiters|) <= 0 then
      Put(s, id, s.registry[id].(msg := Some(FeatureFullMsg)))
    else s.(featureJobs := s.featureJobs + [Job(id, mask)])
  }

  /** The liveness values for which `doRecognize` asks again. */
  predicate NeedsLiveness(l: Liveness) {
    l != Alive && l != NotAlive && l != Analyzing && l != LivenessFailed
  }

  /** `doRecognize` for one preview that passed the size, area and mask tests: the
      entry is looked up (created if new); liveness is requested (marked ANALYZING)
      when a liveness type is set, the face has not succeeded and its liveness is
      unresolved; a feature is requested (marked SEARCHING) when the face is TO_RETRY. */
  function RecognizeOne(s: State, cfg: C.Config, p: Preview): (r: State)
    ensures r.registry.Keys == s.registry.Keys + {p.face.faceId}
    ensures var e := GetRecognizeInfo(s.registry, p.face.faceId).1;
      var askLiveness := !cfg.livenessType.LivenessNone? && e.status != Succeed && NeedsLiveness(e.liveness);
      && (askLiveness ==> r.registry[p.face.faceId].liveness == Analyzing)
      && (!askLiveness ==> r.registry[p.face.faceId].liveness == e.liveness && r.livenessJobs == s.livenessJobs)
      && (e.status == ToRetry ==> r.registry[p.face.faceId].status == Searching)
      && (e.status != ToRetry ==> r.registry[p.face.faceId].status == e.status && r.featureJobs == s.featureJobs)
      && |r.livenessJobs| <= |s.livenessJobs| + 1 && |r.featureJobs| <= |s.featureJobs| + 1
    ensures r.pending == s.pending && r.waiters == s.waiters
  {
    var id := p.face.faceId;
    var (reg, e) := GetRecognizeInfo(s.registry, id);
    var s1 := s.(registry := reg);
    var s2 :=
      if !cfg.livenessType.LivenessNone? && e.status != Succeed && NeedsLiveness(e.liveness)
      then RequestLiveness(Put(s1, id, e.(liveness := Analyzing)), cfg, id, p.mask)
      else s1;
    var e2 := s2.registry[id];
    if e2.status == ToRetry then RequestFeature(Put(s2, id, e2.(status := Searching)), cfg, id, p.mask)
    else s2
  }

  /** The previews `doRecognize` acts on. */
  predicate Recognizable(cfg: C.Config, p: Preview) {
    JudgeFaceSize(p.face, cfg.faceSizeLimit) && p.face.areaValid && !(cfg.enableMask && p.mask == MaskUnknown)
  }

  /** `doRecognize(previews)`. Its only caller is commented out, so nothing in
      the frame step reaches it; it is modelled on its own. */
  function DoRecognize(s: State, cfg: C.Config, ps: seq<Preview>): (r: State)
    ensures s.registry.Keys <= r.registry.Keys
    ensures r.pending == s.pending && r.waiters == s.waiters
    ensures |r.livenessJobs| <= |s.livenessJobs| + |ps| && |r.featureJobs| <= |s.featureJobs| + |ps|
    decreases |ps|
  {
    if |ps| == 0 then s
    else if !Recognizable(cfg, ps[0]) then DoRecognize(s, cfg, ps[1..])
    else DoRecognize(RecognizeOne(s, cfg, ps[0]), cfg, ps[1..])
  }

  /** The face ids of the recognisable previews in `ps`. */
  ghost function RecognizableIds(cfg: C.Config, ps: seq<Preview>): set<int> {
    set i | 0 <= i < |ps| && Recognizable(cfg, ps[i]) :: ps[i].face.faceId
  }

  lemma RecognizableIdsSplit(cfg: C.Config, ps: seq<Preview>)
    requires |ps| > 0
    ensures RecognizableIds(cfg, ps) ==
      (if Recognizable(cfg, ps[0]) then {ps[0].face.faceId} else {}) + RecognizableIds(cfg, ps[1..])
  {
    var all := RecognizableIds(cfg, ps);
    var rest := RecognizableIds(cfg, ps[1..]);
    forall x | x in all ensures x in rest || (Recognizable(cfg, ps[0]) && x == ps[0].face.faceId) {
      var i :| 0 <= i < |ps| && Recognizable(cfg, ps[i]) && ps[i].face.faceId == x;
      if i > 0 {
        assert ps[1..][i - 1] == ps[i];
      }
    }
    forall x | x in rest ensures x in all {
      var i :| 0 <= i < |ps[1..]| && Recognizable(cfg, ps[1..][i]) && ps[1..][i].face.faceId == x;
      assert ps[i + 1] == ps[1..][i];
    }
  }

  /** `doRecognize` creates entries exactly for the recognisable previews. */
  lemma {:induction false} DoRecognizeKeys(s: State, cfg: C.Config, ps: seq<Preview>)
    ensures DoRecognize(s, cfg, ps).registry.Keys == s.registry.Keys + RecognizableIds(cfg, ps)
    decreases |ps|
  {
    if |ps| > 0 {
      var s1 := if Recognizable(cfg, ps[0]) then RecognizeOne(s, cfg, ps[0]) else s;
      var head: set<int> := if Recognizable(cfg, ps[0]) then {ps[0].face.faceId} else {};
      assert s1.registry.Keys == s.registry.Keys + head;
      assert DoRecognize(s, cfg, ps) == DoRecognize(s1, cfg, ps[1..]);
      DoRecognizeKeys(s1, cfg, ps[1..]);
      RecognizableIdsSplit(cfg, ps);
    }
  }

  /** A full liveness queue submits nothing and leaves the face ANALYZING with
      the "DetectInfoThread is full." message, so later passes do not ask again. */
  lemma LivenessOverrunStrands(s: State, cfg: C.Config, p: Preview)
    requires p.face.faceId !in s.registry && !cfg.livenessType.LivenessNone?
    requires RemainingCapacity(cfg.detectFaceMaxNum, |s.livenessJobs|) <= 0
    ensures var r := RecognizeOne(s, cfg, p);
      && r.livenessJobs == s.livenessJobs
      && r.registry[p.face.faceId].liveness == Analyzing
      && !NeedsLiveness(r.registry[p.face.faceId].liveness)
  {
  }

  /** A delayed reset when it runs: both reset the message to the face id; the
      liveness reset puts liveness back to UNKNOWN, the recognition reset puts the
      status back to TO_RETRY. Through the guarded setters, a reset for a face
      that left does nothing. */
  function ResetChanges(rs: Reset): (r: seq<Change>)
    ensures |r| == 2 && r[0].id == rs.faceId && r[1].id == rs.faceId
  {
    match rs
    case LivenessReset(id) => [SetMsg(id, Some(FaceIdMsg(id))), SetLiveness(id, Unknown)]
    case RecognizeReset(id) => [SetMsg(id, Some(FaceIdMsg(id))), SetStatus(id, ToRetry)]
  }

  function FireReset(s: State, rs: Reset): (r: State)
    ensures r.registry.Keys == s.registry.Keys
    ensures rs.faceId !in s.registry ==> r == s
  {
    ChangesKeepKeys(s.registry, ResetChanges(rs));
    if rs.faceId !in s.registry then s
    else s.(registry := ApplyChanges(s.registry, ResetChanges(rs)))
  }

  function RemoveAt<T>(xs: seq<T>, i: nat): (r: seq<T>)
    requires i < |xs|
    ensures |r| == |xs| - 1
    ensures forall k :: 0 <= k < i ==> r[k] == xs[k]
    ensures forall k :: i <= k < |r| ==> r[k] == xs[k + 1]
  {
    xs[..i] + xs[i + 1..]
  }

  /** What can happen to the helper. Out-of-range indices and waiters that were
      not notified make a step do nothing. */
  datatype Input =
    | FrameArrives(frame: Frame)
    | Pause(pause: bool)
    | LivenessDone(index: nat, liveness: LivenessReply)
    | FeatureDone(index: nat, feature: FeatureReply, search: SearchInput)
    | ResetFires(index: nat)
    | Wake(index: nat, search: SearchInput)
    | Interrupt(index: nat)

  /** One step of the helper. Since `doRecognize` is never called, no step
      submits a task. */
  function Step(s: State, cfg: C.Config, input: Input): (r: (State, seq<Event>))
    ensures |r.0.livenessJobs| <= |s.livenessJobs| && |r.0.featureJobs| <= |s.featureJobs|
    ensures r.0.shutdown == s.shutdown
    ensures !input.Pause? ==> r.0.paused == s.paused
  {
    match input
    case FrameArrives(fr) => OnPreviewFrame(s, cfg, fr)
    case Pause(b) => (s.(paused := b), [])
    case LivenessDone(i, reply) =>
      if i < |s.livenessJobs| then
        LivenessWorker(s.(livenessJobs := RemoveAt(s.livenessJobs, i)), cfg, s.livenessJobs[i], reply)
      else (s, [])
    case FeatureDone(i, reply, search) =>
      if i < |s.featureJobs| then
        var (call, errors) := FeatureWorker(cfg, s.featureJobs[i], reply);
        var (next, events) := OnFeature(s.(featureJobs := RemoveAt(s.featureJobs, i)), cfg, call, search);
        (next, events + errors)
      else (s, [])
    case ResetFires(i) =>
      if i < |s.pending| then (FireReset(s.(pending := RemoveAt(s.pending, i)), s.pending[i]), [])
      else (s, [])
    case Wake(i, search) =>
      if i < |s.waiters| && s.waiters[i].woken then
        OnFeature(s.(waiters := RemoveAt(s.waiters, i)), cfg, s.waiters[i].call, search)
      else (s, [])
    case Interrupt(i) =>
      if i < |s.waiters| then (s.(waiters := RemoveAt(s.waiters, i)), []) else (s, [])
  }

  /** No departed face comes back: apart from a frame (which only removes entries)
      nothing in the helper's own steps adds a registry entry. */
  lemma StepNeverCreatesEntries(s: State, cfg: C.Config, input: Input)
    ensures Step(s, cfg, input).0.registry.Keys <= s.registry.Keys
  {
    match input
    case FrameArrives(fr) =>
    case Pause(_) =>
    case LivenessDone(_, _) =>
    case FeatureDone(i, reply, search) =>
      if i < |s.featureJobs| {
        var call := FeatureWorker(cfg, s.featureJobs[i], reply).0;
        var next := OnFeature(s.(featureJobs := RemoveAt(s.featureJobs, i)), cfg, call, search).0;
        assert Step(s, cfg, input).0 == next;
      }
    case ResetFires(_) =>
    case Wake(_, _) =>
    case Interrupt(_) =>
  }

  /** An interrupted waiter just disappears; nothing else changes. */
  lemma InterruptOnlyDropsWaiter(s: State, cfg: C.Config, i: nat)
    requires i < |s.waiters|
    ensures Step(s, cfg, Interrupt(i)) == (s.(waiters := RemoveAt(s.waiters, i)), [])
  {
  }

  /** Both retry counters stay within their budgets (or at 0 when the budget is negative). */
  ghost predicate WithinBudgets(reg: Registry, cfg: C.Config) {
    forall id :: id in reg ==>
      && (reg[id].livenessRetries == 0 || reg[id].livenessRetries <= cfg.livenessErrorRetryCount)
      && (reg[id].extractRetries == 0 || reg[id].extractRetries <= cfg.extractFeatureErrorRetryCount)
  }

  /** The stability buffer holds at most four copies of one candidate. */
  ghost predicate BufferOk(buf: seq<Candidate>) {
    |buf| <= 4 && Uniform(buf)
  }

  ghost predicate Inv(s: State, cfg: C.Config) {
    WithinBudgets(s.registry, cfg) && BufferOk(s.buffer)
  }

  lemma InitInv(cfg: C.Config)
    requires cfg.detectFaceMaxNum >= 1
    ensures Inv(Init(cfg).value, cfg)
  {
  }

  lemma {:induction false} ChangesKeepBudgets(reg: Registry, cfg: C.Config, cs: seq<Change>)
    requires WithinBudgets(reg, cfg)
    ensures WithinBudgets(ApplyChanges(reg, cs), cfg)
    decreases |cs|
  {
    if |cs| > 0 {
      var reg1 := ApplyChange(reg, cs[0]);
      assert WithinBudgets(reg1, cfg);
      ChangesKeepBudgets(reg1, cfg, cs[1..]);
    }
  }

  lemma OnLivenessKeepsInv(s: State, cfg: C.Config, id: int, result: Option<EngineLiveness>, code: EngineCode)
    requires Inv(s, cfg)
    ensures Inv(OnLiveness(s, cfg, id, result, code), cfg)
  {
  }

  lemma OnFeatureKeepsInv(s: State, cfg: C.Config, call: FeatureCall, input: SearchInput)
    requires Inv(s, cfg)
    ensures Inv(OnFeature(s, cfg, call, input).0, cfg)
  {
    if call.faceId in s.registry && call.feature.Some? {
      FeatureOutcomes(s, cfg, call, input);
    }
  }

  lemma FrameKeepsInv(s: State, cfg: C.Config, fr: Frame)
    requires Inv(s, cfg)
    ensures Inv(OnPreviewFrame(s, cfg, fr).0, cfg)
  {
    if !s.paused && fr.detect.Mok? {
      DetectedFrameClears(s, cfg, fr);
      var r := OnPreviewFrame(s, cfg, fr).0;
      var ps := r.previews;
      var m := if |ps| > 0 then ps[0].mask else MaskUnknown;
      BufferPassBounded(s.buffer, ps, cfg.faceSizeLimit, m);
    }
  }

  /** Every step keeps the retry counters within budget and the buffer bounded. */
  lemma StepKeepsInv(s: State, cfg: C.Config, input: Input)
    requires Inv(s, cfg)
    ensures Inv(Step(s, cfg, input).0, cfg)
  {
    match input
    case FrameArrives(fr) => FrameKeepsInv(s, cfg, fr);
    case Pause(_) =>
    case LivenessDone(i, reply) =>
      if i < |s.livenessJobs| {
        var s1 := s.(livenessJobs := RemoveAt(s.livenessJobs, i));
        var code := LivenessCode(reply);
        OnLivenessKeepsInv(s1, cfg, s.livenessJobs[i].faceId, if code.Mok? && |reply.list| > 0 then Some(reply.list[0]) else None, code);
      }
    case FeatureDone(i, reply, search) =>
      if i < |s.featureJobs| {
        var call := FeatureWorker(cfg, s.featureJobs[i], reply).0;
        OnFeatureKeepsInv(s.(featureJobs := RemoveAt(s.featureJobs, i)), cfg, call, search);
      }
    case ResetFires(i) =>
      if i < |s.pending| {
        ChangesKeepBudgets(s.registry, cfg, ResetChanges(s.pending[i]));
      }
    case Wake(i, search) =>
      if i < |s.waiters| && s.waiters[i].woken {
        OnFeatureKeepsInv(s.(waiters := RemoveAt(s.waiters, i)), cfg, s.waiters[i].call, search);
      }
    case Interrupt(_) =>
  }

  /** A fired reset writes exactly the two fields it names into a present entry. */
  lemma ResetWrites(reg: Registry, rs: Reset)
    requires rs.faceId in reg
    ensures var id := rs.faceId;
      var e := reg[id].(msg := Some(FaceIdMsg(id)));
      ApplyChanges(reg, ResetChanges(rs)) ==
        reg[id := if rs.LivenessReset? then e.(liveness := Unknown) else e.(status := ToRetry)]
  {
    var id := rs.faceId;
    var cs := ResetChanges(rs);
    var reg1 := ApplyChange(reg, cs[0]);
    var reg2 := ApplyChange(reg1, cs[1]);
    assert cs[1..][0] == cs[1] && cs[1..][1..] == [];
    assert ApplyChanges(reg2, cs[1..][1..]) == reg2;
    assert ApplyChanges(reg1, cs[1..]) == reg2;
    var e := reg[id].(msg := Some(FaceIdMsg(id)));
    var want := reg[id := if rs.LivenessReset? then e.(liveness := Unknown) else e.(status := ToRetry)];
    assert reg2.Keys == want.Keys;
    assert reg2[id] == want[id];
  }

  /** The reset `retryLivenessDetectDelayed(id)` posts, when it later runs: a
      face still present gets its message back to its id and its liveness back
      to UNKNOWN, nothing else changes; for a face that left it does nothing. */
  lemma LivenessResetFires(s: State, cfg: C.Config, id: int)
    ensures var posted := RetryLivenessDetectDelayed(s, id);
      Step(posted, cfg, ResetFires(|s.pending|)) ==
        (if id !in s.registry then s
         else s.(registry := s.registry[id := s.registry[id].(msg := Some(FaceIdMsg(id)), liveness := Unknown)]), [])
  {
    var posted := RetryLivenessDetectDelayed(s, id);
    assert RemoveAt(posted.pending, |s.pending|) == s.pending;
    if id in s.registry {
      ResetWrites(s.registry, LivenessReset(id));
    }
  }

  /** Likewise for the reset `retryRecognizeDelayed(id)` posts: the message goes
      back to the id and the status (FAILED meanwhile) back to TO_RETRY. */
  lemma RecognizeResetFires(s: State, cfg: C.Config, id: int)
    ensures var posted := RetryRecognizeDelayed(s, id);
      Step(posted, cfg, ResetFires(|s.pending|)) ==
        (if id !in s.registry then s
         else s.(registry := s.registry[id := s.registry[id].(msg := Some(FaceIdMsg(id)), status := ToRetry)]), [])
  {
    var posted := RetryRecognizeDelayed(s, id);
    assert RemoveAt(posted.pending, |s.pending|) == s.pending;
    if id in s.registry {
      ResetWrites(posted.registry, RecognizeReset(id));
      assert posted.registry[id := posted.registry[id].(msg := Some(FaceIdMsg(id)), status := ToRetry)]
        == s.registry[id := s.registry[id].(msg := Some(FaceIdMsg(id)), status := ToRetry)];
    }
  }

  /** The tasks a pool with `free` idle threads is running when it is shut down:
      the oldest ones in flight. */
  function Running(jobs: seq<Job>, free: int): (r: seq<Job>)
    ensures |r| == if free <= 0 then 0 else if free < |jobs| then free else |jobs|
    ensures r == jobs[..|r|]
  {
    if free <= 0 then [] else if free < |jobs| then jobs[..free] else jobs
  }

  /** The first part of `destroy`: posted resets are removed and both pools are
      shut down with `shutdownNow`, which discards the queued tasks and interrupts
      every thread. A feature task blocked in `wait` ends with the interrupt; a
      task running engine code is not stopped, and finishes and reports later.
      Each pool has `detectFaceMaxNum` threads; the waiting feature tasks hold
      some of the feature pool's. */
  function ShutDown(s: State, cfg: C.Config): (r: State)
    ensures r.shutdown && r.pending == [] && r.waiters == []
    ensures |r.livenessJobs| <= |s.livenessJobs| && r.livenessJobs == s.livenessJobs[..|r.livenessJobs|]
    ensures r.livenessJobs == [] || |r.livenessJobs| <= cfg.detectFaceMaxNum
    ensures |r.featureJobs| <= |s.featureJobs| && r.featureJobs == s.featureJobs[..|r.featureJobs|]
    ensures r.featureJobs == [] || |r.featureJobs| + |s.waiters| <= cfg.detectFaceMaxNum
    ensures r == s.(pending := [], waiters := [], shutdown := true,
                    livenessJobs := r.livenessJobs, featureJobs := r.featureJobs)
  {
    s.(pending := [], waiters := [], shutdown := true,
       livenessJobs := Running(s.livenessJobs, cfg.detectFaceMaxNum),
       featureJobs := Running(s.featureJobs, cfg.detectFaceMaxNum - |s.waiters|))
  }

  /** The end of `destroy`: the registry and the frame lists are cleared. */
  function ClearAll(s: State): (r: State)
    ensures r.registry == map[] && r.faces == [] && r.previews == []
    ensures r == s.(registry := r.registry, faces := r.faces, previews := r.previews)
  {
    s.(registry := map[], faces := [], previews := [])
  }

  /** After `destroy`: nothing left in the registry, no reset posted, no task
      waiting, and both pools shut down. */
  ghost predicate Destroyed(s: State) {
    s.shutdown && s.registry == map[] && s.pending == [] && s.waiters == []
  }

  /** `destroy`, with no task finishing in between its two parts. The stability
      buffer, presence values and pause flag are left as they were. */
  function Destroy(s: State, cfg: C.Config): (r: State)
    ensures Destroyed(r) && r.faces == [] && r.previews == []
    ensures |r.livenessJobs| <= |s.livenessJobs| && r.livenessJobs == s.livenessJobs[..|r.livenessJobs|]
    ensures |r.featureJobs| <= |s.featureJobs| && r.featureJobs == s.featureJobs[..|r.featureJobs|]
    ensures r.buffer == s.buffer && r.tracker == s.tracker && r.paused == s.paused
  {
    ClearAll(ShutDown(s, cfg))
  }

  /** A destroyed helper stays destroyed whatever happens: no entry, reset or
      waiter comes back, no task is added, and the only events a finishing task
      can still produce are error reports. */
  lemma DestroyedStaysDestroyed(d: State, cfg: C.Config, input: Input)
    requires Destroyed(d)
    ensures var r := Step(d, cfg, input);
      && Destroyed(r.0)
      && |r.0.livenessJobs| <= |d.livenessJobs| && |r.0.featureJobs| <= |d.featureJobs|
      && (input.LivenessDone? || input.FeatureDone? ==> forall e :: e in r.1 ==> e.Error?)
      && (!input.FrameArrives? && !input.LivenessDone? && !input.FeatureDone? ==> r.1 == [])
  {
    var r := Step(d, cfg, input);
    match input
    case FrameArrives(fr) =>
      assert r.0.registry.Keys <= d.registry.Keys;
      assert r.0.registry == map[];
    case Pause(_) =>
    case LivenessDone(i, reply) =>
    case FeatureDone(i, reply, search) =>
      if i < |d.featureJobs| {
        var (call, errors) := FeatureWorker(cfg, d.featureJobs[i], reply);
        assert r.1 == [] + errors;
      }
    case ResetFires(_) =>
    case Wake(_, _) =>
    case Interrupt(_) =>
  }

  /** Once the tasks that were running have finished, a destroyed helper is
      inert: no step other than a frame or a pause changes anything. */
  lemma DrainedIsInert(d: State, cfg: C.Config, input: Input)
    requires Destroyed(d) && d.livenessJobs == [] && d.featureJobs == []
    requires !input.FrameArrives? && !input.Pause?
    ensures Step(d, cfg, input) == (d, [])
  {
  }

  /** A feature task that finishes between the two parts of `destroy` can still
      post a recognition reset, after the resets were removed: the handler runs
      it later on the emptied registry, where it does nothing. Its error report
      is delivered as usual. */
  lemma ResetPostedDuringDestroy(s: State, cfg: C.Config, reply: FeatureReply, search: SearchInput)
    requires |s.featureJobs| >= 1 && s.waiters == [] && cfg.detectFaceMaxNum >= 1
    requires s.featureJobs[0].faceId in s.registry
    requires s.registry[s.featureJobs[0].faceId].extractRetries + 1 > cfg.extractFeatureErrorRetryCount
    requires !cfg.enableImageQuality && reply.extract.Fail?
    ensures var id := s.featureJobs[0].faceId;
      var mid := Step(ShutDown(s, cfg), cfg, FeatureDone(0, reply, search));
      var after := ClearAll(mid.0);
      && after.pending == [RecognizeReset(id)] && after.registry == map[]
      && mid.1 == Report(cfg, ExtractFeature, reply.extract)
      && Step(after, cfg, ResetFires(0)) == (after.(pending := []), [])
  {
    var id := s.featureJobs[0].faceId;
    var sd := ShutDown(s, cfg);
    assert sd.featureJobs[0] == s.featureJobs[0];
    var (call, errors) := FeatureWorker(cfg, sd.featureJobs[0], reply);
    FeatureOutcomes(sd.(featureJobs := RemoveAt(sd.featureJobs, 0)), cfg, call, search);
  }
}

=== FILE: face_server.dfy ===
/** `FaceServer`: the IMAGE-mode engine wrapper used to compare features (1:N and
    1:1) and to extract one face's feature from a still image. */
module FaceServer {
  import opened Common
  import opened Engine

  /** `init`: ASF_OP_ALL_OUT is replaced by ASF_OP_0_ONLY; any other orientation is kept. */
  function InitOrient(o: Orient): (r: Orient)
    ensures r != OpAllOut
    ensures o != OpAllOut ==> r == o
  {
    if o == OpAllOut then Op0Only else o
  }

  /** Mapping an already mapped orientation changes nothing. */
  lemma InitOrientIdempotent(o: Orient)
    ensures InitOrient(InitOrient(o)) == InitOrient(o)
  {
  }

  /** The 1:N result: the position of the chosen stored feature and its score. */
  datatype CompareResult = CompareResult(index: nat, similar: real)

  /** `rs[i]` is the answer `compareFaceFeature(1:N)` must give: a successful
      comparison with a positive score, no successful score above it, and every
      earlier successful score strictly below it (the loop only moves on `>`). */
  ghost predicate IsBest(rs: seq<Similarity>, i: int) {
    && 0 <= i < |rs|
    && rs[i].code.Mok?
    && rs[i].score > 0.0
    && (forall j :: 0 <= j < |rs| && rs[j].code.Mok? ==> rs[j].score <= rs[i].score)
    && (forall j :: 0 <= j < i && rs[j].code.Mok? ==> rs[j].score < rs[i].score)
  }

  /** No successful comparison scored above zero. */
  ghost predicate NoPositive(rs: seq<Similarity>) {
    forall j :: 0 <= j < |rs| && rs[j].code.Mok? ==> rs[j].score <= 0.0
  }

  /** What the loop knows after looking at `rs[..k]`: either nothing was picked
      (`idx == -1`, `best == 0`), or `rs[idx]` is the best of the prefix. */
  ghost predicate ScanInv(rs: seq<Similarity>, k: nat, best: real, idx: int) {
    && k <= |rs|
    && (idx == -1 ==>
          best == 0.0 && forall j :: 0 <= j < k && rs[j].code.Mok? ==> rs[j].score <= 0.0)
    && (idx != -1 ==>
          && 0 <= idx < k && rs[idx].code.Mok? && best == rs[idx].score && best > 0.0
          && (forall j :: 0 <= j < k && rs[j].code.Mok? ==> rs[j].score <= best)
          && (forall j :: 0 <= j < idx && rs[j].code.Mok? ==> rs[j].score < best))
  }

  /** The `forEachIndexed` loop from position `k` on, carrying `maxSimilar` and
      `maxSimilarIndex`; failed comparisons are only logged. */
  function Scan(rs: seq<Similarity>, k: nat, best: real, idx: int): (r: (real, int))
    requires k <= |rs|
    decreases |rs| - k
  {
    if k == |rs| then (best, idx)
    else if rs[k].code.Mok? && rs[k].score > best then Scan(rs, k + 1, rs[k].score, k)
    else Scan(rs, k + 1, best, idx)
  }

  lemma {:induction false} ScanKeepsInv(rs: seq<Similarity>, k: nat, best: real, idx: int)
    requires ScanInv(rs, k, best, idx)
    ensures ScanInv(rs, |rs|, Scan(rs, k, best, idx).0, Scan(rs, k, best, idx).1)
    decreases |rs| - k
  {
    if k < |rs| {
      if rs[k].code.Mok? && rs[k].score > best {
        ScanKeepsInv(rs, k + 1, rs[k].score, k);
      } else {
        ScanKeepsInv(rs, k + 1, best, idx);
      }
    }
  }

  /** 1:N `compareFaceFeature`: `rs[i]` is the engine's answer for `features[i]`.
      Null for an empty list and whenever no successful comparison scored above 0. */
  function CompareMany(rs: seq<Similarity>): (r: Option<CompareResult>)
    ensures |rs| == 0 ==> r.None?
    ensures r.None? <==> NoPositive(rs)
    ensures r.Some? ==> IsBest(rs, r.value.index) && r.value.similar == rs[r.value.index].score
  {
    if |rs| == 0 then None
    else
      ScanKeepsInv(rs, 0, 0.0, -1);
      var (best, idx) := Scan(rs, 0, 0.0, -1);
      if idx != -1 then Some(CompareResult(idx, best)) else None
  }

  /** The 1:N answer is unique: at most one position satisfies `IsBest`. */
  lemma BestIsUnique(rs: seq<Similarity>, i: int, j: int)
    requires IsBest(rs, i) && IsBest(rs, j)
    ensures i == j
  {
  }

  /** A failed comparison is never selected, whatever score it reports. */
  lemma FailedNeverSelected(rs: seq<Similarity>)
    ensures var r := CompareMany(rs); r.Some? ==> rs[r.value.index].code.Mok?
  {
  }

  /** 1:1 `compareFaceFeature`: the score is returned whether or not the call succeeded. */
  function CompareOne(reply: Similarity): (r: real)
    ensures r == reply.score
  {
    reply.score
  }

  /** The 1:1 result does not depend on the engine's result code. */
  lemma CompareOneIgnoresCode(score: real, c1: EngineCode, c2: EngineCode)
    ensures CompareOne(Similarity(c1, score)) == CompareOne(Similarity(c2, score))
  {
  }

  /** The private `extractFaceFeature(bytes, width, height, format)`: `extract`
      stands for the engine's extraction of one face with a given type and mask.
      A feature comes back only when detection found a face, mask processing and
      `getMask` succeeded, there is one mask per face and extraction succeeded;
      the first face and its mask are used, for registration. */
  function ExtractImageFeature<F>(
    detect: EngineCode, faces: seq<F>,
    maskProcess: EngineCode, maskGet: EngineCode, masks: seq<Mask>,
    extract: (F, ExtractType, Mask) -> (EngineCode, Feature)): (r: Option<Feature>)
    ensures r.Some? <==>
      && detect.Mok? && |faces| > 0
      && maskProcess.Mok? && maskGet.Mok? && |masks| == |faces|
      && extract(faces[0], Register, masks[0]).0.Mok?
    ensures r.Some? ==> r.value == extract(faces[0], Register, masks[0]).1
  {
    if detect.Mok? && |faces| > 0 then
      if maskProcess.Mok? then
        if maskGet.Mok? then
          if |masks| == |faces| then
            var (code, feature) := extract(faces[0], Register, masks[0]);
            if code.Mok? then Some(feature) else None
          else None
        else None
      else None
    else None
  }

  /** Only the first face and its mask matter: the rest of the lists can change freely. */
  lemma ExtractUsesFirstFace<F>(
    detect: EngineCode, f0: F, fs1: seq<F>, fs2: seq<F>,
    maskProcess: EngineCode, maskGet: EngineCode, m0: Mask, ms1: seq<Mask>, ms2: seq<Mask>,
    extract: (F, ExtractType, Mask) -> (EngineCode, Feature))
    requires |fs1| == |ms1| && |fs2| == |ms2|
    ensures ExtractImageFeature(detect, [f0] + fs1, maskProcess, maskGet, [m0] + ms1, extract)
         == ExtractImageFeature(detect, [f0] + fs2, maskProcess, maskGet, [m0] + ms2, extract)
  {
  }
}

=== FILE: grid_space.dfy ===
/** `GridSpaceDecoration`: the item offsets of a grid list, which put `space`
    on the left and bottom of every item, on the right of the last column and
    on the top of the first row. */
module GridSpace {

  import opened Common

  /** The offsets rectangle handed to `getItemOffsets`. */
  datatype Rect = Rect(left: int, top: int, right: int, bottom: int)

  /** Kotlin `Int` remainder, which takes the sign of the dividend. */
  function TruncMod(a: int, b: int): (r: int)
    requires b != 0
    ensures a >= 0 ==> r == a % b
    ensures r == 0 <==> a % b == 0
  {
    if a >= 0 || a % b == 0 then a % b else a % b - (if b > 0 then b else -b)
  }

  /** `getItemOffsets` for the item at adapter `position` in a grid of
      `spanCount` columns. A zero span count makes the remainder throw (`None`). */
  function ItemOffsets(rect: Rect, space: int, position: int, spanCount: int): (r: Option<Rect>)
    ensures r.None? <==> spanCount == 0
    ensures r.Some? ==> r.value.left == space && r.value.bottom == space
    ensures r.Some? ==> r.value.right == (if (position + 1) % spanCount == 0 then space else rect.right)
    ensures r.Some? ==> r.value.top == (if position < spanCount then space else rect.top)
  {
    if spanCount == 0 then None
    else
      var withRight := if TruncMod(position + 1, spanCount) == 0 then rect.(right := space) else rect;
      var withTop := if position < spanCount then withRight.(top := space) else withRight;
      Some(withTop.(bottom := space, left := space))
  }

  /** The item after `position` starts a row exactly when `position` is in the last column. */
  lemma LastColumn(position: nat, spanCount: nat)
    requires spanCount > 0
    ensures (position + 1) % spanCount == 0 <==> position % spanCount == spanCount - 1
  {
    var col := position % spanCount;
    var row := position / spanCount;
    assert position == row * spanCount + col;
    if col == spanCount - 1 {
      assert position + 1 == (row + 1) * spanCount + 0;
      DivMod(row + 1, 0, spanCount);
    } else {
      assert position + 1 == row * spanCount + (col + 1);
      DivMod(row, col + 1, spanCount);
    }
  }

  /** `position < spanCount` exactly for the first row. */
  lemma FirstRow(position: nat, spanCount: nat)
    requires spanCount > 0
    ensures position < spanCount <==> position / spanCount == 0
  {
    var row := position / spanCount;
    assert position == row * spanCount + position % spanCount;
    if row > 0 {
      MulLe(1, row, spanCount);
    }
  }

  /** In a grid with a positive span count, an item gets the right offset
      exactly when it is in the last column, and the top offset exactly when it
      is in the first row. */
  lemma OffsetsFollowGridPosition(rect: Rect, space: int, position: nat, spanCount: int)
    requires spanCount > 0 && rect.right != space && rect.top != space
    ensures var r := ItemOffsets(rect, space, position, spanCount).value;
      && (r.right == space <==> position % spanCount == spanCount - 1)
      && (r.top == space <==> position / spanCount == 0)
  {
    LastColumn(position, spanCount);
    FirstRow(position, spanCount);
  }
}

=== FILE: http.dfy ===
/** The HTTP layer's pure logic: the response envelope (`HttpData`), paged
    lists (`HttpListData`), and the classification and cache guards of
    `RequestHandler`. Network, JSON parsing and storage are inputs. */
module Http {
  import opened Common

  /** `HttpData<T>`: a status code, a message and a payload; Gson leaves the
      field initialisers in place when the JSON omits them. */
  datatype HttpData<T> = HttpData(status: int, msg: Option<string>, data: Option<T>)

  /** The envelope of an empty JSON object: status 0, no message, no data. */
  function DefaultHttpData<T>(): (r: HttpData<T>)
    ensures IsRequestSucceed(r) && r.msg.None? && r.data.None?
  {
    HttpData(0, None, None)
  }

  predicate IsRequestSucceed<T>(d: HttpData<T>) {
    d.status == 0
  }

  predicate IsTokenFailure<T>(d: HttpData<T>) {
    d.status == 1001
  }

  /** A response cannot be both a success and a token failure. */
  lemma SucceedAndTokenFailureExclusive<T>(d: HttpData<T>)
    ensures !(IsRequestSucceed(d) && IsTokenFailure(d))
    ensures IsRequestSucceed(d) <==> d.status == 0
    ensures IsTokenFailure(d) <==> d.status == 1001
  {
  }

  /** `HttpListData.ListBean`: one page of a paged list. */
  datatype ListBean<T> = ListBean(pageIndex: int, pageSize: int, totalNumber: int, items: Option<seq<Option<T>>>)

  /** The least integer not below `x` (`kotlin.math.ceil`). */
  function Ceil(x: real): (r: int)
    ensures x <= r as real < x + 1.0
  {
    if x.Floor as real == x then x.Floor else x.Floor + 1
  }

  /** `isLastPage()`: `ceil(totalNumber / pageSize) <= pageIndex` in floating
      point. A zero page size divides to +Infinity, -Infinity or NaN, so only a
      negative total counts as the last page then. */
  function IsLastPage<T>(b: ListBean<T>): (r: bool)
    ensures b.pageSize == 0 ==> (r <==> b.totalNumber < 0)
    ensures b.pageSize != 0 ==> (r <==> Ceil(b.totalNumber as real / b.pageSize as real) <= b.pageIndex)
  {
    if b.pageSize == 0 then b.totalNumber < 0
    else Ceil(b.totalNumber as real / b.pageSize as real) <= b.pageIndex
  }

  /** With a positive page size the page is the last one exactly when the pages
      up to and including it can hold every item. */
  lemma LastPageIffCovered<T>(b: ListBean<T>)
    requires b.pageSize > 0
    ensures IsLastPage(b) <==> b.totalNumber <= b.pageIndex * b.pageSize
  {
    var t, p, i := b.totalNumber as real, b.pageSize as real, b.pageIndex as real;
    assert t / p * p == t;
    if IsLastPage(b) {
      assert t / p <= i;
      assert t <= i * p;
    } else {
      assert i < t / p;
      assert i * p < t;
    }
  }

  /** Once a page is the last one, so is every later page. */
  lemma LastPageMonotone<T>(b: ListBean<T>, later: int)
    requires IsLastPage(b) && later >= b.pageIndex
    ensures IsLastPage(b.(pageIndex := later))
  {
  }

  /** An empty list has no page beyond the first. */
  lemma EmptyListIsLastPage<T>(b: ListBean<T>)
    requires b.totalNumber == 0 && b.pageSize > 0 && b.pageIndex >= 0
    ensures IsLastPage(b)
  {
    LastPageIffCovered(b);
  }

  /** The requested result type of a call. */
  datatype ResultType = ResponseType | HeadersType | InputStreamType | StringType | JsonObjectType | JsonArrayType | ModelType

  datatype Response = Response(successful: bool, hasBody: bool)

  /** What Gson or `JSONObject`/`JSONArray` made of the body text. */
  datatype Parsed = ParsedEnvelope(envelope: HttpData<int>) | ParsedOther | ParseError

  /** The exceptions of the HTTP layer. */
  datatype HttpKind = Plain | Token | ResultFailure | ResponseFailure | DataFailure | Timeout | Network | Server | Cancel

  datatype Outcome =
    | ReturnsResponse | ReturnsHeaders | ReturnsNull | ReturnsStream | ReturnsText | ReturnsJson | ReturnsModel
    | Throws(kind: HttpKind)

  /** `requestSucceed`: the raw response is handed back before any check; an
      unsuccessful response throws; then headers, a missing body, a stream, the
      text, JSON values and finally the parsed model are returned, a model
      envelope being checked for success and token failure. `readable` is
      whether reading the body text succeeded. */
  function RequestSucceed(t: ResultType, resp: Response, readable: bool, parsed: Parsed): (r: Outcome)
    ensures t == ResponseType ==> r == ReturnsResponse
    ensures t != ResponseType && !resp.successful ==> r == Throws(ResponseFailure)
    ensures r == ReturnsModel && parsed.ParsedEnvelope? ==> IsRequestSucceed(parsed.envelope)
    ensures t == ModelType && resp.successful && resp.hasBody && readable && parsed.ParsedEnvelope? ==>
      (r == ReturnsModel <==> IsRequestSucceed(parsed.envelope))
      && (r == Throws(Token) <==> IsTokenFailure(parsed.envelope))
      && (r == Throws(ResultFailure) <==> !IsRequestSucceed(parsed.envelope) && !IsTokenFailure(parsed.envelope))
    ensures r == Throws(DataFailure) ==> !readable || parsed.ParseError?
  {
    if t == ResponseType then ReturnsResponse
    else if !resp.successful then Throws(ResponseFailure)
    else if t == HeadersType then ReturnsHeaders
    else if !resp.hasBody then ReturnsNull
    else if t == InputStreamType then ReturnsStream
    else if !readable then Throws(DataFailure)
    else if t == StringType then ReturnsText
    else if parsed.ParseError? then Throws(DataFailure)
    else if t == JsonObjectType || t == JsonArrayType then ReturnsJson
    else match parsed
      case ParsedEnvelope(d) =>
        if IsRequestSucceed(d) then ReturnsModel
        else if IsTokenFailure(d) then Throws(Token)
        else Throws(ResultFailure)
      case _ => ReturnsModel
  }

  /** Asking for the raw response never looks at anything else. */
  lemma ResponseTypeIgnoresEverything(r1: Response, r2: Response, a: bool, b: bool, p: Parsed, q: Parsed)
    ensures RequestSucceed(ResponseType, r1, a, p) == RequestSucceed(ResponseType, r2, b, q)
  {
  }

  /** The failures `requestFail` is given. */
  datatype Failure = HttpException(kind: HttpKind) | SocketTimeout | UnknownHost | OtherIo | OtherFailure

  /** `requestFail`: HTTP exceptions pass through, a socket timeout becomes a
      timeout, an unknown host becomes a network error when no network is
      connected and a server error otherwise, other I/O errors become a
      cancellation, and anything else is wrapped as a plain HTTP exception. */
  function RequestFail(e: Failure, connected: bool): (r: HttpKind)
    ensures e.HttpException? ==> r == e.kind
    ensures e == SocketTimeout ==> r == Timeout
    ensures e == UnknownHost ==> r == (if connected then Server else Network)
    ensures e == OtherIo ==> r == Cancel
    ensures e == OtherFailure ==> r == Plain
  {
    match e
    case HttpException(k) => k
    case SocketTimeout => Timeout
    case UnknownHost => if connected then Server else Network
    case OtherIo => Cancel
    case OtherFailure => Plain
  }

  /** Every mapped failure is an HTTP exception, so mapping it again keeps it. */
  lemma RequestFailIdempotent(e: Failure, c1: bool, c2: bool)
    ensures RequestFail(HttpException(RequestFail(e, c1)), c2) == RequestFail(e, c1)
  {
  }

  /** A cached value that stands for nothing: null, the empty string or `{}`. */
  predicate EmptyCache(v: Option<string>) {
    v.None? || v.value == "" || v.value == "{}"
  }

  /** `readCache`: the stored text to parse, or null when it is empty. */
  function ReadCache(store: map<string, string>, key: string): (r: Option<string>)
    ensures r.None? <==> EmptyCache(if key in store then Some(store[key]) else None)
    ensures r.Some? ==> key in store && r.value == store[key]
  {
    if key !in store || store[key] == "" || store[key] == "{}" then None else Some(store[key])
  }

  /** `writeCache`: an empty serialised value is refused and nothing is stored;
      otherwise it is stored under the key and the commit's result returned. */
  function WriteCache(store: map<string, string>, key: string, value: Option<string>, commits: bool): (r: (bool, map<string, string>))
    ensures EmptyCache(value) ==> r == (false, store)
    ensures !EmptyCache(value) ==> r == (commits, store[key := value.value])
  {
    if EmptyCache(value) then (false, store) else (commits, store[key := value.value])
  }

  /** What is written is read back, and a refused write leaves the previous
      reading in place. */
  lemma CacheRoundTrip(store: map<string, string>, key: string, value: Option<string>, commits: bool)
    ensures var s := WriteCache(store, key, value, commits).1;
      ReadCache(s, key) == if EmptyCache(value) then ReadCache(store, key) else value
  {
  }
}

=== FILE: keyboard_watcher.dfy ===
/** `KeyboardWatcher`: infers the soft keyboard's state from the visible
    part of the window on every global layout, with a dead band at a quarter of
    the root view's height. */
module KeyboardWatcher {

  import opened Common

  /** `WindowManager.LayoutParams.FLAG_FULLSCREEN`. */
  const FlagFullscreen: int := 0x400

  /** Kotlin `Int` division, which truncates toward zero. */
  function TruncDiv(a: int, b: int): (q: int)
    requires b > 0
    ensures a >= 0 ==> q == a / b
    ensures a < 0 ==> q == -((-a) / b)
  {
    if a >= 0 then a / b else -((-a) / b)
  }

  /** Bit 10 of a two's-complement int: `(flags and FLAG_FULLSCREEN) == FLAG_FULLSCREEN`. */
  predicate IsFullscreen(flags: int) {
    (flags / FlagFullscreen) % 2 == 1
  }

  /** The status bar height read at construction: the dimension when the
      resource exists (id > 0), otherwise 0. */
  function StatusBarHeight(resourceId: int, dimension: int): (h: int)
    ensures resourceId <= 0 ==> h == 0
    ensures resourceId > 0 ==> h == dimension
  {
    if resourceId > 0 then dimension else 0
  }

  /** The watcher's state. `attached` holds while the watcher is registered as
      the content view's global-layout listener; it and `hasListener` turn false
      when the watched activity is destroyed. */
  datatype Watcher = Watcher(isOpen: bool, statusBarHeight: int, hasListener: bool, attached: bool)

  /** The constructor: registered for layouts, closed, with no listener. */
  function Create(statusBarHeight: int): (w: Watcher)
    ensures !w.isOpen && w.hasListener == false && w.attached && w.statusBarHeight == statusBarHeight
  {
    Watcher(false, statusBarHeight, false, true)
  }

  datatype Event = Opened(height: int) | Closed

  /** A global layout of the content view: `rootHeight` is the root view's
      height and `visibleTop`, `visibleBottom` the visible display frame. A
      detached watcher is not called at all; otherwise `onGlobalLayout()` runs.
      Returns the new state and the callback delivered, if any. */
  function OnGlobalLayout(w: Watcher, rootHeight: int, visibleTop: int, visibleBottom: int, flags: int): (r: (Watcher, Option<Event>))
    ensures r.0.statusBarHeight == w.statusBarHeight && r.0.hasListener == w.hasListener && r.0.attached == w.attached
    ensures !w.attached ==> r == (w, None)
    ensures w.attached ==> var diff := rootHeight - (visibleBottom - visibleTop);
      var quarter := TruncDiv(rootHeight, 4);
      && (r.0.isOpen && !w.isOpen <==> diff > quarter && !w.isOpen)
      && (!r.0.isOpen && w.isOpen <==> diff < quarter && w.isOpen)
      && (r.1.Some? ==> w.hasListener && r.0.isOpen != w.isOpen)
      && (w.hasListener && r.0.isOpen != w.isOpen ==> r.1.Some?)
      && (r.1.Some? && r.1.value.Opened? ==>
            r.1.value.height == (if IsFullscreen(flags) then diff else diff - w.statusBarHeight))
      && (r.1.Some? ==> (r.1.value.Opened? <==> r.0.isOpen))
  {
    var diff := rootHeight - (visibleBottom - visibleTop);
    var quarter := TruncDiv(rootHeight, 4);
    if !w.attached then (w, None)
    else if !w.isOpen && diff > quarter then
      var height := if !IsFullscreen(flags) then diff - w.statusBarHeight else diff;
      (w.(isOpen := true), if w.hasListener then Some(Opened(height)) else None)
    else if w.isOpen && diff < quarter then
      (w.(isOpen := false), if w.hasListener then Some(Closed) else None)
    else (w, None)
  }

  /** A layout whose height difference is exactly a quarter of the root
      height never changes the state or reports anything. */
  lemma QuarterIsDeadBand(w: Watcher, rootHeight: int, visibleTop: int, visibleBottom: int, flags: int)
    requires rootHeight - (visibleBottom - visibleTop) == TruncDiv(rootHeight, 4)
    ensures OnGlobalLayout(w, rootHeight, visibleTop, visibleBottom, flags) == (w, None)
  {
  }

  /** The same layout seen twice reports at most once: the second pass finds
      the state already switched. */
  lemma RepeatedLayoutReportsOnce(w: Watcher, rootHeight: int, visibleTop: int, visibleBottom: int, flags: int)
    ensures var w1 := OnGlobalLayout(w, rootHeight, visibleTop, visibleBottom, flags).0;
      OnGlobalLayout(w1, rootHeight, visibleTop, visibleBottom, flags) == (w1, None)
  {
  }

  /** `setListener`. */
  function SetListener(w: Watcher, present: bool): (r: Watcher)
    ensures r.hasListener == present && r.isOpen == w.isOpen && r.attached == w.attached
  {
    w.(hasListener := present)
  }

  /** `onActivityDestroyed(activity)`: for the watched activity (`watched`) the
      layout listener is removed and the listener dropped; any other activity
      is ignored. */
  function OnActivityDestroyed(w: Watcher, watched: bool): (r: Watcher)
    ensures !watched ==> r == w
    ensures watched ==> !r.hasListener && !r.attached && r.isOpen == w.isOpen
    ensures watched ==> forall rh, top, bottom, flags :: OnGlobalLayout(r, rh, top, bottom, flags) == (r, None)
  {
    if watched then w.(hasListener := false, attached := false) else w
  }

  /** Once the watched activity is destroyed, a listener set again afterwards
      never hears from the watcher: it no longer receives layouts. */
  lemma DestroyedWatcherStaysSilent(w: Watcher, present: bool, rh: int, top: int, bottom: int, flags: int)
    ensures var d := SetListener(OnActivityDestroyed(w, true), present);
      OnGlobalLayout(d, rh, top, bottom, flags) == (d, None)
  {
  }
}

=== FILE: main_activity.dfy ===
/** The kiosk screen (`MainActivity`): matching a scanned card against known
    numbers, decoding temperature frames from the serial thermometer, and the
    reaction to a detected face. */
module MainActivity {
  import opened Common

  /** A Kotlin `Byte` as its unsigned bit pattern. */
  newtype byte = x: int | 0 <= x < 256

  /** `findMatch(s, strings)`: the first listed string that occurs in `s`. */
  function FindMatch(s: string, strings: seq<string>): (r: Option<string>)
    ensures r.None? <==> forall j | 0 <= j < |strings| :: !Contains(s, strings[j])
    ensures r.Some? ==> exists i | 0 <= i < |strings| ::
      && strings[i] == r.value && Contains(s, strings[i])
      && forall j | 0 <= j < i :: !Contains(s, strings[j])
    decreases |strings|
  {
    if |strings| == 0 then None
    else if Contains(s, strings[0]) then Some(strings[0])
    else
      var r := FindMatch(s, strings[1..]);
      assert forall j | 1 <= j < |strings| :: strings[j] == strings[1..][j - 1];
      r
  }

  /** Searching a list in two parts: the second part is consulted only when the
      first has no match. */
  lemma {:induction false} FindMatchAppend(s: string, xs: seq<string>, ys: seq<string>)
    ensures FindMatch(s, xs + ys) == if FindMatch(s, xs).Some? then FindMatch(s, xs) else FindMatch(s, ys)
    decreases |xs|
  {
    if |xs| == 0 {
      assert xs + ys == ys;
    } else {
      assert (xs + ys)[0] == xs[0];
      assert (xs + ys)[1..] == xs[1..] + ys;
      FindMatchAppend(s, xs[1..], ys);
    }
  }

  /** The empty string occurs in every string, so a list holding it always matches. */
  lemma EmptyStringAlwaysMatches(s: string, strings: seq<string>)
    requires "" in strings
    ensures FindMatch(s, strings).Some?
  {
    var i :| 0 <= i < |strings| && strings[i] == "";
    assert OccursAt(s, "", 0);
  }

  /** A serial frame carries a reading when it is longer than four bytes and
      starts with the header 0xA5 0x55. */
  predicate IsReading(frame: seq<byte>) {
    |frame| > 4 && frame[0] == 0xA5 && frame[1] == 0x55
  }

  /** Kotlin's `Byte` to `Int` conversion: two's-complement sign extension. */
  function Signed(b: byte): (r: int)
    ensures -128 <= r < 128
    ensures (r - b as int) % 256 == 0
    ensures b < 0x80 ==> r == b as int
  {
    if b < 0x80 then b as int else b as int - 256
  }

  /** `it[2] + 256 * it[3]`: both bytes sign-extended, the low byte included. */
  function RawTemperatureAsWritten(frame: seq<byte>): (r: int)
    requires |frame| > 4
    ensures frame[2] < 0x80 ==> r == frame[2] as int + 256 * Signed(frame[3])
    ensures frame[2] >= 0x80 ==> r == frame[2] as int + 256 * Signed(frame[3]) - 256
  {
    Signed(frame[2]) + 256 * Signed(frame[3])
  }

  /** The reading as a little-endian signed 16-bit number: low byte unsigned,
      high byte carrying the sign. */
  function RawTemperature(frame: seq<byte>): (r: int)
    requires |frame| > 4
    ensures -0x8000 <= r < 0x8000
    ensures (r - (frame[2] as int + 256 * frame[3] as int)) % 0x1_0000 == 0
  {
    frame[2] as int + 256 * Signed(frame[3])
  }

  /** Hundredths of a degree as the thermometer's two data bytes, low byte first. */
  function EncodeTemperature(t: int): (r: (byte, byte))
    requires -0x8000 <= t < 0x8000
  {
    var u := if t < 0 then t + 0x1_0000 else t;
    ((u % 256) as byte, (u / 256) as byte)
  }

  /** Every 16-bit reading survives the round trip through the frame. */
  lemma TemperatureRoundTrip(t: int, tail: seq<byte>)
    requires -0x8000 <= t < 0x8000 && |tail| >= 1
    ensures var (lo, hi) := EncodeTemperature(t);
      RawTemperature([0xA5, 0x55, lo, hi] + tail) == t
  {
    var (lo, hi) := EncodeTemperature(t);
    var u := if t < 0 then t + 0x1_0000 else t;
    assert lo as int == u % 256 && hi as int == u / 256;
    assert Signed(hi) == if t < 0 then u / 256 - 256 else u / 256;
    var f := [0xA5, 0x55, lo, hi] + tail;
    assert f[2] == lo && f[3] == hi;
  }

  /** What the screen does with a serial frame: a non-reading clears the text;
      a reading cancels the pending restart and shows the temperature. Above
      37.2 °C (`fever`) the text turns red, the failure sound plays, the LED turns
      red and detection restarts after three seconds; otherwise the text turns
      green and the card-number dialog opens. */
  datatype Display = Cleared | Shows(hundredths: int, fever: bool)

  /** The reaction to a reading of `t` hundredths: `t / 100.0 > 37.2`. */
  function ShowReading(t: int): (r: Display)
    ensures r.Shows? && r.hundredths == t
    ensures r.fever <==> t > 3720
  {
    Shows(t, t as real / 100.0 > 37.2)
  }

  /** `onDataReceived` as written: the reading is `it[2] + 256 * it[3]`, with the
      low byte sign-extended. */
  function OnSerialDataAsWritten(frame: seq<byte>): (r: Display)
    ensures r == Cleared <==> !IsReading(frame)
    ensures IsReading(frame) ==> r.hundredths == RawTemperatureAsWritten(frame)
  {
    if IsReading(frame) then ShowReading(RawTemperatureAsWritten(frame)) else Cleared
  }

  /** `onDataReceived` with the reading taken as the little-endian 16-bit value. */
  function OnSerialData(frame: seq<byte>): (r: Display)
    ensures r == Cleared <==> !IsReading(frame)
    ensures IsReading(frame) ==> r.hundredths == RawTemperature(frame)
  {
    if IsReading(frame) then ShowReading(RawTemperature(frame)) else Cleared
  }

  /** The program as written and the corrected reading agree exactly on the
      frames whose low data byte is below 0x80; on the others the shown value is
      256 hundredths too low. */
  lemma ReadingsAgreeBelow0x80(frame: seq<byte>)
    requires IsReading(frame)
    ensures OnSerialDataAsWritten(frame) == OnSerialData(frame) <==> frame[2] < 0x80
    ensures frame[2] >= 0x80 ==>
      OnSerialDataAsWritten(frame).hundredths == OnSerialData(frame).hundredths - 256
  {
  }

  /** 38.00 °C is sent as 0xD8 0x0E; the sign-extended low byte turns it into
      35.44 °C, below the 37.2 °C alarm, so the fever goes unreported. */
  lemma SignExtendedLowByteMisreads()
    ensures var f: seq<byte> := [0xA5, 0x55, 0xD8, 0x0E, 0x00];
      && IsReading(f)
      && RawTemperature(f) == 3800
      && RawTemperatureAsWritten(f) == 3544
      && OnSerialData(f) == Shows(3800, true)
      && OnSerialDataAsWritten(f) == Shows(3544, false)
  {
  }

  /** Frames of four bytes or fewer, including the command this screen sends,
      never count as a reading. */
  lemma ShortFramesAreIgnored(frame: seq<byte>)
    requires |frame| <= 4
    ensures OnSerialData(frame) == Cleared && OnSerialDataAsWritten(frame) == Cleared
  {
  }

  /** The command that asks the thermometer for a reading. */
  const TemperatureCommand: seq<byte> := [0xA5, 0x55, 0x01, 0xFB]

  /** What `detectionFace(nv21, maskInfo, ...)` does besides updating the screen. */
  datatype Reaction = Reaction(pauseDetection: bool, sent: Option<seq<byte>>, restartAfter: Option<int>, uploadPhoto: bool)

  /** Detection is always paused; with a mask (`maskInfo == 1`) the thermometer
      is asked for a reading and detection restarts after five seconds,
      otherwise the photo is converted and uploaded. */
  function DetectionFace(maskInfo: int): (r: Reaction)
    ensures r.pauseDetection
    ensures r.sent.Some? <==> maskInfo == 1
    ensures r.sent.Some? ==> r.sent.value == TemperatureCommand && r.restartAfter == Some(5000)
    ensures r.uploadPhoto <==> maskInfo != 1
  {
    if maskInfo == 1 then Reaction(true, Some(TemperatureCommand), Some(5000), false)
    else Reaction(true, None, None, true)
  }

  /** The command this screen sends is itself too short to be taken for a reading. */
  lemma CommandIsNotAReading(maskInfo: int)
    requires DetectionFace(maskInfo).sent.Some?
    ensures OnSerialData(DetectionFace(maskInfo).sent.value) == Cleared
    ensures OnSerialDataAsWritten(DetectionFace(maskInfo).sent.value) == Cleared
  {
  }
}

=== FILE: nv21.dfy ===
/** NV21 frame rotations (`NV21Util`). An NV21 frame `w` pixels wide and `h`
    high is a luma plane of `w * h` bytes, one per pixel in row-major order,
    followed by `h / 2` rows of interleaved chroma pairs. Every rotation writes a
    new zero-initialised buffer of `w * h * 3 / 2` bytes. */
module Nv21 {

  import opened Common

  type byte = bv8

  /** `n * 3 / 2`: the buffer length each rotation allocates for `n == w * h`. */
  function Size(n: nat): nat {
    n * 3 / 2
  }

  /** A position inside a plane of `w * h` bytes has row `k / h < w` when the
      plane is read `h` bytes per row. */
  lemma DivBelow(k: nat, h: nat, w: nat)
    requires k < w * h
    ensures h > 0 && k / h < w
  {
    if h > 0 && k / h >= w {
      MulLe(w, k / h, h);
    }
  }

  /** Row-major index of column `col` in row `row` of a plane `width` bytes wide. */
  function At(width: nat, rows: nat, col: nat, row: nat): (r: nat)
    requires col < width && row < rows
    ensures r < width * rows
  {
    Below(row, col, rows, width);
    row * width + col
  }

  /** A frame with `w/2 * h/2` chroma pairs has room for them after its luma plane. */
  lemma ChromaFits(w: nat, h: nat)
    ensures Size(w * h) - w * h == w * h / 2
    ensures 2 * ((w / 2) * (h / 2)) <= w * h / 2
  {
    var a, b := w / 2, h / 2;
    MulLe(2 * a, w, h);
    MulLe(2 * b, h, 2 * a);
    assert 2 * a * (2 * b) == 4 * (a * b);
  }

  /** Input position of the chroma byte in column `col` of chroma row `row`. */
  function ChromaAt(w: nat, h: nat, col: nat, row: nat): (r: nat)
    requires col < w && row < h / 2
    ensures w * h <= r < w * h + (h / 2) * w
  {
    w * h + At(w, h / 2, col, row)
  }

  // ---------------------------------------------------------------- 90 degrees

  /** Where the 90° rotation reads luma output byte `k` from: output row `k / h`
      is input column `k / h`, read bottom to top. */
  function LumaSrc90(w: nat, h: nat, k: nat): (r: nat)
    requires k < w * h
    ensures r < w * h
  {
    DivBelow(k, h, w);
    At(w, h, k / h, h - 1 - k % h)
  }

  /** Output position of the first byte written for chroma pair `y` of the
      `t`-th odd column counted from the right (`x == w - 1 - 2 * t`); the
      second byte goes just below it. */
  function ChromaDst90(w: nat, h: nat, t: nat, y: nat): (r: nat)
    requires t < w / 2 && y < h / 2
    ensures w * h + 1 <= r < Size(w * h)
  {
    ChromaFits(w, h);
    Below(t, y, w / 2, h / 2);
    Size(w * h) - 1 - 2 * (t * (h / 2) + y)
  }

  /** Where the 90° rotation's chroma bytes begin: after the luma plane and,
      for odd sizes, a run of bytes it never writes. */
  function ChromaStart90(w: nat, h: nat): (r: nat)
    ensures w * h <= r <= Size(w * h)
  {
    ChromaFits(w, h);
    Size(w * h) - 2 * ((w / 2) * (h / 2))
  }

  /** The chroma pair, counted from the end of the buffer, that output byte `k`
      of the 90° rotation belongs to. */
  function PairFromEnd90(w: nat, h: nat, k: nat): (p: nat)
    requires ChromaStart90(w, h) <= k < Size(w * h)
    ensures p < (w / 2) * (h / 2)
  {
    (Size(w * h) - 1 - k) / 2
  }

  /** Pair `p` of a block of `a` columns of `b` pairs lies in column `p / b`. */
  function ColumnOf(p: nat, a: nat, b: nat): (t: nat)
    requires p < a * b
    ensures b > 0 && t < a
  {
    DivBelow(p, b, a);
    p / b
  }

  /** Where the 90° rotation reads chroma output byte `k` from. */
  function ChromaSrc90(w: nat, h: nat, k: nat): (r: nat)
    requires ChromaStart90(w, h) <= k < Size(w * h)
    ensures w * h <= r < w * h + (h / 2) * w
  {
    var p := PairFromEnd90(w, h, k);
    var t := ColumnOf(p, w / 2, h / 2);
    ChromaAt(w, h, w - 1 - 2 * t - (Size(w * h) - 1 - k) % 2, p % (h / 2))
  }

  lemma LumaSrc90At(w: nat, h: nat, x: nat, y: nat)
    requires x < w && y < h
    ensures At(h, w, h - 1 - y, x) < w * h
    ensures LumaSrc90(w, h, At(h, w, h - 1 - y, x)) == At(w, h, x, y)
  {
    DivMod(x, h - 1 - y, h);
  }

  lemma ChromaSrc90At(w: nat, h: nat, t: nat, y: nat)
    requires t < w / 2 && y < h / 2
    ensures ChromaStart90(w, h) < ChromaDst90(w, h, t, y)
    ensures ChromaSrc90(w, h, ChromaDst90(w, h, t, y)) == ChromaAt(w, h, w - 1 - 2 * t, y)
    ensures ChromaSrc90(w, h, ChromaDst90(w, h, t, y) - 1) == ChromaAt(w, h, w - 2 - 2 * t, y)
  {
    var b := h / 2;
    Below(t, y, w / 2, b);
    DivMod(t, y, b);
    var p := t * b + y;
    var k := ChromaDst90(w, h, t, y);
    assert Size(w * h) - 1 - k == 2 * p;
    assert (2 * p) / 2 == p && (2 * p) % 2 == 0;
    assert Size(w * h) - 1 - (k - 1) == 2 * p + 1;
    assert (2 * p + 1) / 2 == p && (2 * p + 1) % 2 == 1;
    assert p / b == t && p % b == y;
  }

  /** `rotateYUV420Degree90`: luma pixel (x, y) moves to column `h - 1 - y` of
      row `x`; chroma is written backwards from the end, the pair at row `y` and
      columns `x - 1, x` of every odd `x` counted down from `w - 1`, the byte at
      `x` first. Positions left over between the planes (odd sizes) stay zero. */
  method Rotate90(data: array<byte>, w: nat, h: nat) returns (out: array<byte>)
    requires data.Length >= w * h && (w >= 2 ==> data.Length >= w * h + (h / 2) * w)
    ensures out.Length == Size(w * h)
    ensures forall x, y | 0 <= x < w && 0 <= y < h ::
      out[At(h, w, h - 1 - y, x)] == data[At(w, h, x, y)]
    ensures forall t, y | 0 <= t < w / 2 && 0 <= y < h / 2 ::
      && out[ChromaDst90(w, h, t, y)] == data[ChromaAt(w, h, w - 1 - 2 * t, y)]
      && out[ChromaDst90(w, h, t, y) - 1] == data[ChromaAt(w, h, w - 2 - 2 * t, y)]
    ensures forall k | w * h <= k < ChromaStart90(w, h) :: out[k] == 0
  {
    ChromaFits(w, h);
    assert 0 <= (h / 2) * w;
    out := new byte[Size(w * h)](_ => 0);
    LumaPass90(data, out, w, h);
    ChromaPass90(data, out, w, h);
    Luma90Pixels(out, data, w, h);
    Chroma90Pairs(out, data, w, h);
  }

  /** The luma positions of `LumaPass90`, restated pixel by pixel. */
  lemma Luma90Pixels(o: array<byte>, d: array<byte>, w: nat, h: nat)
    requires o.Length == Size(w * h) && h * w <= o.Length && d.Length >= w * h
    requires forall k | 0 <= k < w * h :: o[k] == d[LumaSrc90(w, h, k)]
    ensures forall x, y | 0 <= x < w && 0 <= y < h :: o[At(h, w, h - 1 - y, x)] == d[At(w, h, x, y)]
  {
    forall x, y | 0 <= x < w && 0 <= y < h
      ensures o[At(h, w, h - 1 - y, x)] == d[At(w, h, x, y)]
    {
      Luma90Pixel(o, d, w, h, x, y);
    }
  }

  /** One pixel of `Luma90Pixels`. */
  lemma Luma90Pixel(o: array<byte>, d: array<byte>, w: nat, h: nat, x: nat, y: nat)
    requires h * w <= o.Length && d.Length >= w * h
    requires forall k | 0 <= k < w * h :: o[k] == d[LumaSrc90(w, h, k)]
    requires x < w && y < h
    ensures o[At(h, w, h - 1 - y, x)] == d[At(w, h, x, y)]
  {
    var k := At(h, w, h - 1 - y, x);
    LumaSrc90At(w, h, x, y);
    assert o[k] == d[LumaSrc90(w, h, k)];
  }

  /** The chroma positions of `ChromaPass90`, restated pair by pair. */
  lemma Chroma90Pairs(o: array<byte>, d: array<byte>, w: nat, h: nat)
    requires o.Length == Size(w * h) && d.Length >= w * h && (w >= 2 ==> d.Length >= w * h + (h / 2) * w)
    requires forall k | ChromaStart90(w, h) <= k < Size(w * h) :: o[k] == d[ChromaSrc90(w, h, k)]
    ensures forall t, y | 0 <= t < w / 2 && 0 <= y < h / 2 ::
      && o[ChromaDst90(w, h, t, y)] == d[ChromaAt(w, h, w - 1 - 2 * t, y)]
      && o[ChromaDst90(w, h, t, y) - 1] == d[ChromaAt(w, h, w - 2 - 2 * t, y)]
  {
    forall t, y | 0 <= t < w / 2 && 0 <= y < h / 2
      ensures o[ChromaDst90(w, h, t, y)] == d[ChromaAt(w, h, w - 1 - 2 * t, y)]
      ensures o[ChromaDst90(w, h, t, y) - 1] == d[ChromaAt(w, h, w - 2 - 2 * t, y)]
    {
      Chroma90Pair(o, d, w, h, t, y);
    }
  }

  /** One pair of `Chroma90Pairs`. */
  lemma Chroma90Pair(o: array<byte>, d: array<byte>, w: nat, h: nat, t: nat, y: nat)
    requires o.Length == Size(w * h) && d.Length >= w * h && (w >= 2 ==> d.Length >= w * h + (h / 2) * w)
    requires forall k | ChromaStart90(w, h) <= k < Size(w * h) :: o[k] == d[ChromaSrc90(w, h, k)]
    requires t < w / 2 && y < h / 2
    ensures o[ChromaDst90(w, h, t, y)] == d[ChromaAt(w, h, w - 1 - 2 * t, y)]
    ensures o[ChromaDst90(w, h, t, y) - 1] == d[ChromaAt(w, h, w - 2 - 2 * t, y)]
  {
    var k := ChromaDst90(w, h, t, y);
    ChromaSrc90At(w, h, t, y);
    assert o[k] == d[ChromaSrc90(w, h, k)];
    assert o[k - 1] == d[ChromaSrc90(w, h, k - 1)];
  }

  /** The first loop of `rotateYUV420Degree90`: columns left to right, each
      read bottom to top. */
  method LumaPass90(data: array<byte>, out: array<byte>, w: nat, h: nat)
    requires out != data && out.Length == Size(w * h) && data.Length >= w * h
    modifies out
    ensures forall k | 0 <= k < w * h :: out[k] == data[LumaSrc90(w, h, k)]
    ensures forall k | w * h <= k < out.Length :: out[k] == old(out[k])
  {
    var i := 0;
    var x := 0;
    while x < w
      invariant 0 <= x <= w && i == x * h && i <= w * h
      invariant forall k | i <= k < out.Length :: out[k] == old(out[k])
      invariant forall k | 0 <= k < i :: out[k] == data[LumaSrc90(w, h, k)]
    {
      MulLe(x + 1, w, h);
      assert (x + 1) * h == i + h;
      LumaColumn90(data, out, w, h, x, i);
      i := i + h;
      x := x + 1;
    }
  }

  /** One iteration of that loop: input column `x`, read bottom to top, fills
      the `h` output bytes from `base`. */
  method LumaColumn90(data: array<byte>, out: array<byte>, w: nat, h: nat, x: nat, base: nat)
    requires out != data && out.Length == Size(w * h) && data.Length >= w * h
    requires x < w && base == x * h && base + h <= w * h
    modifies out
    ensures forall k | 0 <= k < base :: out[k] == old(out[k])
    ensures forall k | base <= k < base + h :: out[k] == data[LumaSrc90(w, h, k)]
    ensures forall k | base + h <= k < out.Length :: out[k] == old(out[k])
  {
    assert w * h <= Size(w * h);
    var i := base;
    var y: int := h - 1;
    while y >= 0
      invariant -1 <= y < h && i == base + (h - 1 - y)
      invariant forall k | 0 <= k < base :: out[k] == old(out[k])
      invariant forall k | base <= k < i :: out[k] == data[LumaSrc90(w, h, k)]
      invariant forall k | i <= k < out.Length :: out[k] == old(out[k])
    {
      LumaSrc90At(w, h, x, y);
      assert i == At(h, w, h - 1 - y, x);
      out[i] := data[At(w, h, x, y)];
      i := i + 1;
      y := y - 1;
    }
  }

  /** The second loop of `rotateYUV420Degree90`: odd columns right to left,
      chroma rows top to bottom, written from the end of the buffer backwards. */
  method ChromaPass90(data: array<byte>, out: array<byte>, w: nat, h: nat)
    requires out != data && out.Length == Size(w * h)
    requires data.Length >= w * h && (w >= 2 ==> data.Length >= w * h + (h / 2) * w)
    modifies out
    ensures forall k | 0 <= k < ChromaStart90(w, h) :: out[k] == old(out[k])
    ensures forall k | ChromaStart90(w, h) <= k < out.Length :: out[k] == data[ChromaSrc90(w, h, k)]
  {
    var a, b := w / 2, h / 2;
    var t := 0;
    var base := Size(w * h);
    assert ChromaStart90(w, h) <= base;
    var col: int := w - 1;
    while col > 0
      invariant 0 <= t <= a && col == w - 1 - 2 * t && base == Size(w * h) - 2 * (t * b)
      invariant ChromaStart90(w, h) <= base <= Size(w * h) && (base < Size(w * h) ==> w >= 2)
      invariant forall k | 0 <= k < base :: out[k] == old(out[k])
      invariant forall k | base <= k < Size(w * h) :: out[k] == data[ChromaSrc90(w, h, k)]
      decreases col
    {
      ColumnRange(w, h, t);
      assert w >= 2 && data.Length >= w * h + b * w;
      ChromaColumn90(data, out, w, h, t, base);
      base := base - 2 * b;
      t := t + 1;
      col := col - 2;
    }
    assert t == a;
  }

  /** The bytes written for column `t` lie between the chroma start and the
      bytes of the columns before it. */
  lemma ColumnRange(w: nat, h: nat, t: nat)
    requires t < w / 2
    ensures ChromaStart90(w, h) <= Size(w * h) - 2 * ((t + 1) * (h / 2))
    ensures (t + 1) * (h / 2) == t * (h / 2) + h / 2
  {
    MulLe(t + 1, w / 2, h / 2);
  }

  /** Chroma row `y` of column `t`, whose bytes end at `base`. */
  lemma ColumnPair(w: nat, h: nat, t: nat, y: nat, base: int)
    requires t < w / 2 && y < h / 2 && base == Size(w * h) - 2 * (t * (h / 2))
    ensures ChromaStart90(w, h) < base - 1 - 2 * y < Size(w * h)
    ensures ChromaSrc90(w, h, base - 1 - 2 * y) == ChromaAt(w, h, w - 1 - 2 * t, y)
    ensures ChromaSrc90(w, h, base - 2 - 2 * y) == ChromaAt(w, h, w - 2 - 2 * t, y)
  {
    ChromaSrc90At(w, h, t, y);
    assert ChromaDst90(w, h, t, y) == base - 1 - 2 * y;
  }

  /** One iteration of that loop: the chroma pairs of odd column `w - 1 - 2 * t`,
      written downwards from `base`. */
  method ChromaColumn90(data: array<byte>, out: array<byte>, w: nat, h: nat, t: nat, base: int)
    requires out != data && out.Length == Size(w * h)
    requires w >= 2 && data.Length >= w * h + (h / 2) * w
    requires t < w / 2 && base == Size(w * h) - 2 * (t * (h / 2))
    requires ChromaStart90(w, h) <= base - 2 * (h / 2) && base <= out.Length
    modifies out
    ensures forall k | 0 <= k < base - 2 * (h / 2) :: out[k] == old(out[k])
    ensures forall k | base - 2 * (h / 2) <= k < base :: out[k] == data[ChromaSrc90(w, h, k)]
    ensures forall k | base <= k < out.Length :: out[k] == old(out[k])
  {
    var b := h / 2;
    var i := base - 1;
    var y := 0;
    while y < b
      invariant 0 <= y <= b && i == base - 1 - 2 * y
      invariant forall k | 0 <= k <= i :: out[k] == old(out[k])
      invariant forall k | i < k < base :: out[k] == data[ChromaSrc90(w, h, k)]
      invariant forall k | base <= k < out.Length :: out[k] == old(out[k])
    {
      ChromaRow90(data, out, w, h, t, y, base);
      i := i - 2;
      y := y + 1;
    }
  }

  /** The two bytes of chroma row `y` in column `t`: the byte at the odd
      column first, then its left neighbour just below it. */
  method ChromaRow90(data: array<byte>, out: array<byte>, w: nat, h: nat, t: nat, y: nat, base: int)
    requires out != data && out.Length == Size(w * h)
    requires w >= 2 && data.Length >= w * h + (h / 2) * w
    requires t < w / 2 && y < h / 2 && base == Size(w * h) - 2 * (t * (h / 2))
    modifies out
    ensures ChromaStart90(w, h) < base - 1 - 2 * y < Size(w * h)
    ensures out[base - 1 - 2 * y] == data[ChromaSrc90(w, h, base - 1 - 2 * y)]
    ensures out[base - 2 - 2 * y] == data[ChromaSrc90(w, h, base - 2 - 2 * y)]
    ensures forall k | 0 <= k < out.Length && k != base - 1 - 2 * y && k != base - 2 - 2 * y :: out[k] == old(out[k])
  {
    ColumnPair(w, h, t, y, base);
    var hi := ChromaAt(w, h, w - 1 - 2 * t, y);
    var lo := ChromaAt(w, h, w - 2 - 2 * t, y);
    out[base - 1 - 2 * y] := data[hi];
    out[base - 2 - 2 * y] := data[lo];
  }

  // --------------------------------------------------------------- 180 degrees

  /** Where the 180° rotation of an `n`-pixel frame reads output byte `k` from:
      the luma plane reversed, then the chroma pairs in reverse order with each
      pair's two bytes kept in order. The chroma part must hold whole pairs. */
  function Src180(n: nat, k: nat): (r: nat)
    requires (n / 2) % 2 == 0 && k < Size(n)
    ensures r < Size(n)
    ensures k < n <==> r < n
  {
    if k < n then n - 1 - k
    else Size(n) - 2 - 2 * ((k - n) / 2) + (k - n) % 2
  }

  /** Position of the first byte of the `m`-th chroma pair of an `n`-pixel frame. */
  function Pair(n: nat, m: nat): (r: nat)
    requires m < n / 2 / 2
    ensures n <= r && r + 1 < Size(n)
  {
    n + 2 * m
  }

  /** The 180° rotation as a sequence: it depends on the frame's dimensions only
      through its pixel count. */
  function Rot180(d: seq<byte>, n: nat): (r: seq<byte>)
    requires (n / 2) % 2 == 0 && |d| >= Size(n)
    ensures |r| == Size(n)
  {
    seq(Size(n), k requires 0 <= k < Size(n) => d[Src180(n, k)])
  }

  lemma Src180Pair(n: nat, m: nat)
    requires (n / 2) % 2 == 0 && m < n / 2 / 2
    ensures Src180(n, Pair(n, m)) == Size(n) - 2 - 2 * m
    ensures Src180(n, Pair(n, m) + 1) == Size(n) - 1 - 2 * m
  {
    assert (2 * m) / 2 == m && (2 * m + 1) / 2 == m;
  }

  lemma Src180Twice(n: nat, k: nat)
    requires (n / 2) % 2 == 0 && k < Size(n)
    ensures Src180(n, Src180(n, k)) == k
  {
    if k >= n {
      var j := k - n;
      var j2 := Src180(n, k) - n;
      assert j2 == n / 2 - 2 - 2 * (j / 2) + j % 2;
      assert j2 / 2 == n / 2 / 2 - 1 - j / 2 && j2 % 2 == j % 2;
    }
  }

  /** Rotating by 180° twice gives back the frame's `Size(n)` leading bytes. */
  lemma Rot180Twice(d: seq<byte>, n: nat)
    requires (n / 2) % 2 == 0 && |d| >= Size(n)
    ensures Rot180(Rot180(d, n), n) == d[..Size(n)]
  {
    var r1 := Rot180(d, n);
    var r2 := Rot180(r1, n);
    forall k | 0 <= k < Size(n) ensures r2[k] == d[k] {
      Src180Twice(n, k);
    }
  }

  /** Even width and height give a chroma part made of whole pairs. */
  lemma EvenFrameHasWholePairs(w: nat, h: nat)
    requires w % 2 == 0 && h % 2 == 0
    ensures (w * h / 2) % 2 == 0
  {
    var a, b := w / 2, h / 2;
    assert w * h == 4 * (a * b);
  }

  /** For even `w` and `h`, `rotateYUV420Degree180` applied twice restores the
      frame. */
  lemma Rotate180Involution(d: seq<byte>, w: nat, h: nat)
    requires w % 2 == 0 && h % 2 == 0 && |d| >= Size(w * h)
    ensures (w * h / 2) % 2 == 0
    ensures Rot180(Rot180(d, w * h), w * h) == d[..Size(w * h)]
  {
    EvenFrameHasWholePairs(w, h);
    Rot180Twice(d, w * h);
  }

  /** `rotateYUV420Degree180`: the luma bytes in reverse, then the chroma pairs
      from last to first, each pair's bytes in their original order. The
      function writes two bytes per pair, so it needs the chroma part to hold
      an even number of bytes; otherwise its last write falls past the buffer. */
  method Rotate180(data: array<byte>, w: nat, h: nat) returns (out: array<byte>)
    requires (w * h / 2) % 2 == 0 && data.Length >= Size(w * h)
    ensures out[..] == Rot180(data[..], w * h)
    ensures forall k | 0 <= k < w * h :: out[k] == data[w * h - 1 - k]
    ensures forall m | 0 <= m < w * h / 2 / 2 ::
      && out[Pair(w * h, m)] == data[Size(w * h) - 2 - 2 * m]
      && out[Pair(w * h, m) + 1] == data[Size(w * h) - 1 - 2 * m]
  {
    out := Reverse180(data, w * h);
    Rot180Positions(out, data, w * h);
  }

  /** The two loops of `rotateYUV420Degree180`, which use only the pixel count. */
  method Reverse180(data: array<byte>, n: nat) returns (out: array<byte>)
    requires (n / 2) % 2 == 0 && data.Length >= Size(n)
    ensures out.Length == Size(n)
    ensures forall k | 0 <= k < Size(n) :: out[k] == data[Src180(n, k)]
  {
    out := new byte[Size(n)](_ => 0);
    var count := 0;
    var i: int := n - 1;
    while i >= 0
      invariant -1 <= i < n && count == n - 1 - i
      invariant forall k | 0 <= k < count :: out[k] == data[Src180(n, k)]
    {
      out[count] := data[i];
      count := count + 1;
      i := i - 1;
    }
    ChromaReverse180(data, out, n);
  }

  /** Output bytes `n + 2 * j` and `n + 2 * j + 1` come from the `j`-th pair
      counted from the end of the buffer. */
  lemma Src180Step(n: nat, j: nat)
    requires (n / 2) % 2 == 0 && 2 * j + 2 <= n / 2
    ensures n + 2 * j + 1 < Size(n)
    ensures Src180(n, n + 2 * j) == Size(n) - 2 - 2 * j
    ensures Src180(n, n + 2 * j + 1) == Size(n) - 1 - 2 * j
  {
    assert (2 * j) / 2 == j && (2 * j) % 2 == 0;
    assert (2 * j + 1) / 2 == j && (2 * j + 1) % 2 == 1;
  }

  /** The second loop of `rotateYUV420Degree180`: the chroma pairs from the
      end of the buffer, each pair kept in order. `j` counts the pairs done. */
  method ChromaReverse180(data: array<byte>, out: array<byte>, n: nat)
    requires out != data && (n / 2) % 2 == 0 && data.Length >= Size(n) && out.Length == Size(n)
    requires forall k | 0 <= k < n :: out[k] == data[Src180(n, k)]
    modifies out
    ensures forall k | 0 <= k < Size(n) :: out[k] == data[Src180(n, k)]
  {
    var count := n;
    var i: int := Size(n) - 1;
    ghost var j: nat := 0;
    assert Size(n) == n + n / 2;
    while i >= n
      invariant 2 * j <= n / 2 && i == Size(n) - 1 - 2 * j && count == n + 2 * j
      invariant forall k | 0 <= k < count :: out[k] == data[Src180(n, k)]
      decreases i
    {
      Src180Step(n, j);
      out[count] := data[i - 1];
      count := count + 1;
      out[count] := data[i];
      count := count + 1;
      i := i - 2;
      j := j + 1;
    }
  }

  /** The positions `Reverse180` fills, restated as the luma and chroma layout. */
  lemma Rot180Positions(o: array<byte>, d: array<byte>, n: nat)
    requires (n / 2) % 2 == 0 && d.Length >= Size(n) && o.Length == Size(n)
    requires forall k | 0 <= k < Size(n) :: o[k] == d[Src180(n, k)]
    ensures o[..] == Rot180(d[..], n)
    ensures forall k | 0 <= k < n :: o[k] == d[n - 1 - k]
    ensures forall m | 0 <= m < n / 2 / 2 ::
      && o[Pair(n, m)] == d[Size(n) - 2 - 2 * m]
      && o[Pair(n, m) + 1] == d[Size(n) - 1 - 2 * m]
  {
    assert o[..] == Rot180(d[..], n);
    forall m | 0 <= m < n / 2 / 2
      ensures o[Pair(n, m)] == d[Size(n) - 2 - 2 * m]
      ensures o[Pair(n, m) + 1] == d[Size(n) - 1 - 2 * m]
    {
      Src180Pair(n, m);
    }
  }

  // --------------------------------------------------------------- 270 degrees

  /** Output position of the first byte of chroma pair `y` of the `t`-th odd
      column from the right, after a 270° rotation. */
  function ChromaDst270(w: nat, h: nat, t: nat, y: nat): (r: nat)
    requires t < w / 2 && y < h / 2
    ensures w * h <= r && r + 1 < Size(w * h)
  {
    ChromaFits(w, h);
    Below(t, y, w / 2, h / 2);
    w * h + 2 * (t * (h / 2) + y)
  }

  /** `rotateYUV420Degree270`: the 180° rotation of the 90° rotation, so pixel
      (x, y) moves to column `y` of row `w - 1 - x`. The function first fills a
      buffer of its own with two loops and then discards it; those loops write
      two chroma bytes per even column, which fits the buffer only when the
      width is even or there is no chroma row, and they read nothing the 90°
      rotation does not. */
  method Rotate270(data: array<byte>, w: nat, h: nat) returns (out: array<byte>)
    requires w % 2 == 0 || h < 2
    requires data.Length >= w * h && (w >= 2 ==> data.Length >= w * h + (h / 2) * w)
    requires (w * h / 2) % 2 == 0
    ensures out.Length == Size(w * h)
    ensures forall x, y | 0 <= x < w && 0 <= y < h :: out[At(h, w, y, w - 1 - x)] == data[At(w, h, x, y)]
    ensures forall t, y | 0 <= t < w / 2 && 0 <= y < h / 2 ::
      && out[ChromaDst270(w, h, t, y)] == data[ChromaAt(w, h, w - 2 - 2 * t, y)]
      && out[ChromaDst270(w, h, t, y) + 1] == data[ChromaAt(w, h, w - 1 - 2 * t, y)]
  {
    var r90 := Rotate90(data, w, h);
    out := Rotate180(r90, w, h);
    Luma270(out, r90, data, w, h);
    Chroma270(out, r90, data, w, h);
  }

  lemma Luma270(o: array<byte>, r: array<byte>, d: array<byte>, w: nat, h: nat)
    requires o.Length == r.Length == Size(w * h) && d.Length >= w * h
    requires forall k | 0 <= k < w * h :: o[k] == r[w * h - 1 - k]
    requires forall x, y | 0 <= x < w && 0 <= y < h :: r[At(h, w, h - 1 - y, x)] == d[At(w, h, x, y)]
    ensures forall x, y | 0 <= x < w && 0 <= y < h :: o[At(h, w, y, w - 1 - x)] == d[At(w, h, x, y)]
  {
    forall x, y | 0 <= x < w && 0 <= y < h
      ensures o[At(h, w, y, w - 1 - x)] == d[At(w, h, x, y)]
    {
      var k := At(h, w, y, w - 1 - x);
      assert w * h - 1 - k == At(h, w, h - 1 - y, x);
    }
  }

  lemma Chroma270(o: array<byte>, r: array<byte>, d: array<byte>, w: nat, h: nat)
    requires o.Length == r.Length == Size(w * h)
    requires d.Length >= w * h && (w >= 2 ==> d.Length >= w * h + (h / 2) * w)
    requires (w * h / 2) % 2 == 0
    requires forall m | 0 <= m < w * h / 2 / 2 ::
      && o[Pair(w * h, m)] == r[Size(w * h) - 2 - 2 * m]
      && o[Pair(w * h, m) + 1] == r[Size(w * h) - 1 - 2 * m]
    requires forall t, y | 0 <= t < w / 2 && 0 <= y < h / 2 ::
      && r[ChromaDst90(w, h, t, y)] == d[ChromaAt(w, h, w - 1 - 2 * t, y)]
      && r[ChromaDst90(w, h, t, y) - 1] == d[ChromaAt(w, h, w - 2 - 2 * t, y)]
    ensures forall t, y | 0 <= t < w / 2 && 0 <= y < h / 2 ::
      && o[ChromaDst270(w, h, t, y)] == d[ChromaAt(w, h, w - 2 - 2 * t, y)]
      && o[ChromaDst270(w, h, t, y) + 1] == d[ChromaAt(w, h, w - 1 - 2 * t, y)]
  {
    forall t, y | 0 <= t < w / 2 && 0 <= y < h / 2
      ensures o[ChromaDst270(w, h, t, y)] == d[ChromaAt(w, h, w - 2 - 2 * t, y)]
      ensures o[ChromaDst270(w, h, t, y) + 1] == d[ChromaAt(w, h, w - 1 - 2 * t, y)]
    {
      var m := Pair270(w, h, t, y);
      assert ChromaDst90(w, h, t, y) - 1 == Size(w * h) - 2 - 2 * m;
    }
  }

  /** Chroma pair `y` of odd column `t` is pair number `t * (h / 2) + y` of the
      frame, which the 180° rotation moves to where the 270° layout expects it. */
  lemma Pair270(w: nat, h: nat, t: nat, y: nat) returns (m: nat)
    requires t < w / 2 && y < h / 2
    ensures m < w * h / 2 / 2
    ensures ChromaDst270(w, h, t, y) == Pair(w * h, m)
    ensures ChromaDst90(w, h, t, y) == Size(w * h) - 1 - 2 * m
  {
    var b := h / 2;
    m := t * b + y;
    Below(t, y, w / 2, b);
    ChromaFits(w, h);
  }
}

=== FILE: presence.dfy ===
/** The presence/count edge detector that `FaceHelper` and `FaceDetect` both run
    on every successfully detected frame (their private `anybody`). */
module Presence {

  /** The two remembered values: `isAnybody` and `detectFaceNum`, initially false and 0. */
  datatype Tracker = Tracker(isAnybody: bool, detectFaceNum: int)

  const Initial: Tracker := Tracker(false, 0)

  /** The callbacks `anybody` can fire: `someone()`, `nobody()` and
      `detectFaceNum(num, faceIds)`. */
  datatype Signal = Someone | Nobody | DetectFaceNum(num: nat, faceIds: seq<int>)

  /** `anybody(faceInfoList)` over the frame's face ids, in list order.
      Presence is reported only when it differs from the remembered flag and the
      count only when it differs from the remembered count; afterwards both
      remembered values describe this frame. */
  function Anybody(t: Tracker, ids: seq<int>): (r: (Tracker, seq<Signal>))
    ensures r.0 == Tracker(|ids| > 0, |ids|)
    ensures Someone in r.1 <==> !t.isAnybody && |ids| > 0
    ensures Nobody in r.1 <==> t.isAnybody && |ids| == 0
    ensures DetectFaceNum(|ids|, ids) in r.1 <==> t.detectFaceNum != |ids|
    ensures forall k :: 0 <= k < |r.1| && r.1[k].DetectFaceNum? ==> k == |r.1| - 1 && r.1[k] == DetectFaceNum(|ids|, ids)
    ensures |r.1| <= 2
  {
    var anybody := |ids| > 0;
    var presence := if t.isAnybody != anybody then (if anybody then [Someone] else [Nobody]) else [];
    var count := if t.detectFaceNum != |ids| then [DetectFaceNum(|ids|, ids)] else [];
    (Tracker(anybody, |ids|), presence + count)
  }

  /** Edge triggering: the same frame seen twice in a row fires nothing the second time. */
  lemma AnybodySettles(t: Tracker, ids: seq<int>)
    ensures Anybody(Anybody(t, ids).0, ids).1 == []
  {
  }

  /** A run of frames, each given as its list of face ids. */
  function Run(t: Tracker, frames: seq<seq<int>>): (r: (Tracker, seq<Signal>))
    decreases |frames|
  {
    if |frames| == 0 then (t, [])
    else
      var (t1, s1) := Anybody(t, frames[0]);
      var (t2, s2) := Run(t1, frames[1..]);
      (t2, s1 + s2)
  }

  /** The presence signals of a signal list, `true` for `someone()`. */
  function Presences(sigs: seq<Signal>): (r: seq<bool>)
    ensures |r| <= |sigs|
  {
    if |sigs| == 0 then []
    else if sigs[0].Someone? then [true] + Presences(sigs[1..])
    else if sigs[0].Nobody? then [false] + Presences(sigs[1..])
    else Presences(sigs[1..])
  }

  lemma {:induction false} PresencesAppend(a: seq<Signal>, b: seq<Signal>)
    ensures Presences(a + b) == Presences(a) + Presences(b)
    decreases |a|
  {
    if |a| == 0 {
      assert a + b == b;
    } else {
      assert (a + b)[1..] == a[1..] + b;
      PresencesAppend(a[1..], b);
    }
  }

  /** The presence signal of one frame, if any, is the new flag. */
  lemma AnybodyPresence(t: Tracker, ids: seq<int>)
    ensures Presences(Anybody(t, ids).1) ==
      if t.isAnybody != (|ids| > 0) then [!t.isAnybody] else []
  {
    var sigs := Anybody(t, ids).1;
    if |sigs| == 2 {
      assert sigs[1..][1..] == [];
    } else if |sigs| == 1 {
      assert sigs[1..] == [];
    }
  }

  /** `someone()` and `nobody()` strictly alternate, the first one being the
      opposite of the flag `start`. */
  ghost predicate Alternates(ps: seq<bool>, start: bool)
    decreases |ps|
  {
    |ps| == 0 || (ps[0] == !start && Alternates(ps[1..], !start))
  }

  /** Over any run of frames, presence signals alternate. */
  lemma {:induction false} RunAlternates(t: Tracker, frames: seq<seq<int>>)
    ensures Alternates(Presences(Run(t, frames).1), t.isAnybody)
    decreases |frames|
  {
    if |frames| > 0 {
      var r1 := Anybody(t, frames[0]);
      var r2 := Run(r1.0, frames[1..]);
      assert Run(t, frames) == (r2.0, r1.1 + r2.1);
      RunAlternates(r1.0, frames[1..]);
      PresencesAppend(r1.1, r2.1);
      AnybodyPresence(t, frames[0]);
      var p2 := Presences(r2.1);
      if t.isAnybody != r1.0.isAnybody {
        assert ([!t.isAnybody] + p2)[1..] == p2;
      } else {
        assert [] + p2 == p2;
      }
    }
  }

  /** After any run of frames the remembered flag has flipped once per
      presence signal. */
  lemma {:induction false} RunFlipsPerSignal(t: Tracker, frames: seq<seq<int>>)
    ensures Run(t, frames).0.isAnybody == ((|Presences(Run(t, frames).1)| % 2 == 1) != t.isAnybody)
    decreases |frames|
  {
    if |frames| > 0 {
      var r1 := Anybody(t, frames[0]);
      var r2 := Run(r1.0, frames[1..]);
      var r := Run(t, frames);
      assert r == (r2.0, r1.1 + r2.1);
      RunFlipsPerSignal(r1.0, frames[1..]);
      PresencesAppend(r1.1, r2.1);
      AnybodyPresence(t, frames[0]);
      var n1, n2 := |Presences(r1.1)|, |Presences(r2.1)|;
      assert |Presences(r.1)| == n1 + n2;
      ParityStep(t.isAnybody, r1.0.isAnybody, r2.0.isAnybody, n1, n2);
    }
  }

  /** One frame's flip followed by the rest of the run's flips. */
  lemma ParityStep(a: bool, b: bool, c: bool, n1: nat, n2: nat)
    requires n1 == (if a != b then 1 else 0)
    requires c == ((n2 % 2 == 1) != b)
    ensures c == (((n1 + n2) % 2 == 1) != a)
  {
  }
}

=== FILE: registry.dfy ===
/** The recognition registry of `FaceHelper` (`recognizeInfoMap`): one
    `RecognizeInfo` per tracked face id, created lazily, updated only through the
    guarded `change*` setters, and dropped when its face leaves the frame. */
module Registry {
  import opened Common
  import opened Engine

  /** `RecognizeStatus`. */
  datatype RecognizeStatus = ToRetry | Searching | Succeed | Failed

  /** The `liveness` field: the engine's `LivenessInfo` values plus the two
      request states of `RequestLivenessStatus`. */
  datatype Liveness = Unknown | Alive | NotAlive | Analyzing | LivenessFailed | Other(code: int)

  /** The liveness an engine report stores. */
  function FromEngine(l: EngineLiveness): (r: Liveness)
    ensures r != Analyzing && r != LivenessFailed
    ensures r.Alive? <==> l.EAlive?
    ensures r.NotAlive? <==> l.ENotAlive?
  {
    match l
    case EUnknown => Unknown
    case EAlive => Alive
    case ENotAlive => NotAlive
    case EOther(c) => Other(c)
  }

  /** The messages `FaceHelper` writes into an entry, by kind and parameters. */
  datatype Msg =
    | NotAliveMsg                                        // "NOT_ALIVE"
    | LivenessFailedMsg(liveness: EngineLiveness)        // "LIVENESS FAILED:<liveness>"
    | ProcessFailedMsg(code: EngineCode, faceId: int)    // "ProcessFailed:<code>,faceId:<id>"
    | ImageQualityTooLowMsg(faceId: int)                 // "ImageQuality too low,faceId:<id>"
    | ImageDetectFailedMsg(code: EngineCode, faceId: int) // "ImageDetectFailed:<code>,faceId:<id>"
    | ExtractFailedMsg(code: EngineCode, faceId: int)    // "ExtractFailed:<code>,faceId:<id>"
    | VisitorMsg(faceId: int)                            // "Visitor,<id>"
    | NotPassMsg                                         // "Not Pass：NOT_REGISTERED"
    | CustomMsg(text: string)                            // returned by `onRecognized`
    | FaceIdMsg(faceId: int)                             // "<id>"
    | DetectInfoFullMsg                                  // "DetectInfoThread is full."
    | FeatureFullMsg                                     // "FeatureThread is full."

  /** One `RecognizeInfo`. */
  datatype Entry = Entry(
    status: RecognizeStatus,
    liveness: Liveness,
    livenessRetries: nat,
    extractRetries: nat,
    mask: Mask,
    msg: Option<Msg>)

  /** A freshly created `RecognizeInfo(faceId)`. */
  const NewEntry: Entry := Entry(ToRetry, Unknown, 0, 0, MaskUnknown, None)

  type Registry = map<int, Entry>

  /** `getRecognizeInfo(faceId)`: the entry for `id`, created and stored when absent. */
  function GetRecognizeInfo(reg: Registry, id: int): (r: (Registry, Entry))
    ensures id in r.0 && r.0[id] == r.1
    ensures r.0.Keys == reg.Keys + {id}
    ensures id in reg ==> r.0 == reg
    ensures id !in reg ==> r.1 == NewEntry && forall k :: k in reg ==> k in r.0 && r.0[k] == reg[k]
  {
    if id in reg then (reg, reg[id]) else (reg[id := NewEntry], NewEntry)
  }

  /** Lazy creation is idempotent: the second lookup creates nothing and returns
      the entry the first one returned. */
  lemma GetRecognizeInfoIdempotent(reg: Registry, id: int)
    ensures GetRecognizeInfo(GetRecognizeInfo(reg, id).0, id) == GetRecognizeInfo(reg, id)
  {
  }

  /** Looking up many ids creates exactly the missing ones, each as a fresh entry. */
  function GetAll(reg: Registry, ids: seq<int>): (r: Registry)
    decreases |ids|
  {
    if |ids| == 0 then reg else GetAll(GetRecognizeInfo(reg, ids[0]).0, ids[1..])
  }

  lemma {:induction false} GetAllCreatesMissing(reg: Registry, ids: seq<int>)
    ensures GetAll(reg, ids).Keys == reg.Keys + set i | i in ids
    ensures forall k :: k in reg ==> GetAll(reg, ids)[k] == reg[k]
    ensures forall k :: k in GetAll(reg, ids) && k !in reg ==> GetAll(reg, ids)[k] == NewEntry
    decreases |ids|
  {
    if |ids| > 0 {
      var reg1 := GetRecognizeInfo(reg, ids[0]).0;
      GetAllCreatesMissing(reg1, ids[1..]);
      assert (set i | i in ids) == {ids[0]} + set i | i in ids[1..];
    }
  }

  /** The three guarded setters `changeRecognizeStatus`, `changeLiveness` and
      `changeMsg`, as one update each. */
  datatype Change =
    | SetStatus(id: int, status: RecognizeStatus)
    | SetLiveness(id: int, liveness: Liveness)
    | SetMsg(id: int, msg: Option<Msg>)

  /** A setter writes only its own field, and only when the id is present. */
  function ApplyChange(reg: Registry, c: Change): (r: Registry)
    ensures r.Keys == reg.Keys
    ensures c.id !in reg ==> r == reg
    ensures forall k :: k in reg && k != c.id ==> r[k] == reg[k]
    ensures c.id in reg ==> match c
      case SetStatus(_, s) => r[c.id] == reg[c.id].(status := s)
      case SetLiveness(_, l) => r[c.id] == reg[c.id].(liveness := l)
      case SetMsg(_, m) => r[c.id] == reg[c.id].(msg := m)
  {
    if c.id !in reg then reg
    else
      var e := reg[c.id];
      reg[c.id := match c
        case SetStatus(_, s) => e.(status := s)
        case SetLiveness(_, l) => e.(liveness := l)
        case SetMsg(_, m) => e.(msg := m)]
  }

  function ApplyChanges(reg: Registry, cs: seq<Change>): (r: Registry)
    decreases |cs|
  {
    if |cs| == 0 then reg else ApplyChanges(ApplyChange(reg, cs[0]), cs[1..])
  }

  /** No sequence of `change*` calls creates or removes an entry. */
  lemma {:induction false} ChangesKeepKeys(reg: Registry, cs: seq<Change>)
    ensures ApplyChanges(reg, cs).Keys == reg.Keys
    decreases |cs|
  {
    if |cs| > 0 {
      ChangesKeepKeys(ApplyChange(reg, cs[0]), cs[1..]);
    }
  }

  /** `change*` calls for ids that have left (a delayed reset for a departed face,
      say) change nothing at all. */
  lemma {:induction false} ChangesOnAbsentIds(reg: Registry, cs: seq<Change>)
    requires forall i :: 0 <= i < |cs| ==> cs[i].id !in reg
    ensures ApplyChanges(reg, cs) == reg
    decreases |cs|
  {
    if |cs| > 0 {
      ChangesOnAbsentIds(ApplyChange(reg, cs[0]), cs[1..]);
    }
  }

  /** `clearLeftFace(faceInfoList)`: keeps exactly the entries whose id occurs in
      `ids`, unchanged, and reports the removed ids (each removed entry's monitor is
      notified). */
  function ClearLeftFace(reg: Registry, ids: seq<int>): (r: (Registry, set<int>))
    ensures r.0.Keys == reg.Keys * set i | i in ids
    ensures forall k :: k in r.0 ==> r.0[k] == reg[k]
    ensures r.1 == reg.Keys - r.0.Keys
  {
    var kept := map k | k in reg && k in ids :: reg[k];
    (kept, set k | k in reg && k !in ids)
  }

  /** Clearing twice with the same ids removes nothing the second time. */
  lemma ClearLeftFaceIdempotent(reg: Registry, ids: seq<int>)
    ensures var once := ClearLeftFace(reg, ids).0;
      ClearLeftFace(once, ids) == (once, {})
  {
    var once := ClearLeftFace(reg, ids).0;
    var twice := ClearLeftFace(once, ids).0;
    assert twice.Keys == once.Keys;
    assert twice == once;
    var removed := ClearLeftFace(once, ids).1;
    assert removed == once.Keys - twice.Keys;
    assert removed == {};
  }
}

=== FILE: single_click.dfy ===
/** The `@SingleClick` aspect (`SingleClickAspect`): a call to an annotated
    method is dropped when the same call (same method, same arguments) was let
    through less than `value` milliseconds earlier. */
module SingleClick {

  import opened Common

  /** The annotation's default window, in milliseconds. */
  const DefaultWindow: int := 1000

  /** How an argument is appended to the tag: its `toString()`, or "null". */
  function ArgText(arg: Option<string>): string {
    if arg.Some? then arg.value else "null"
  }

  /** The arguments, separated by ", ". */
  function JoinArgs(args: seq<Option<string>>): string
    decreases |args|
  {
    if |args| == 0 then ""
    else if |args| == 1 then ArgText(args[0])
    else JoinArgs(args[..|args| - 1]) + ", " + ArgText(args[|args| - 1])
  }

  /** The tag of a call: "Class.method(" followed by the joined arguments and ")". */
  function Tag(className: string, methodName: string, args: seq<Option<string>>): string {
    className + "." + methodName + "(" + JoinArgs(args) + ")"
  }

  /** The tag construction as the aspect does it, appending to a builder. */
  method BuildTag(className: string, methodName: string, args: seq<Option<string>>) returns (tag: string)
    ensures tag == Tag(className, methodName, args)
    ensures StartsWith(tag, className + "." + methodName + "(") && tag[|tag| - 1] == ')'
  {
    var builder := className + "." + methodName;
    builder := builder + "(";
    var head := builder;
    var i := 0;
    while i < |args|
      invariant 0 <= i <= |args|
      invariant builder == head + JoinArgs(args[..i])
    {
      assert args[..i + 1][..i] == args[..i];
      if i == 0 {
        builder := builder + ArgText(args[i]);
      } else {
        builder := builder + ", " + ArgText(args[i]);
      }
      i := i + 1;
    }
    assert args[..|args|] == args;
    builder := builder + ")";
    tag := builder;
    assert tag[..|head|] == head;
  }

  /** A tag with no arguments is "Class.method()"; each further argument adds
      ", " and its text. */
  lemma TagShape(className: string, methodName: string, args: seq<Option<string>>, a: Option<string>)
    ensures Tag(className, methodName, []) == className + "." + methodName + "()"
    ensures |args| > 0 ==> JoinArgs(args + [a]) == JoinArgs(args) + ", " + ArgText(a)
  {
    assert (args + [a])[..|args|] == args;
  }

  /** The aspect's memory: the last call let through, and its time. */
  datatype Debounce = Debounce(lastTime: int, lastTag: Option<string>)

  /** The field initialisers. */
  const Initial: Debounce := Debounce(0, None)

  /** One intercepted call at time `now`: whether it proceeds, and the new memory. */
  function Intercept(d: Debounce, now: int, tag: string, window: int): (r: (Debounce, bool))
    ensures !r.1 <==> now - d.lastTime < window && d.lastTag == Some(tag)
    ensures !r.1 ==> r.0 == d
    ensures r.1 ==> r.0 == Debounce(now, Some(tag))
  {
    if now - d.lastTime < window && d.lastTag == Some(tag) then (d, false)
    else (Debounce(now, Some(tag)), true)
  }

  /** The very first intercepted call always proceeds. */
  lemma FirstCallProceeds(now: int, tag: string, window: int)
    ensures Intercept(Initial, now, tag, window).1
  {
  }

  /** A call with a different tag always proceeds, whatever the timing. */
  lemma OtherTagProceeds(d: Debounce, now: int, tag: string, window: int)
    requires d.lastTag != Some(tag)
    ensures Intercept(d, now, tag, window).1
  {
  }

  /** The calls let through by a burst of calls with the same tag. */
  function Burst(d: Debounce, times: seq<int>, tag: string, window: int): (r: (Debounce, nat))
    decreases |times|
  {
    if |times| == 0 then (d, 0)
    else
      var (d1, went) := Intercept(d, times[0], tag, window);
      var (d2, n) := Burst(d1, times[1..], tag, window);
      (d2, n + if went then 1 else 0)
  }

  /** Repeats of a call that all arrive within the window of the call last let
      through are all dropped, and the memory stays as it was: a dropped call
      does not extend the window. */
  lemma {:induction false} RepeatsWithinWindowDropped(d: Debounce, times: seq<int>, tag: string, window: int)
    requires d.lastTag == Some(tag)
    requires forall k :: 0 <= k < |times| ==> times[k] - d.lastTime < window
    ensures Burst(d, times, tag, window) == (d, 0)
    decreases |times|
  {
    if |times| > 0 {
      RepeatsWithinWindowDropped(d, times[1..], tag, window);
    }
  }
}

=== FILE: title_bar.dfy ===
/** `TitleBarAction.obtainTitleBar`: the depth-first search of a view group
    for its first `TitleBar`. */
module TitleBar {

  import opened Common

  /** A view in the layout tree. A title bar is itself a view group in the
      toolkit, so both flags may hold; a view that is not a group has no
      children the search looks at. */
  datatype View = View(id: int, isTitleBar: bool, isGroup: bool, children: seq<View>)

  /** The search over a group's children, in index order: a title bar child is
      returned at once, a group child is searched before its later siblings. */
  function Search(cs: seq<View>): (r: Option<View>)
    ensures r.Some? ==> r.value.isTitleBar
    ensures (forall k :: 0 <= k < |cs| ==> !cs[k].isTitleBar && !cs[k].isGroup) ==> r.None?
    decreases cs
  {
    if |cs| == 0 then None
    else
      var c := cs[0];
      if c.isTitleBar then Some(c)
      else
        var inner := if c.isGroup then Search(c.children) else None;
        if inner.Some? then inner else Search(cs[1..])
  }

  /** `obtainTitleBar(group)`: null for a null group, otherwise the search of
      its children; the group itself is never a candidate. */
  function ObtainTitleBar(group: Option<View>): (r: Option<View>)
    ensures group.None? ==> r.None?
    ensures r.Some? ==> r.value.isTitleBar && r.value in Descendants(group.value.children)
    ensures r.Some? ==> Size(r.value) < Size(group.value)
    ensures group.Some? ==> (r.None? <==> forall k :: 0 <= k < |Descendants(group.value.children)| ==> !Descendants(group.value.children)[k].isTitleBar)
  {
    if group.None? then None
    else
      var cs := group.value.children;
      SearchIsFirstInPreorder(cs);
      DescendantsSmaller(cs);
      Search(cs)
  }

  /** Reference order: every child, followed by its own descendants when it is
      a group, then the later children's subtrees (depth-first pre-order). */
  function Descendants(cs: seq<View>): seq<View>
    decreases cs
  {
    if |cs| == 0 then []
    else [cs[0]] + (if cs[0].isGroup then Descendants(cs[0].children) else []) + Descendants(cs[1..])
  }

  /** The first title bar of a sequence of views. */
  function FirstTitleBar(vs: seq<View>): (r: Option<View>)
    ensures r.None? <==> forall k :: 0 <= k < |vs| ==> !vs[k].isTitleBar
    ensures r.Some? ==> r.value.isTitleBar
    ensures r.Some? ==> exists k :: 0 <= k < |vs| && vs[k] == r.value && (forall j :: 0 <= j < k ==> !vs[j].isTitleBar)
  {
    if |vs| == 0 then None
    else if vs[0].isTitleBar then Some(vs[0])
    else
      var r := FirstTitleBar(vs[1..]);
      assert forall k :: 0 < k < |vs| ==> vs[k] == vs[1..][k - 1];
      r
  }

  /** The first title bar of a concatenation comes from the left part when it has one. */
  lemma {:induction false} FirstTitleBarAppend(a: seq<View>, b: seq<View>)
    ensures FirstTitleBar(a + b) == if FirstTitleBar(a).Some? then FirstTitleBar(a) else FirstTitleBar(b)
    decreases |a|
  {
    if |a| > 0 {
      assert (a + b)[1..] == a[1..] + b;
      FirstTitleBarAppend(a[1..], b);
    } else {
      assert a + b == b;
    }
  }

  /** The search returns exactly the first title bar in depth-first pre-order. */
  lemma {:induction false} SearchIsFirstInPreorder(cs: seq<View>)
    ensures Search(cs) == FirstTitleBar(Descendants(cs))
    decreases cs
  {
    if |cs| > 0 {
      var c := cs[0];
      var sub := if c.isGroup then Descendants(c.children) else [];
      if c.isGroup {
        SearchIsFirstInPreorder(c.children);
      }
      SearchIsFirstInPreorder(cs[1..]);
      FirstTitleBarAppend([c] + sub, Descendants(cs[1..]));
      FirstTitleBarAppend([c], sub);
    }
  }

  /** The number of views in a tree. */
  function Size(v: View): nat {
    1 + SizeAll(v.children)
  }

  function SizeAll(cs: seq<View>): nat
    decreases cs
  {
    if |cs| == 0 then 0 else 1 + SizeAll(cs[0].children) + SizeAll(cs[1..])
  }

  /** Every view the search can visit is smaller than the group it started from. */
  lemma {:induction false} DescendantsSmaller(cs: seq<View>)
    ensures forall k :: 0 <= k < |Descendants(cs)| ==> Size(Descendants(cs)[k]) <= SizeAll(cs)
    decreases cs
  {
    if |cs| > 0 {
      var c := cs[0];
      var sub := if c.isGroup then Descendants(c.children) else [];
      if c.isGroup {
        DescendantsSmaller(c.children);
      }
      DescendantsSmaller(cs[1..]);
      var d := Descendants(cs);
      assert d == [c] + sub + Descendants(cs[1..]);
      forall k | 0 <= k < |d|
        ensures Size(d[k]) <= SizeAll(cs)
      {
        if k == 0 {
        } else if k <= |sub| {
          assert d[k] == sub[k - 1];
        } else {
          assert d[k] == Descendants(cs[1..])[k - 1 - |sub|];
        }
      }
    }
  }
}
